=== FILE: README.md ===
# PeachCore kernel core in Dafny

A model of the process and file core of the PeachCore teaching kernel (a
RISC-V kernel in Rust): threads and processes, the ready queue and the
processor, wait queues, semaphores and futexes, process creation (`new`,
`fork`, `exec`, `clone`), exit and `waitpid`, the per-process fd table and
the fd system calls, the working-directory record, open files over inodes,
the RedoxFS disk adapter, and the `uname` record.

The kernel's shared objects (`Arc<TaskStruct>`, `Arc<ProcessControlBlock>`)
are handles into maps of one `KernelState.Kernel` record, which also holds
the ready queue, the processor, the pid index, the trap contexts, INITPROC
and the idle pid. Every operation is a function or method from a kernel
state to a result and a new state. A kernel panic (`panic!`, a failed
`assert!`, `unwrap` of a value the source checks at run time) is the
outcome `Panic` of `Base.Res`. A fact the kernel takes for granted (a
running task exists, its process is alive) is a precondition. What the
address space, the allocators, the ELF loader, `translated_*` and the file
system answer is supplied as parameters. User memory is a map from
addresses to words, in which an unmapped address panics.

Modules follow the source files: `Base` (options, panics, machine
integers), `Trap`, `Tasks`, `WaitQueues`, `Manager`, `Processors`, `Dirs`,
`OsInodes`, `OpenFiles`, `Pcbs`, `KernelState` (suspend, block, wake-up,
signals), `Semaphores`, `Futexes`, `Exit`, `Lifecycle` (`new`, `fork`,
`exec`), `FdTables`, `SysFs`, `SysWait`, `SysProcess`, `RedoxDisk`,
`SysInfo`, `SysUname` and `Strings`.

This revision of the source is internally inconsistent in these places;
the model reads them as follows:

- `waitpid`, `sys_times` and `sys_futex` use PCB fields (`futex_table`,
  `times`) and methods (`accumulate_systime`, `get_times`) that this
  revision's `ProcessControlBlockInner` (os/src/task/process.rs:65-103) does
  not declare. The model gives the PCB a futex table and a `Tms` record,
  both empty or zero in `new` and `fork`, and performs no time accounting.
- `open_file` tests `OpenFlags::CREAT`, which `OpenFlags` does not declare;
  it is read as the `CREATE` bit (1 << 9).
- On exit the thread's record keeps `exit_code & 0xff` and the process
  keeps `exit_code << 8`; `waitpid` stores the process's value.

## Model

| member | source | states |
|---|---|---|
| WaitQueues.New | os/src/task/wait_queue.rs:24-29 | a new queue holds no task, its flag is FREE and its length is 0 |
| WaitQueues.Take | os/src/task/wait_queue.rs:31-33 | None exactly when the queue is empty, and then nothing changes; otherwise the front task, with the rest of the queue in order; the flag is untouched and no status is changed |
| WaitQueues.Add | os/src/task/wait_queue.rs:35-40 | the task becomes Blocked (no other TCB changes) and is appended at the back; the flag is untouched |
| WaitQueues.Len | os/src/task/wait_queue.rs:43-45 | the number of waiters, zero exactly when `take` finds nobody |
| WaitQueues.LenAddTake | os/src/task/wait_queue.rs:43-45 | `add` raises the length by one; `take` lowers it by one on a non-empty queue and leaves 0 at 0 |
| WaitQueues.TryAcquire | os/src/task/wait_queue.rs:49-50 | the swap stores LOCK and reports success exactly when the old flag was FREE |
| WaitQueues.Lock | os/src/task/wait_queue.rs:47-57 | on return the flag is LOCK and the queue is as it was |
| WaitQueues.Unlock | os/src/task/wait_queue.rs:59-74 | dropping the guard stores FREE and leaves the queue alone |
| WaitQueues.GuardTake | os/src/task/wait_queue.rs:86-88 | taking through the guard is the queue's own `take` and leaves the flag as it is |
| WaitQueues.GuardAdd | os/src/task/wait_queue.rs:90-92 | adding through the guard is the queue's own `add` and leaves the flag as it is |
| WaitQueues.GuardedAddReleases | os/src/task/wait_queue.rs:47-92 | lock, add through the guard, drop: the same queue as a plain `add`, with the flag FREE again |
| WaitQueues.AddAllAppends | os/src/task/wait_queue.rs:35-40 | a run of adds appends the tasks in order, leaves each of them Blocked and keeps the flag |
| WaitQueues.TakeNTakesPrefix | os/src/task/wait_queue.rs:31-33 | n takes return the n oldest tasks in queue order (all of them when fewer are queued) and leave the rest |
| WaitQueues.FifoOrder | os/src/task/wait_queue.rs:31-40 | tasks added to a new queue are taken back in insertion order |
| Manager.New | os/src/task/manager.rs:22-26 | the ready queue starts empty |
| Manager.Add | os/src/task/manager.rs:27-29 | the task is appended at the back of the ready queue |
| Manager.Fetch | os/src/task/manager.rs:30-32 | None exactly on an empty queue, which stays empty; otherwise the front task, the rest keeping its order |
| Manager.WakeupTask | os/src/task/manager.rs:46-51 | the task is marked Ready (nothing else in the TCBs changes) and appended to the ready queue |
| Manager.FetchAfterAdd | os/src/task/manager.rs:27-32 | FIFO: a task added behind others is fetched after them, and adding commutes with fetching from a non-empty queue |
| Manager.RoundRobin | os/src/task/manager.rs:27-32 | k fetch-and-re-add turns rotate the ready queue by k, so ready tasks run in cyclic order |
| Manager.Pid2Process | os/src/task/manager.rs:57-60 | Some exactly when the pid is indexed, and then its process |
| Manager.InsertIntoPid2Process | os/src/task/manager.rs:62-64 | a later lookup of the pid gives the process; other entries are kept; the key set grows by the pid only |
| Manager.RemoveFromPid2Process | os/src/task/manager.rs:66-71 | panics exactly for a pid not indexed; otherwise only that key is gone and every other entry is kept |
| Tasks.NewTask | os/src/task/task.rs:63-83 | a new thread is Ready with no exit code, owns its resources, uses their trap-context page, resumes in `trap_return` on its own kernel stack, and points back at its process |
| Tasks.NewKpthread | os/src/task/task.rs:85-105 | a kernel thread is Ready with no exit code and trap-context page 0, and resumes in the kpthread return path one `TrapContext` below its kernel-stack top |
| Tasks.SetStatus | os/src/task/task.rs:108-113 | only the named TCB's status changes |
| Processors.New | os/src/task/processor.rs:23-28 | no task is current and the idle continuation is the zero context |
| Processors.TakeCurrent | os/src/task/processor.rs:32-34 | hands out the current task and leaves the slot empty |
| Processors.Current | os/src/task/processor.rs:35-37 | reports the current task and leaves the slot unchanged |
| Processors.RunTasksStep | os/src/task/processor.rs:45-64 | with a ready task: the front one leaves the queue, is Running and current; with none: nothing changes |
| Processors.CurrentProcess | os/src/task/processor.rs:75-77 | panics exactly when no task runs or its process is gone; otherwise the running task's process |
| Processors.CurrentKstackTop | os/src/task/processor.rs:101-110 | the running task's kernel-stack top, or the boot stack top when none runs |
| Processors.Schedule | os/src/task/processor.rs:112-118 | the switch resumes the idle continuation; no status and no slot changes |
| KernelState.Suspend | os/src/task/mod.rs:79-98 | the slot empties, the task becomes Ready and joins the back of the ready queue; processes, pids and trap contexts are untouched; the scheduler invariant is kept |
| KernelState.BlockCurrentTask | os/src/task/mod.rs:101-106 | the slot empties and the task becomes Blocked without joining the ready queue; the scheduler invariant is kept |
| KernelState.BlockCurrentAndRunNext | os/src/task/mod.rs:108-114 | the same state change as `block_current_task` |
| KernelState.Wakeup | os/src/task/manager.rs:46-51 | on the whole state: Ready and appended; a Blocked task's wake-up keeps the scheduler invariant |
| KernelState.RunStep | os/src/task/processor.rs:45-64 | one turn of the idle loop on the whole state; from an idle processor it keeps the scheduler invariant |
| KernelState.YieldThenRun | os/src/task/mod.rs:79-98 | yield then one scheduling turn: the yielding task resumes at once when it was alone, otherwise the oldest ready task runs and the yielding one waits behind the rest |
| KernelState.AddSignal | os/src/task/mod.rs:238-242 | the flags are or-ed into one process's set and nothing else changes |
| KernelState.AddSignalAgain | os/src/task/mod.rs:238-242 | adding the same flags twice is adding them once |
| KernelState.CurrentAddSignal | os/src/task/mod.rs:238-242 | the flags are or-ed into the running process's set and nothing else changes |
| Semaphores.New | os/src/sync/semaphore.rs:25-34 | no waiters, and the count is `res_count` read as an `isize` (the count itself, balanced, when it fits) |
| Semaphores.UpSem | os/src/sync/semaphore.rs:36-44 | the count rises by one; a count still at most 0 pops exactly the front waiter, if any; a positive count wakes nobody; the balance between count and waiters is kept |
| Semaphores.DownSem | os/src/sync/semaphore.rs:46-54 | the count drops by one; the caller waits at the back exactly when the count turns negative, otherwise the queue is untouched; the balance is kept |
| Semaphores.Up | os/src/sync/semaphore.rs:36-44 | the popped waiter, if any, is woken (Ready, appended to the ready queue); with none the kernel is unchanged; waiters stay live tasks |
| Semaphores.Down | os/src/sync/semaphore.rs:46-54 | a caller that has to wait is queued and blocked off the processor; otherwise the kernel is unchanged |
| Semaphores.DownAllQueues | os/src/sync/semaphore.rs:46-54 | from a non-positive count, each `down` queues its task at the back and lowers the count |
| Semaphores.UpNWakesFront | os/src/sync/semaphore.rs:36-44 | n `up`s on a balanced semaphore wake the n front waiters in queue order |
| Semaphores.FifoWakeOrder | os/src/sync/semaphore.rs:36-54 | waiters blocked on a semaphore made with 0 are woken in the order they blocked, and the semaphore returns to 0 with no waiters |
| Futexes.Code | os/src/sync/futex.rs:23-38 | every operation has a code below FUTEX_OP_SIZE (14) |
| Futexes.From | os/src/sync/futex.rs:59-66 | panics exactly from 14 on; below it, the operation whose code is the value |
| Futexes.FromCode | os/src/sync/futex.rs:23-66 | decoding an operation's code gives the operation back |
| Futexes.QueueAt | os/src/sync/futex.rs:90-93 | the queue stored for the key, or a new empty unlocked one for an unseen key |
| KernelState.CurrentUserToken | os/src/task/processor.rs:79-82 | reading the token borrows the running process again: it panics exactly when the caller already holds that process borrowed, and otherwise yields that process's address space |
| Futexes.SysFutexWait | os/src/sync/futex.rs:80-113 | with the token read before the process is borrowed (the corrected order): an unmapped word panics; a word other than `expected` gives -EAGAIN with the key's queue created but nobody queued or blocked; a match appends the caller to that key's queue, blocks it and returns 0 |
| Futexes.WaitReadingToken | os/src/sync/futex.rs:86-99 | from the token read on, the wait panics exactly when the running process is among the borrowed ones or the word is unmapped, and otherwise is the corrected wait |
| Futexes.SysFutexWaitAsWritten | os/src/sync/futex.rs:86-99 | with the process borrowed since line 88, the token read at line 98 borrows it again, so every FUTEX_WAIT panics |
| Futexes.FutexWaitAsWrittenAlwaysPanics | os/src/sync/futex.rs:86-104 | as written, WAIT panics for every word and expected value; in the corrected order, with nothing borrowed, it returns 0 on a match and -EAGAIN on a mismatch |
| Futexes.WakeLoop | os/src/sync/futex.rs:129-141 | wakes min(n, queue length) tasks, the front ones, in order, appending them to the ready queue and leaving the rest queued |
| Futexes.WakeLoopStatus | os/src/sync/futex.rs:129-141 | exactly the woken tasks become Ready and no other TCB changes |
| Futexes.SysFutexWake | os/src/sync/futex.rs:115-144 | returns min(n, queue length); those front waiters are Ready and appended to the ready queue in FIFO order, the rest stay queued; the processor, pid index and trap contexts are untouched |
| Futexes.SysFutex | os/src/sync/futex.rs:68-78 | op 0 is the corrected WAIT (`SysFutexWait`; as written it panics), op 1 is WAKE, codes 2 to 13 give -1 and change nothing, codes from 14 panic |
| Futexes.WakeZero | os/src/sync/futex.rs:129-131 | WAKE of 0 returns 0 and leaves the ready queue and every existing queue as they were |
| Futexes.WaitEnqueuesOnItsKey | os/src/sync/futex.rs:86-112 | with the corrected WAIT (as written it panics), a matching WAIT leaves the caller Blocked, off the processor and last on the queue of its own address; the queue of any other address is untouched (queues are keyed by address, not value) |
| Pcbs.AllocFd | os/src/task/process.rs:111-118 | the lowest vacant slot, with every slot below it occupied; a new vacant slot is pushed at the end only when none is vacant, and the table is otherwise unchanged |
| Pcbs.AllocFdFrame | os/src/task/process.rs:111-118 | no occupied slot changes, the table grows by at most one, and it grows exactly when every slot was occupied |
| Pcbs.ThreadCount | os/src/task/process.rs:128-130 | the number of thread slots, vacant ones included; every tid `get_task` finds lies below it |
| Pcbs.GetTask | os/src/task/process.rs:132-134 | panics exactly for a missing or vacant slot; otherwise the thread held in slot tid |
| Pcbs.ChangeProgramBrk | os/src/task/process.rs:140-166 | 0 only reports the break; another value (read as unsigned) asks the address space to shrink below the top or grow otherwise, and on success moves the top there and reports the old top, on failure reports None and changes nothing |
| Pcbs.BrkQueryAfterMove | os/src/task/process.rs:140-166 | after a successful move, querying the break gives the new top, and the heap bottom stays put |
| Pcbs.MmapFlags | os/src/task/process.rs:177-190 | U exactly for a user-mode process; R, W, X exactly when protection bits 0, 1, 2 are set |
| Pcbs.MmapFlagsRoundTrip | os/src/task/process.rs:177-190 | for every protection value below 8 the translated flags give the value back, so no protection bit is lost |
| Pcbs.CurrentTaskMmap | os/src/task/process.rs:168-199 | succeeds exactly for a protection value below 8 with page-aligned address and length, and then is the address space's mapping of [addr, addr + len) with the translated flags; anything else panics |
| Lifecycle.FreshPcb | os/src/task/process.rs:220-247 | a new process is alive with exit code 0, no parent, children or threads, the three standard streams in fds 0 to 2, cwd "/" on the root, an empty heap at the program break, user privilege and no signals |
| Lifecycle.NewProcess | os/src/task/process.rs:212-273 | the fresh process and its one new thread (tid 0) are added without touching any other process or thread; the thread's trap context starts the program at its entry on its own stacks; the pid finds the process; the thread is last in the ready queue; the scheduler invariant is kept |
| Lifecycle.QueueAppendFresh | os/src/task/manager.rs:27-29 | appending a task that was not yet a TCB keeps the ready queue free of repeats |
| Lifecycle.Fork | os/src/task/process.rs:394-466 | succeeds exactly for a process with one thread slot holding a main thread with resources; the child has the given pid, the parent as parent, no children, the parent's fd slots and heap bounds, cwd "/" on the parent's inode, the new address space and one thread; the parent's child list gains the child and no other process changes |
| Lifecycle.ForkStartsChild | os/src/task/process.rs:438-464 | the child's thread is a fresh TCB of the child on the parent's user stack base, resumes at the parent's registers and program counter on its own kernel stack, is last in the ready queue, the pid finds the child, every old TCB is kept and the scheduler invariant survives |
| Lifecycle.ArgvLayout | os/src/task/process.rs:357-389 | the argv array sits right below the stack top and ends in a null pointer; entry i points at a NUL-terminated copy of argument i; every byte written lies between the final stack pointer and the array; the stack pointer is 8-aligned and less than 8 below the strings |
| Lifecycle.CopyString | os/src/task/process.rs:371-376 | the string and a NUL are at the address afterwards, every earlier byte above the copy survives, and nothing else is written |
| Lifecycle.CopiedKept | os/src/task/process.rs:357-389 | a copy stays intact under later writes that keep every byte already written |
| Lifecycle.AlignDown8 | os/src/task/process.rs:378-379 | the largest multiple of 8 not above the stack pointer |
| Lifecycle.ArgsSizeMono | os/src/task/process.rs:357-389 | the room taken by the first m strings is no more than that of the first n, for m <= n |
| Lifecycle.OversizedArgDoesNotFit | os/src/task/process.rs:357-376 | an argument at least as long as the 8 KiB user stack never fits, so exec panics on it |
| Lifecycle.Exec | os/src/task/process.rs:336-391 | panics exactly unless the process has one thread slot holding a main thread with resources and the argument block fits in the USER_STACK_SIZE (8 KiB) bytes of the new user stack; otherwise the address space and heap are replaced, the main thread gets the new user stack and trap-context page, and its trap context enters the program in user mode with the argument block on its stack, argc in a0, the argv address in a1 and zero elsewhere; pids, queue and processor are kept |
| Exit.LowByte | os/src/task/mod.rs:137 | the thread exit code is in 0..255 |
| Exit.WaitStatus | os/src/task/mod.rs:171 | the process exit status is an i32 (the shift wraps) |
| Exit.WExitStatusOfWaitStatus | os/src/task/mod.rs:137-171 | for every i32 exit code, WEXITSTATUS of the recorded process status equals the thread's recorded low byte: the 32-bit wrap of the shift loses nothing a parent reads |
| Exit.SetParents | os/src/task/mod.rs:173-180 | every listed child now names the new parent; no other process changes and no process is added or dropped |
| Exit.DropRes | os/src/task/mod.rs:185-192 | exactly the threads in the slots lose their user resources; every other TCB is kept |
| Exit.ClearChildTid | os/src/task/mod.rs:123-129 | without CLONE_CHILD_CLEARTID nothing happens; with it an unmapped ctid panics, otherwise the word becomes 0 and one futex waiter on that address is woken; the exiting thread and its process stay current |
| Exit.RetireThread | os/src/task/mod.rs:131-147 | the thread records the low byte of the code and loses its resources, the processor is freed, and a CLONE_VM thread's slot is vacated (panicking exactly for a slot past the table); nothing else changes |
| Exit.RetireProcess | os/src/task/mod.rs:166-211 | panics exactly when the pid is not registered or the reparenting would borrow a process twice; otherwise the pid is unregistered, the process is a zombie holding `code << 8`, its children name INITPROC and are appended to INITPROC's list, its threads lose their resources, and its children, fds and every thread slot but the first are cleared |
| Exit.ExitCurrentAndRunNext | os/src/task/mod.rs:117-218 | a fault on the ctid word panics; a scheduled outcome leaves the processor free and the thread's low byte recorded; the idle process's main thread shuts down, with failure exactly for a non-zero code, and only it does; any other main thread leaves its process a zombie with `code << 8` |
| Trap.SetSp | os/src/trap/context.rs:20-22 | x2 holds the new stack pointer; every other register and field is kept |
| Trap.AppInitContext | os/src/trap/context.rs:23-41 | all 32 general and 32 floating-point registers zero except x2 = the user stack; the given entry, kernel page table, kernel stack and handler; SPP = User with the other `sstatus` bits as read |
| Trap.KpthreadInitContext | os/src/trap/context.rs:43-62 | the same register layout, with SPP = Supervisor and SPIE set and the other `sstatus` bits as read |
| Trap.InitContextsDifferOnlyInStatus | os/src/trap/context.rs:23-62 | the two constructors give the same context apart from `sstatus` |
| Dirs.New | os/src/task/dir_struct.rs:25-39 | the working directory starts as "/" on the given inode |
| Dirs.GetCurrentInode | os/src/task/dir_struct.rs:41-46 | the stored directory inode, which with the cwd makes up the whole record |
| Dirs.Getcwd | os/src/task/dir_struct.rs:58-61 | the stored cwd, unchanged; a `chdir` to it returns 0 and changes nothing |
| Dirs.CwdAfterNewAndChdir | os/src/task/dir_struct.rs:41-61 | `getcwd` reports "/" on a new record and the given path after `chdir`; `get_current_inode` is never changed by either |
| Dirs.Chdir | os/src/task/dir_struct.rs:52-56 | always 0; the path is taken verbatim and the inode kept |
| Dirs.LastSlash | os/src/task/dir_struct.rs:74 | the position of the last "/" (no "/" after it), or None exactly when there is none |
| Dirs.Mkdirat | os/src/task/dir_struct.rs:63-69 | reports the file system's answer; on success the cwd gains "/" and the name, on failure nothing changes |
| Dirs.Rmdirat | os/src/task/dir_struct.rs:71-78 | reports the file system's answer; on success the cwd is cut before its last "/" (kept when it has none), on failure nothing changes |
| Dirs.LastSlashAfterAppend | os/src/task/dir_struct.rs:66-75 | after appending "/" and a name without "/", the last slash is the appended one |
| Dirs.MkdirThenRmdir | os/src/task/dir_struct.rs:63-78 | making then removing a plain-named directory returns to the original working directory |
| OsInodes.ReadWrite | os/src/fs/os_inode.rs:62-70 | readable exactly without WRONLY, writable exactly for a non-empty set, never neither |
| OsInodes.New | os/src/fs/os_inode.rs:28-34 | the cursor starts at 0 on the given inode with the given permissions |
| OsInodes.Readable | os/src/fs/os_inode.rs:74-76 | the read permission the file was opened with |
| OsInodes.Writable | os/src/fs/os_inode.rs:77-79 | the write permission the file was opened with |
| OsInodes.ReadSlices | os/src/fs/os_inode.rs:83-90 | chunk i is what the inode gives for buffer i at the offset reached so far, all chunks are non-empty, and the run stops at the first empty read |
| OsInodes.Read | os/src/fs/os_inode.rs:80-92 | returns the total of the chunks read and advances the cursor by exactly that |
| OsInodes.WriteSlices | os/src/fs/os_inode.rs:96-101 | succeeds exactly when every slice is written whole at the offset reached so far (a short write panics), and then reports the total length |
| OsInodes.WholeWritesCons | os/src/fs/os_inode.rs:96-101 | the slices are all written whole exactly when the first is and the rest are from the offset after it |
| OsInodes.Write | os/src/fs/os_inode.rs:93-103 | succeeds exactly when every slice is written whole from the cursor on; the total length is returned and the cursor advances by it |
| OsInodes.ReadAllFrom | os/src/fs/os_inode.rs:39-46 | the collected bytes are the chunks read in order, and a read at the end of them comes back empty |
| OsInodes.ReadAll | os/src/fs/os_inode.rs:35-48 | returns the bytes read from the cursor until an empty chunk, and the cursor ends just past them |
| OsInodes.IdealChunk | os/src/fs/os_inode.rs:40 | a reference inode: at most the buffer's length, empty at or past the end, otherwise a non-empty front piece of the data from the offset |
| OsInodes.IdealReadAt | os/src/fs/os_inode.rs:40 | the reference inode never overfills a buffer and reads empty at its end |
| OsInodes.ReadAllIdeal | os/src/fs/os_inode.rs:35-48 | over an inode holding some data, `read_all` from an offset returns exactly the rest of the data |
| OpenFiles.OpenFile | os/src/fs/file.rs:18-36 | without CREAT the file opens exactly when the name is found; with CREAT when it is found or created, preferring the found inode; the cursor is 0, the permissions are those of the flags, and the inode is cleared exactly with TRUNC on success |
| OpenFiles.CreatReusesExisting | os/src/fs/file.rs:23-24 | with CREAT an existing name never consults `create` |
| FdTables.New | os/src/task/fd_table.rs:26-33 | an empty table with bound 0, satisfying the table invariant |
| FdTables.SetMin | os/src/task/fd_table.rs:58-59 | the least recycled fd |
| FdTables.SkipUsed | os/src/task/fd_table.rs:61-64 | the first fd from the bound up that was not claimed by number, every fd skipped being claimed |
| FdTables.AllocFd | os/src/task/fd_table.rs:56-83 | with -1: the least recycled fd, or the first unclaimed fd from the bound (entered vacant, bound moved past it); with an explicit fd: refused exactly when it holds a slot that is not recycled, otherwise un-recycled or entered vacant and claimed; the invariant is kept and a returned fd is vacant and not recycled |
| FdTables.DeallocFd | os/src/task/fd_table.rs:85-92 | panics exactly for an fd without a slot; otherwise empties the slot and recycles the fd, keeping the invariant |
| FdTables.Get | os/src/task/fd_table.rs:94-96 | panics exactly for an fd without a slot; otherwise its slot |
| FdTables.Install | os/src/task/fd_table.rs:98-100 | panics exactly for an fd without a slot; otherwise stores the file there only, keeping the invariant for an fd not being recycled |
| FdTables.Len | os/src/task/fd_table.rs:102-104 | the number of slots, vacant ones included |
| FdTables.Clear | os/src/task/fd_table.rs:106-111 | the table is as new |
| FdTables.Contains | os/src/task/fd_table.rs:113-120 | true exactly when the fd has a slot holding a file |
| FdTables.Clone | os/src/task/fd_table.rs:35-52 | the copy equals the original: same sets, bound and slots |
| FdTables.DeallocThenAlloc | os/src/task/fd_table.rs:56-92 | with nothing else recycled, a released fd is the next one `alloc_fd(-1)` hands out |
| FdTables.ClaimedNotReissued | os/src/task/fd_table.rs:56-83 | an fd claimed by number is granted and then never handed out by `alloc_fd(-1)` |
| SysFs.SysWrite | os/src/syscall/fs.rs:22-40 | -1 exactly for an fd past the table, vacant or not writable; otherwise the file's count |
| SysFs.SysRead | os/src/syscall/fs.rs:42-63 | -1 exactly for an fd past the table, vacant or not readable; otherwise the file's count |
| SysFs.StripDotSlash | os/src/syscall/fs.rs:70 | a leading "./" is dropped; any other path is kept |
| SysFs.FromBits | os/src/syscall/fs.rs:72 | flags with only defined bits are kept; any undefined bit gives the empty (read-only) set |
| SysFs.Install | os/src/syscall/fs.rs:90-99 | the file goes in the lowest vacant slot (or a new last one) and no other slot changes |
| SysFs.SysOpenat | os/src/syscall/fs.rs:65-104 | -1 exactly when the dirfd is rejected or `open_file` fails, and then the table is unchanged; otherwise the file, with the flags' permissions, goes in the lowest vacant slot and its fd is returned |
| SysFs.SysClose | os/src/syscall/fs.rs:105-116 | -1 exactly for an fd naming no open file (table unchanged); otherwise 0 with that slot emptied, the length kept and every other slot kept |
| SysFs.SysPipe | os/src/syscall/fs.rs:118-130 | panics exactly when one of the two user words is unmapped; otherwise 0, the read end and then the write end in the two lowest vacant slots, their fds stored at ptr and ptr + 8, and nothing else changed |
| SysFs.SysDup | os/src/syscall/fs.rs:132-144 | -1 exactly for an fd naming no open file; otherwise the same file in the lowest vacant slot, a different fd, returned, with other slots kept |
| SysFs.DupSharesFile | os/src/syscall/fs.rs:22-144 | reads and writes through the duplicate behave as through the original, which keeps working |
| SysFs.CloseInvalidates | os/src/syscall/fs.rs:22-116 | after `close`, the fd can be neither read nor written and closing it again fails |
| SysFs.CloseThenOpenReuses | os/src/syscall/fs.rs:65-116 | closing the lowest fd below which every slot is occupied and opening a file gives that fd back |
| SysFs.OpenPermissions | os/src/syscall/fs.rs:22-104 | a file opened with no flag bits reads and does not write; one opened WRONLY writes and does not read |
| RedoxDisk.Zeros | os/src/fs/redox/mod.rs:40-48 | n zero bytes, what an unwritten sector holds |
| RedoxDisk.Sector | os/src/fs/redox/mod.rs:40-58 | every sector is 512 bytes |
| RedoxDisk.WriteBlock | os/src/fs/redox/mod.rs:50-58 | the chunk overwrites the front of its sector and no other sector changes |
| RedoxDisk.ReadBlock | os/src/fs/redox/mod.rs:40-48 | the front of the sector, as many bytes as the chunk holds |
| RedoxDisk.Image | os/src/fs/redox/mod.rs:40-48 | the bytes the disk holds from a sector on, of the requested length |
| RedoxDisk.WriteAllFrame | os/src/fs/redox/mod.rs:50-58 | sectors before the block and past the last chunk are untouched by a write |
| RedoxDisk.WriteAllImage | os/src/fs/redox/mod.rs:40-58 | what is written from a sector is what is read back from it |
| RedoxDisk.ReadAt | os/src/fs/redox/mod.rs:40-48 | the whole length is reported and the buffer receives the disk's bytes from sector 8 × block on |
| RedoxDisk.WriteAt | os/src/fs/redox/mod.rs:50-58 | the whole length is reported and the chunks land in consecutive sectors from 8 × block on |
| RedoxDisk.WriteThenRead | os/src/fs/redox/mod.rs:40-58 | writing a buffer at a block and reading as many bytes back gives the buffer; other sectors are untouched |
| RedoxDisk.Size | os/src/fs/redox/mod.rs:60-63 | 32 MiB |
| SysInfo.Ascii | shared_defination/src/sysinfo.rs:19 | the string's bytes in order |
| SysInfo.Pack10 | shared_defination/src/sysinfo.rs:18-27 | ten bytes: the front of the string, as much as fits, then zeros |
| SysInfo.StrToU8Array10 | shared_defination/src/sysinfo.rs:18-27 | the copy loop yields exactly the packed field |
| SysInfo.PackUnpack | shared_defination/src/sysinfo.rs:18-27 | a name of at most ten bytes without NUL reads back from its field |
| SysInfo.PackTruncates | shared_defination/src/sysinfo.rs:22 | a longer name is cut to its first ten bytes |
| SysInfo.SysInfoBytes | shared_defination/src/sysinfo.rs:8-16 | the record is 60 bytes |
| SysInfo.FieldsOfConcat | shared_defination/src/sysinfo.rs:8-16 | six ten-byte fields laid end to end read back field by field |
| SysInfo.SysInfoLayout | shared_defination/src/sysinfo.rs:8-16 | the record's six fields are the packed names in declaration order |
| SysInfo.FieldReadsBack | shared_defination/src/sysinfo.rs:18-27 | a field holding a packed short ASCII name reads back as that name |
| SysInfo.SysInfoFields | shared_defination/src/sysinfo.rs:1-36 | each field of `SYS_INFO` reads back as its name, the empty kernel release included |
| SysUname.Uname | os/src/syscall/sys.rs:18-42 | -1 exactly for a null pointer, with nothing written; otherwise 0, and the fragments receive, in order and filling each, exactly the bytes of `SYS_INFO` |
| SysUname.CopyOut | os/src/syscall/sys.rs:36-39 | the next n bytes of the record, in order |
| SysUname.SumPrefixBound | os/src/syscall/sys.rs:35-40 | the fragments copied so far never exceed the record |
| SysUname.FlattenAppend | os/src/syscall/sys.rs:35-40 | one more fragment extends the bytes written by exactly that fragment |
| Strings.CString | os/src/string.rs:1-10 | None exactly for a buffer without NUL; otherwise the NUL-free bytes before the first NUL |
| Strings.CStringOfTerminated | os/src/string.rs:1-10 | a buffer starting with a NUL-free string and a NUL holds that C string whatever follows |
| Strings.StrToU8AsWritten | os/src/string.rs:1-10 | as written: -1 and no write for an empty string; otherwise the bytes at the front, byte |s| keeping its old value, a NUL at |s| + 1, panicking for a buffer of at most |s| + 1 bytes |
| Strings.StrToU8AsWrittenKeepsStrayByte | os/src/string.rs:7 | copying "a" into a buffer holding 9, 9, 9 leaves the C string "a\t", not "a" |
| Strings.StrToU8 | os/src/string.rs:1-10 | corrected: -1 for an empty string; otherwise the bytes at the front, a NUL right after them, the rest kept, so a NUL-free string reads back as the C string; a buffer with no room for the NUL panics |
| SysWait.FirstZombie | os/src/syscall/process.rs:254-258 | the first child from the index on that is a matching zombie, or None exactly when there is none |
| SysWait.RemoveAt | os/src/syscall/process.rs:260 | the child list without the entry at the index, the others keeping their order |
| SysWait.Waitpid | os/src/syscall/process.rs:241-286 | -1 with nothing changed when no child matches; -2 with nothing changed when matches exist but none is a zombie; otherwise the first matching zombie leaves the child list and the process table, its pid is returned and its exit status stored at a non-null pointer; a remaining reference to it or an unmapped pointer panics |
| SysWait.ReapExitedChild | os/src/syscall/process.rs:241-286 | a child that exited with code c is reaped with its pid, the status stored gives c & 0xff back through WEXITSTATUS, and a second wait for that pid gives -1 |
| SysWait.FirstZombieIsOnly | os/src/syscall/process.rs:254-258 | a zombie that is the only child with its pid is the one found |
| SysWait.RemoveAtDistinct | os/src/syscall/process.rs:260 | removing an entry from a list without repeats removes it entirely |
| SysWait.Wait4 | os/src/syscall/process.rs:230-237 | every observed call before the answer returned -2 and changed nothing; the answer is the first that is not -2, so `wait4` never returns -2 |
| SysWait.WaitpidMinusTwo | os/src/syscall/process.rs:282-284 | an answer of -2 leaves the kernel state and the user words alone |
| SysProcess.SysYield | os/src/syscall/process.rs:53-56 | 0; the processor is free and the caller, Ready, is the last ready task; the scheduler invariant is kept |
| SysProcess.SysGetcwd | os/src/syscall/process.rs:72-90 | 0 and no write when the buffer has no room for the NUL; otherwise the directory and a NUL at the front, the rest untouched, and the buffer address returned, so a NUL-free directory reads back as the C string |
| SysProcess.SysFork | os/src/syscall/process.rs:185-202 | succeeds exactly when the caller's process can fork; the parent gets the child's pid; the child's thread has a0 = 0, sp = the given stack when it is not 0 (else the parent's), every other register and the program counter the parent's, and its own kernel stack |
| SysProcess.ForkThenWaitRunning | os/src/syscall/process.rs:185-286 | right after a fork, waiting for the child's pid finds a live child and answers -2 |
| SysProcess.CloneThreadAsWritten | os/src/syscall/process.rs:138-183 | as written: the thread is registered in slot tid with the caller's registers but sp = stack and a0 = 0, keeping the caller's kernel-stack field; a null ptid under CLONE_PARENT_SETTID returns -1 without queueing it; otherwise the tid is stored as u32 at ptid when asked (an unmapped ptid panics), the thread is queued and the tid returned |
| SysProcess.CloneAsWrittenOrphansThread | os/src/syscall/process.rs:170-177 | under CLONE_PARENT_SETTID with a null ptid the written code returns -1 yet leaves the thread in the table, neither queued nor running, and the process can no longer fork |
| SysProcess.CloneAsWrittenSharesKernelStack | os/src/syscall/process.rs:163-167 | the written code gives the new thread a trap context naming a kernel stack other than its own |
| SysProcess.CloneThread | os/src/syscall/process.rs:129-183 | corrected: a null ptid under CLONE_PARENT_SETTID gives -1 and changes nothing; otherwise the same registration, queueing and tid store, with the trap context naming the thread's own kernel stack; the scheduler invariant is kept |
| SysProcess.Grow | os/src/syscall/process.rs:158-161 | the thread table padded with vacant slots to at least n entries, the old slots kept |
| SysProcess.AddThread | os/src/syscall/process.rs:141-167 | the thread is registered as described and the ready queue is not touched |
| SysProcess.SysClone | os/src/syscall/process.rs:129-136 | without CLONE_VM it is `sys_fork`; with it a new thread of the caller's process |
| SysProcess.CollectArgs | os/src/syscall/process.rs:207-217 | succeeds exactly when the argument array is terminated (mapped non-zero words, then a mapped 0 word) and every string it points to is readable; on success argument i is the string at pointer word i and the 0 word ends the list; a panic means an unmapped word, or a pointer to an unreadable string, was reached before any 0 word |
| SysProcess.AboveShrinks | os/src/syscall/process.rs:208-217 | each argument word passed leaves fewer mapped words ahead, so the loop ends |
| SysProcess.SubsetSize | os/src/syscall/process.rs:208-217 | a subset is no larger than its superset |
| SysProcess.TerminatedBound | os/src/syscall/process.rs:207-217 | the pointer words of a terminated argument array all lie before its 0 word |
| SysProcess.NoTerminator | os/src/syscall/process.rs:207-217 | an unmapped word after mapped pointer words means the array has no terminator at all |
| SysProcess.UnreadableArg | os/src/syscall/process.rs:207-214 | a pointer to an unreadable string before any 0 word means no prefix of the array can be collected |
| SysProcess.CollectedUnique | os/src/syscall/process.rs:207-217 | a terminated argument array has exactly one collected argument list |
| SysProcess.SysExec | os/src/syscall/process.rs:204-228 | panics exactly when the path is unreadable, the argument array is unterminated or points to an unreadable string, or the program exists and the argument block does not fit in the 8 KiB user stack or the process is not a single thread with its resources; with a readable path and argument list a missing program gives -1 with nothing changed; otherwise argc, the process's image and heap replaced, and the main thread entering the program with argc in a0 and the argument block built from the collected strings |
| SysProcess.SysKill | os/src/syscall/process.rs:288-299 | -1 with nothing changed exactly for an unknown pid or an undefined signal bit; otherwise 0, with the signal or-ed into the target's set and nothing else changed |
| SysProcess.KillSelfIsAddSignal | os/src/syscall/process.rs:288-299 | killing oneself is the kernel raising the signal on the running process, and a repeated kill changes nothing more |
| SysProcess.ZombieTimesOfLiving | os/src/syscall/process.rs:337-344 | children still running add nothing to the child times |
| SysProcess.ZombieTimesCover | os/src/syscall/process.rs:337-344 | each zombie child's own and child times are part of the reported child times |
| SysProcess.SysTimes | os/src/syscall/process.rs:301-361 | -1 for a null pointer; a panic exactly when one of the four words is unmapped; otherwise 0, and the words receive the process's user and system time and its children's plus those of its zombie children, each divided by the clock frequency, nothing else changing |

## Left out

- Context switching (`__switch`), trap entry and exit, the FPU and the boot path: assembly and hardware. `Processors.Schedule` keeps only the choice of the continuation.
- `MemorySet`: page tables, ELF loading, `from_existed_user`, `recycle_data_pages` and `token` are opaque. Their results are parameters.
- The pid, kernel-stack and thread-resource allocators (`pid_alloc`, `KernelStack`, `RecycleAllocator`): the handles and numbers they return are parameters.
- `ProcessControlBlock::new_kpthread` (os/src/task/process.rs:275-333): the kernel-thread process is not modelled. Its trap context (`Trap.KpthreadInitContext`) and its TCB (`Tasks.NewKpthread`) are.
- Mutexes and condition variables of a process: not part of this model, and not touched by the modelled operations.
- CPU-time accounting (`accumulate_systime`, `get_processor_slice_time`): the clock is not modelled and this revision does not define those methods. `SysWait.Waitpid` therefore does not add the reaped child's system time to the parent.
- `sys_get_time`, `sys_getpid`, `sys_chdir`, `sys_fchdir`, `sys_mkdirat`, `sys_unlinkat` and the other syscall wrappers: they only forward to modelled record operations or to the clock. `sys_exit` is `Exit.ExitCurrentAndRunNext`.
- `SignalFlags` (signal.rs) is not part of this model. The set of defined signal bits is a parameter of `SysProcess.SysKill`.
- `Stdin`, `Stdout`, pipes and their buffers: a file is its identity and its two permissions. `SysFs.SysRead` and `SysFs.SysWrite` take the file's byte count as a parameter.
- The RedoxFS file system above `CoreDisk`, and the block device (an ideal one: a sector returns what it was last given).
- The `Arc` forwarding of `CoreDisk` (os/src/fs/redox/mod.rs:19-35): it only delegates to the device.
- The TCB of a reaped process's main thread stays in the TCB map: freeing kernel stacks is not modelled.
- The user stack of a thread is taken to be the USER_STACK_SIZE (os/src/config.rs:13) bytes below its `ustack_top`, with the page below it unmapped. `exec` writes the argument block through `translated_refmut`, so a block larger than the stack reaches an unmapped page and panics (`Lifecycle.Fits`). The allocator that places user stacks (os/src/task/id.rs) and the page table are not part of this model.
- Interrupt masking and `UPIntrFreeCell` borrow tracking: the kernel runs on one hart. A double borrow on a modelled path is a panic: during reparenting in `exit`, borrowing INITPROC while the exiting process (INITPROC itself) is borrowed, or a child that is the exiting process or INITPROC (`Exit.RetireProcess`); and in FUTEX_WAIT, the process borrow that `current_user_token` takes again (`Futexes.SysFutexWaitAsWritten`, see Findings). No other modelled path borrows a process or task twice; borrows of distinct cells are not tracked.
- SysProcess.SysExec: the open-file lookup is the found inode alone; reading the ELF (`read_all`) and the loader's result are parameters (`img`). `translated_str` is a parameter (`str`) that answers the string at a user address or None where the source would panic; the page walk behind it is not modelled.
- SysProcess.SysGetcwd: the user buffer is one byte sequence rather than the page fragments `translated_byte_buffer` returns.
- SysProcess.SysTimes: the sums are unbounded; the source adds `usize` values that could wrap.
- SysFs.SysRead: the count is a natural number; the source's `usize` to `isize` cast of very large counts is not modelled.
- Futexes.SysFutexWait: models the corrected order, with the token read before the process is borrowed; the source's order panics (`Futexes.SysFutexWaitAsWritten`, see Findings). The queue guard and process borrow that the source would then hold across the block are not modelled; the timeout argument is ignored, as in the source.
- WaitQueues.Lock: requires the flag to be FREE. The contended case is left out because the source's spin loop (os/src/task/wait_queue.rs:47-57) never returns when the only hart already holds the lock.
- Semaphores.UpSem: the count is unbounded; the `isize` overflow of the source at the extremes is not modelled.
- Pcbs.CurrentTaskMmap: `addr + len` is unbounded; the source's `usize` addition could wrap.
- RedoxDisk.ReadAt: `block * 8` is unbounded; the source's `u64` multiplication could wrap.
- SysProcess.SysFork: the child's pid is assumed to be below 2^63, so that its `isize` cast is the pid itself.

## Findings

| source | as written | input that shows it | evidently intended | confidence | as-written member | corrected member |
|---|---|---|---|---|---|---|
| os/src/string.rs:7 | the NUL goes to index len + 1, so byte len keeps its old value | "a" into a buffer holding 9, 9, 9 gives 97, 9, 0, which reads as the C string "a\t" | the NUL at index len, right after the copy | high; not executed | Strings.StrToU8AsWrittenKeepsStrayByte | Strings.StrToU8 |
| os/src/syscall/process.rs:170-177 | with CLONE_PARENT_SETTID and a null ptid, -1 is returned after the new thread was put in the thread table, without queueing it | flags CLONE_VM and CLONE_PARENT_SETTID, ptid 0, allocated tid 1: -1 comes back, slot 1 holds a thread that never runs, and a later `fork` hits the single-thread assertion | refuse the call before creating the thread | high; not executed | SysProcess.CloneAsWrittenOrphansThread | SysProcess.CloneThread |
| os/src/syscall/process.rs:163-167 | the caller's whole trap context is copied into the new thread's, `kernel_sp` included, so the new thread traps onto the caller's kernel stack | any CLONE_VM clone: the new thread's own kernel stack top differs from the caller's | set `kernel_sp` to the new thread's kernel stack top, as `fork` does at os/src/task/process.rs:458-460 | medium; not executed | SysProcess.CloneAsWrittenSharesKernelStack | SysProcess.CloneThread |
| os/src/sync/futex.rs:98 | `current_user_token()` runs while the process borrow taken at line 88 is held, and `get_user_token` (os/src/task/task.rs:36-40) borrows the same process again, so the call panics | any FUTEX_WAIT, whether or not the word at `uaddr` equals `expected` | read the token before borrowing the process, as `sys_read` and `sys_write` do (os/src/syscall/fs.rs:23-25, 43-45) | high; not executed | Futexes.FutexWaitAsWrittenAlwaysPanics | Futexes.SysFutexWait |

=== FILE: base.dfy ===
/** Shared vocabulary of the kernel model: optional values, the outcome of an
    operation that may end in a kernel panic, bytes, and the machine-integer
    conversions (`as usize`, `i32` wrap-around) that the kernel performs. */
module Base {

  /** `Option<T>` of the kernel. */
  datatype Option<+T> = None | Some(value: T)

  /** Outcome of an operation the kernel may abort: `Panic` stands for a
      `panic!`, a failed `assert!`/`assert_eq!` or an `unwrap` of an empty value. */
  datatype Res<+T> = Ok(value: T) | Panic

  /** An 8-bit byte (`u8`). */
  type byte = x: int | 0 <= x < 256

  const USIZE_MOD: int := 0x1_0000_0000_0000_0000
  const ISIZE_MIN: int := -0x8000_0000_0000_0000
  const I32_MOD: int := 0x1_0000_0000
  const I32_MIN: int := -0x8000_0000

  /** An `isize`/`i32` value, in range. */
  predicate IsIsize(v: int) { ISIZE_MIN <= v < USIZE_MOD + ISIZE_MIN }
  predicate IsI32(v: int) { I32_MIN <= v < I32_MOD + I32_MIN }

  /** `v as usize` for a signed machine integer: two's-complement reinterpretation. */
  function AsUsize(v: int): (r: nat)
    requires IsIsize(v)
    ensures r < USIZE_MOD
    ensures 0 <= v ==> r == v
    ensures v < 0 ==> r == v + USIZE_MOD
  {
    if v < 0 then v + USIZE_MOD else v
  }

  /** `u as isize` for a `usize` value: two's-complement reinterpretation. */
  function AsIsize(u: nat): (r: int)
    requires u < USIZE_MOD
    ensures IsIsize(r)
    ensures AsUsize(r) == u
  {
    if u < USIZE_MOD + ISIZE_MIN then u else u - USIZE_MOD
  }

  /** Wrap an unbounded integer into `i32` (what `<<` on an `i32` does). */
  function WrapI32(v: int): (r: int)
    ensures IsI32(r)
    ensures (r - v) % I32_MOD == 0
  {
    var m := v % I32_MOD;
    if m < I32_MOD + I32_MIN then m else m - I32_MOD
  }

  /** The smallest index whose slot is empty, if any. */
  function FirstNone<T>(s: seq<Option<T>>): (r: Option<nat>)
    ensures r.Some? ==> r.value < |s| && s[r.value].None?
    ensures r.Some? ==> forall i :: 0 <= i < r.value ==> s[i].Some?
    ensures r.None? <==> forall i :: 0 <= i < |s| ==> s[i].Some?
  {
    if |s| == 0 then None
    else if s[0].None? then Some(0)
    else match FirstNone(s[1..])
         case None => None
         case Some(i) => Some(i + 1)
  }

  /** The sequence holds no element twice. */
  predicate Distinct<T(==)>(s: seq<T>) {
    forall i, j :: 0 <= i < j < |s| ==> s[i] != s[j]
  }

  /** Number of occurrences of `x` in `s`. */
  function Count<T(==)>(s: seq<T>, x: T): nat {
    if |s| == 0 then 0 else (if s[0] == x then 1 else 0) + Count(s[1..], x)
  }
}

=== FILE: dir_struct.dfy ===
/** `DirStruct`: the current working directory of a process, kept as a path
    string beside the directory inode. Directory creation and removal on the
    inode are results supplied by the file system. */
module Dirs {
  import opened Base

  type InodeRef = nat

  datatype DirStruct = DirStruct(cwd: string, inode: InodeRef)

  /** `DirStruct::new`: always starts at "/". */
  function New(inode: InodeRef): (d: DirStruct)
    ensures d.cwd == "/" && d.inode == inode
  {
    DirStruct("/", inode)
  }

  /** `get_current_inode`: the directory inode; with the cwd it is the
      whole record. */
  function GetCurrentInode(d: DirStruct): (i: InodeRef)
    ensures i == d.inode
    ensures d == DirStruct(Getcwd(d), i)
  {
    d.inode
  }

  /** `getcwd`: the stored path, so changing to it changes nothing. */
  function Getcwd(d: DirStruct): (c: string)
    ensures c == d.cwd
    ensures Chdir(d, c) == (0, d)
  {
    d.cwd
  }

  /** `chdir`: the path is taken verbatim, no lookup; always 0. */
  function Chdir(d: DirStruct, path: string): (r: (int, DirStruct))
    ensures r.0 == 0
    ensures r.1.cwd == path && r.1.inode == d.inode
  {
    (0, d.(cwd := path))
  }

  /** A new directory record reports "/" and its inode; `chdir` changes what
      `getcwd` reports to the path given and keeps the inode. */
  lemma CwdAfterNewAndChdir(inode: InodeRef, d: DirStruct, path: string)
    ensures Getcwd(New(inode)) == "/" && GetCurrentInode(New(inode)) == inode
    ensures Getcwd(Chdir(d, path).1) == path && GetCurrentInode(Chdir(d, path).1) == GetCurrentInode(d)
  {
  }

  /** `rfind('/')`: position of the last slash, if any. */
  function LastSlash(s: string): (r: Option<nat>)
    ensures r.Some? ==> r.value < |s| && s[r.value] == '/'
    ensures r.Some? ==> forall i :: r.value < i < |s| ==> s[i] != '/'
    ensures r.None? <==> forall i :: 0 <= i < |s| ==> s[i] != '/'
  {
    if |s| == 0 then None
    else if s[|s| - 1] == '/' then Some(|s| - 1)
    else LastSlash(s[..|s| - 1])
  }

  /** `mkdirat`: on success (`made` is the new inode) the cwd is extended by
      "/" + name, also when it already ends in "/"; on failure nothing changes. */
  function Mkdirat(d: DirStruct, name: string, made: Option<InodeRef>): (r: (Option<InodeRef>, DirStruct))
    ensures r.0 == made
    ensures made.None? ==> r.1 == d
    ensures made.Some? ==> r.1.cwd == d.cwd + "/" + name && r.1.inode == d.inode
  {
    match made
    case None => (None, d)
    case Some(i) => (Some(i), d.(cwd := d.cwd + "/" + name))
  }

  /** `rmdirat`: on success the cwd is cut at its last "/" (kept whole when it
      has none); on failure nothing changes. */
  function Rmdirat(d: DirStruct, name: string, removed: Option<InodeRef>): (r: (Option<InodeRef>, DirStruct))
    ensures r.0 == removed
    ensures removed.None? ==> r.1 == d
    ensures removed.Some? ==> r.1.inode == d.inode && r.1.cwd <= d.cwd
    ensures removed.Some? ==> (LastSlash(d.cwd).Some? ==> |r.1.cwd| == LastSlash(d.cwd).value)
    ensures removed.Some? ==> (LastSlash(d.cwd).None? ==> r.1.cwd == d.cwd)
  {
    match removed
    case None => (None, d)
    case Some(i) =>
      match LastSlash(d.cwd)
      case None => (Some(i), d)
      case Some(pos) => (Some(i), d.(cwd := d.cwd[..pos]))
  }

  lemma {:induction false} LastSlashAfterAppend(prefix: string, name: string)
    requires forall i :: 0 <= i < |name| ==> name[i] != '/'
    ensures LastSlash(prefix + "/" + name) == Some(|prefix|)
    decreases |name|
  {
    var s := prefix + "/" + name;
    if |name| > 0 {
      assert s[..|s| - 1] == prefix + "/" + name[..|name| - 1];
      LastSlashAfterAppend(prefix, name[..|name| - 1]);
    }
  }

  /** A successful `mkdirat` of a plain name followed by a successful
      `rmdirat` returns to the original working directory. */
  lemma MkdirThenRmdir(d: DirStruct, name: string, made: InodeRef, removed: InodeRef)
    requires forall i :: 0 <= i < |name| ==> name[i] != '/'
    ensures Rmdirat(Mkdirat(d, name, Some(made)).1, name, Some(removed)).1 == d
  {
    LastSlashAfterAppend(d.cwd, name);
    var s := d.cwd + "/" + name;
    assert s[..|d.cwd|] == d.cwd;
  }
}

=== FILE: exit.dfy ===
/** `exit_current_and_run_next`: a thread's exit, and when it is the main
    thread, its process's: the process becomes a zombie carrying a wait
    status, its children move to INITPROC, and its threads' resources, fds
    and extra thread slots are released. Exiting the idle process shuts the
    machine down instead.

    Releasing the address space's data pages is left to the address space,
    which is opaque here. */
module Exit {
  import opened Base
  import opened Tasks
  import Manager
  import Processors
  import opened Pcbs
  import opened KernelState
  import Futexes

  /** Bit numbers of the clone flags consulted here. */
  const CLONE_VM_BIT: nat := 8               // CLONE_VM = 0x100
  const CLONE_PARENT_SETTID_BIT: nat := 20   // CLONE_PARENT_SETTID = 0x100000
  const CLONE_CHILD_CLEARTID_BIT: nat := 21  // CLONE_CHILD_CLEARTID = 0x200000

  /** How an exit ends: the scheduler takes over, or the machine is shut down
      (with the failure flag). */
  datatype ExitOutcome = Scheduled(k: Kernel, mem: Futexes.UserWords) | Shutdown(failure: bool)

  /** `exit_code & 0xff` on an i32: the low byte, as a value 0..255. */
  function LowByte(code: int): (b: int)
    ensures 0 <= b < 256
  {
    code % 256
  }

  /** `exit_code << 8` on an i32: the wait status stored in the process. */
  function WaitStatus(code: int): (s: int)
    ensures IsI32(s)
  {
    WrapI32(code * 256)
  }

  /** `WEXITSTATUS(s)`, i.e. `(s >> 8) & 0xff` with an arithmetic shift. */
  function WExitStatus(s: int): int {
    (s / 256) % 256
  }

  lemma MulDivExact(a: int)
    ensures (a * 256) / 256 == a
  {
  }

  lemma ShiftedModulus(c: int, m: int)
    ensures (c * 256 + m * I32_MOD) / 256 == c + m * 0x100_0000
  {
    assert c * 256 + m * I32_MOD == (c + m * 0x100_0000) * 256;
    MulDivExact(c + m * 0x100_0000);
  }

  lemma AddMultipleMod(c: int, m: int)
    ensures (c + m * 0x100_0000) % 256 == c % 256
  {
    assert c + m * 0x100_0000 == c + (m * 0x1_0000) * 256;
  }

  /** The wait status a process exit records gives the thread's exit code
      back through WEXITSTATUS, for every i32 exit code: the 8-bit shift
      wraps in 32 bits without losing the low byte. */
  lemma {:induction false} WExitStatusOfWaitStatus(code: int)
    requires IsI32(code)
    ensures WExitStatus(WaitStatus(code)) == LowByte(code)
  {
    var w := WaitStatus(code);
    var m := (w - code * 256) / I32_MOD;
    assert w - code * 256 == m * I32_MOD;
    assert w == code * 256 + m * I32_MOD;
    ShiftedModulus(code, m);
    AddMultipleMod(code, m);
  }

  /** Point each of `cs` at a new parent. */
  function SetParents(procs: map<ProcRef, Pcb>, cs: seq<ProcRef>, parent: ProcRef): (r: map<ProcRef, Pcb>)
    requires forall i :: 0 <= i < |cs| ==> cs[i] in procs
    ensures forall q :: q in r <==> q in procs
    ensures forall q :: q in procs && q in cs ==> r[q] == procs[q].(parent := Some(parent))
    ensures forall q :: q in procs && q !in cs ==> r[q] == procs[q]
    decreases |cs|
  {
    if cs == [] then procs
    else
      var c := cs[0];
      var r := SetParents(procs[c := procs[c].(parent := Some(parent))], cs[1..], parent);
      assert forall q :: q in cs <==> q == c || q in cs[1..];
      r
  }

  /** Take the user resources of every thread in `slots`. */
  function DropRes(tcbs: Tcbs, slots: seq<Option<TaskRef>>): (r: Tcbs)
    requires forall i :: 0 <= i < |slots| && slots[i].Some? ==> slots[i].value in tcbs
    ensures forall u :: u in r <==> u in tcbs
    ensures forall u :: u in tcbs && Some(u) in slots ==> r[u] == tcbs[u].(res := None)
    ensures forall u :: u in tcbs && Some(u) !in slots ==> r[u] == tcbs[u]
    decreases |slots|
  {
    if slots == [] then tcbs
    else
      var t := if slots[0].Some? && slots[0].value in tcbs then tcbs[slots[0].value := tcbs[slots[0].value].(res := None)] else tcbs;
      var r := DropRes(t, slots[1..]);
      assert forall u :: Some(u) in slots <==> slots[0] == Some(u) || Some(u) in slots[1..];
      r
  }

  /** What the source takes for granted about the exiting thread's
      surroundings: it runs and owns user resources, its process's futex
      queues are unlocked and hold live tasks, INITPROC exists, and the
      process's children and threads exist. */
  ghost predicate CanExit(k: Kernel) {
    && HasCurrent(k)
    && k.tcbs[Current(k)].res.Some?
    && Futexes.Unlocked(k.procs[CurrentProc(k)])
    && Futexes.WaitersLive(k.procs[CurrentProc(k)], k.tcbs)
    && k.initProc in k.procs
    && (forall i :: 0 <= i < |k.procs[CurrentProc(k)].children| ==> k.procs[CurrentProc(k)].children[i] in k.procs)
    && (forall i :: 0 <= i < |k.procs[CurrentProc(k)].tasks| && k.procs[CurrentProc(k)].tasks[i].Some? ==>
          k.procs[CurrentProc(k)].tasks[i].value in k.tcbs)
  }

  /** The CLONE_CHILD_CLEARTID step: zero the word at the thread's ctid
      address and futex-wake one waiter there; a fault on the address panics. */
  function ClearChildTid(k: Kernel, mem: Futexes.UserWords): (r: Res<(Kernel, Futexes.UserWords)>)
    requires CanExit(k)
    ensures !Bit(k.tcbs[Current(k)].cloneFlags, CLONE_CHILD_CLEARTID_BIT) ==> r == Ok((k, mem))
    ensures Bit(k.tcbs[Current(k)].cloneFlags, CLONE_CHILD_CLEARTID_BIT) ==>
      var a := k.tcbs[Current(k)].ctidPtr;
      && (r.Panic? <==> a !in mem)
      && (r.Ok? ==> r.value == (Futexes.SysFutexWake(k, a, 1).1, mem[a := 0]))
    ensures r.Ok? ==> CanExit(r.value.0) && Current(r.value.0) == Current(k) && CurrentProc(r.value.0) == CurrentProc(k)
    ensures r.Ok? ==> r.value.0.tcbs[Current(k)].res == k.tcbs[Current(k)].res
  {
    var t := Current(k);
    if !Bit(k.tcbs[t].cloneFlags, CLONE_CHILD_CLEARTID_BIT) then Ok((k, mem))
    else
      var a := k.tcbs[t].ctidPtr;
      if a !in mem then Panic
      else
        var (_, k1) := Futexes.SysFutexWake(k, a, 1);
        WakeKeepsCanExit(k, a);
        Ok((k1, mem[a := 0]))
  }

  /** Waking futex waiters keeps the exiting thread able to exit: the
      running thread, its process and their resources are untouched. */
  lemma WakeKeepsCanExit(k: Kernel, a: nat)
    requires CanExit(k)
    ensures var k1 := Futexes.SysFutexWake(k, a, 1).1;
      && CanExit(k1) && Current(k1) == Current(k) && CurrentProc(k1) == CurrentProc(k)
      && k1.tcbs[Current(k)].res == k.tcbs[Current(k)].res
  {
    var k1 := Futexes.SysFutexWake(k, a, 1).1;
    var p := CurrentProc(k);
    assert k1.procs[p].children == k.procs[p].children && k1.procs[p].tasks == k.procs[p].tasks;
    assert k1.tcbs[Current(k)].res == k.tcbs[Current(k)].res;
  }

  /** The thread part of an exit, on the state after the ctid step: record
      the low byte of the code, drop the thread's user resources, free the
      processor, and for a CLONE_VM thread vacate its slot `tid` (an index
      past the table panics). */
  function RetireThread(k: Kernel, t: TaskRef, p: ProcRef, tid: nat, code: int): (r: Res<Kernel>)
    requires t in k.tcbs && p in k.procs
    ensures r.Panic? <==> Bit(k.tcbs[t].cloneFlags, CLONE_VM_BIT) && tid >= |k.procs[p].tasks|
    ensures r.Ok? ==>
      && r.value.processor.current.None?
      && (forall u :: u in r.value.tcbs <==> u in k.tcbs)
      && r.value.tcbs[t] == k.tcbs[t].(exitCode := Some(LowByte(code)), res := None)
      && (forall u :: u in k.tcbs && u != t ==> r.value.tcbs[u] == k.tcbs[u])
      && (forall q :: q in r.value.procs <==> q in k.procs)
      && (forall q :: q in k.procs && q != p ==> r.value.procs[q] == k.procs[q])
      && (Bit(k.tcbs[t].cloneFlags, CLONE_VM_BIT) ==> r.value.procs[p] == k.procs[p].(tasks := k.procs[p].tasks[tid := None]))
      && (!Bit(k.tcbs[t].cloneFlags, CLONE_VM_BIT) ==> r.value.procs[p] == k.procs[p])
      && r.value.pid2pcb == k.pid2pcb && r.value.initProc == k.initProc && r.value.idlePid == k.idlePid
      && r.value.manager == k.manager
  {
    var isThread := Bit(k.tcbs[t].cloneFlags, CLONE_VM_BIT);
    var tcbs := k.tcbs[t := k.tcbs[t].(exitCode := Some(LowByte(code)), res := None)];
    var (_, cpu) := Processors.TakeCurrent(k.processor);
    var pcb := k.procs[p];
    if isThread && tid >= |pcb.tasks| then Panic
    else
      var pcb2 := if isThread then pcb.(tasks := pcb.tasks[tid := None]) else pcb;
      Ok(k.(tcbs := tcbs, processor := cpu, procs := k.procs[p := pcb2]))
  }

  /** `procs'` is `procs` with every process of `cs` pointing at `init`
      and appended to `init`'s child list. */
  ghost predicate Reparented(procs: map<ProcRef, Pcb>, procs': map<ProcRef, Pcb>, cs: seq<ProcRef>, init: ProcRef) {
    && (forall q :: q in procs' <==> q in procs)
    && init in procs
    && (forall i :: 0 <= i < |cs| ==> cs[i] in procs && procs'[cs[i]] == procs[cs[i]].(parent := Some(init)))
    && procs'[init].children == procs[init].children + cs
  }

  /** `tcbs'` is `tcbs` with the user resources of every thread in `slots`
      taken, and nothing else changed. */
  ghost predicate ResDropped(tcbs: Tcbs, tcbs': Tcbs, slots: seq<Option<TaskRef>>) {
    && (forall u :: u in tcbs' <==> u in tcbs)
    && (forall u :: u in tcbs && Some(u) in slots ==> tcbs'[u] == tcbs[u].(res := None))
    && (forall u :: u in tcbs && Some(u) !in slots ==> tcbs'[u] == tcbs[u])
  }

  /** What tearing down process `p` relies on: it, INITPROC, its children and
      its threads exist. */
  ghost predicate CanRetire(k: Kernel, p: ProcRef) {
    && p in k.procs
    && k.initProc in k.procs
    && (forall i :: 0 <= i < |k.procs[p].children| ==> k.procs[p].children[i] in k.procs)
    && (forall i :: 0 <= i < |k.procs[p].tasks| && k.procs[p].tasks[i].Some? ==> k.procs[p].tasks[i].value in k.tcbs)
  }

  /** A thread that can exit belongs to a process that can be torn down. */
  lemma ExitCanRetire(k: Kernel)
    requires CanExit(k)
    ensures CanRetire(k, CurrentProc(k))
  {
  }

  /** Retiring a thread keeps its process ready to be torn down: the
      children stay, and thread slots only become vacant. */
  lemma RetireThreadKeepsCanRetire(k: Kernel, t: TaskRef, p: ProcRef, tid: nat, code: int)
    requires t in k.tcbs && CanRetire(k, p)
    requires RetireThread(k, t, p, tid, code).Ok?
    ensures CanRetire(RetireThread(k, t, p, tid, code).value, p)
  {
    var k2 := RetireThread(k, t, p, tid, code).value;
    assert k2.procs[p].children == k.procs[p].children;
    assert forall i :: 0 <= i < |k2.procs[p].tasks| && k2.procs[p].tasks[i].Some? ==>
      k2.procs[p].tasks[i] == k.procs[p].tasks[i];
  }

  /** The process part of a main-thread exit (not of the idle process):
      unregister the pid (panicking if it is not registered), mark the
      process a zombie holding `code << 8`, move every child under INITPROC
      (parent link and INITPROC's child list; a process that is INITPROC or
      is among its own or INITPROC's children would be borrowed twice, which
      panics), take the user resources of all its threads, and clear its
      children, its fds and every thread slot but the first. */
  function RetireProcess(k: Kernel, p: ProcRef, code: int): (r: Res<Kernel>)
    requires CanRetire(k, p)
    ensures var cs := k.procs[p].children; var init := k.initProc;
      r.Panic? <==> k.procs[p].pid !in k.pid2pcb || p == init || init in cs || p in cs
    ensures var cs := k.procs[p].children; var init := k.initProc;
      r.Ok? ==>
        var k' := r.value;
        var tasks := k.procs[p].tasks;
        && Reparented(k.procs, k'.procs, cs, init)
        && k'.procs[p] == k.procs[p].(isZombie := true, exitCode := WaitStatus(code), children := [], fdTable := [],
                                      tasks := if |tasks| > 1 then tasks[..1] else tasks)
        && k'.pid2pcb.Keys == k.pid2pcb.Keys - {k.procs[p].pid}
        && ResDropped(k.tcbs, k'.tcbs, tasks)
        && k'.processor == k.processor && k'.manager == k.manager
  {
    var pcb := k.procs[p];
    match Manager.RemoveFromPid2Process(k.pid2pcb, pcb.pid)
    case Panic => Panic
    case Ok(idx) =>
      var init := k.initProc;
      var cs := pcb.children;
      if p == init || init in cs || p in cs then Panic
      else
        var procs1 := SetParents(k.procs, cs, init);
        var procs2 := procs1[init := procs1[init].(children := procs1[init].children + cs)];
        var pcb3 := pcb.(isZombie := true, exitCode := WaitStatus(code), children := [], fdTable := [],
                         tasks := if |pcb.tasks| > 1 then pcb.tasks[..1] else pcb.tasks);
        Ok(k.(pid2pcb := idx, procs := procs2[p := pcb3], tcbs := DropRes(k.tcbs, pcb.tasks)))
  }

  /** `exit_current_and_run_next(exit_code)`: the ctid step, the thread part,
      and for the main thread (tid 0) either the shutdown of the machine (idle
      process; failure iff the code is not 0) or the process part. */
  function ExitCurrentAndRunNext(k: Kernel, code: int, mem: Futexes.UserWords): (r: Res<ExitOutcome>)
    requires CanExit(k) && IsI32(code)
    ensures ClearChildTid(k, mem).Panic? ==> r.Panic?
    ensures r.Ok? && r.value.Scheduled? ==>
      var k' := r.value.k;
      && k'.processor.current.None?
      && Current(k) in k'.tcbs && k'.tcbs[Current(k)].exitCode == Some(LowByte(code))
      && k'.tcbs[Current(k)].res.None?
    ensures var tid := k.tcbs[Current(k)].res.value.tid; var p := CurrentProc(k);
      r.Ok? && tid == 0 && k.procs[p].pid == k.idlePid ==> r.value == Shutdown(code != 0)
    ensures r.Ok? && r.value.Shutdown? ==>
      k.tcbs[Current(k)].res.value.tid == 0 && k.procs[CurrentProc(k)].pid == k.idlePid
    ensures var tid := k.tcbs[Current(k)].res.value.tid; var p := CurrentProc(k);
      r.Ok? && tid == 0 && r.value.Scheduled? ==> p in r.value.k.procs && r.value.k.procs[p].isZombie && r.value.k.procs[p].exitCode == WaitStatus(code)
  {
    var t := Current(k);
    var p := CurrentProc(k);
    var tid := k.tcbs[t].res.value.tid;
    match ClearChildTid(k, mem)
    case Panic => Panic
    case Ok((k1, mem1)) =>
      match RetireThread(k1, t, p, tid, code)
      case Panic => Panic
      case Ok(k2) =>
        if tid != 0 then Ok(Scheduled(k2, mem1))
        else if k2.procs[p].pid == k2.idlePid then Ok(Shutdown(code != 0))
        else
          ExitCanRetire(k1);
          RetireThreadKeepsCanRetire(k1, t, p, tid, code);
          match RetireProcess(k2, p, code)
          case Panic => Panic
          case Ok(k3) =>
            RetireProcessKeepsThread(k2, p, code, t);
            Ok(Scheduled(k3, mem1))
  }

  /** The process part leaves an exited thread exited, without resources,
      and the processor as it was; the process becomes a zombie with the
      wait status of the code. */
  lemma RetireProcessKeepsThread(k: Kernel, p: ProcRef, code: int, t: TaskRef)
    requires CanRetire(k, p) && RetireProcess(k, p, code).Ok? && t in k.tcbs
    ensures var k' := RetireProcess(k, p, code).value;
      && t in k'.tcbs && k'.tcbs[t].exitCode == k.tcbs[t].exitCode
      && (k.tcbs[t].res.None? ==> k'.tcbs[t].res.None?)
      && k'.processor == k.processor
      && p in k'.procs && k'.procs[p].isZombie && k'.procs[p].exitCode == WaitStatus(code)
  {
  }
}

=== FILE: fd_table.dfy ===
/** `FdTable`: a descriptor table keyed by fd, with a set of released fds to
    hand out again (`recycle`), the fds claimed by explicit number
    (`manually_used`), and the next never-used fd (`upper_bound`). */
module FdTables {
  import opened Base
  import opened Pcbs

  datatype FdTable = FdTable(recycle: set<nat>, table: map<nat, Option<File>>, manuallyUsed: set<nat>, upperBound: nat)

  /** What the operations keep: every recycled fd is a vacant slot, and every
      slot was either handed out below the bound or claimed by number. */
  ghost predicate Inv(t: FdTable) {
    && (forall fd :: fd in t.recycle ==> fd in t.table && t.table[fd].None?)
    && (forall fd :: fd in t.table ==> fd < t.upperBound || fd in t.manuallyUsed)
  }

  /** `FdTable::new`. */
  function New(): (t: FdTable)
    ensures t.recycle == {} && t.table == map[] && t.manuallyUsed == {} && t.upperBound == 0
    ensures Inv(t)
  {
    FdTable({}, map[], {}, 0)
  }

  /** A non-empty set of naturals has a least element. */
  lemma MinExists(s: set<nat>)
    requires s != {}
    ensures exists m :: m in s && forall x :: x in s ==> m <= x
  {
    var w :| w in s;
    MinFrom(s, 0, w);
  }

  /** Searching upward from a lower bound `n` of `s` reaches its least
      element no later than at the member `w`. */
  lemma {:induction false} MinFrom(s: set<nat>, n: nat, w: nat)
    requires w in s && n <= w && forall y :: y in s ==> n <= y
    ensures exists m :: m in s && forall x :: x in s ==> m <= x
    decreases w - n
  {
    if n !in s {
      MinFrom(s, n + 1, w);
    }
  }

  /** `pop_first` of a B-tree set: its least element. */
  function SetMin(s: set<nat>): (m: nat)
    requires s != {}
    ensures m in s && forall x :: x in s ==> m <= x
  {
    MinExists(s);
    var m :| m in s && forall x :: x in s ==> m <= x;
    m
  }

  /** The first value from `ub` up that was not claimed by number. */
  function SkipUsed(used: set<nat>, ub: nat): (r: nat)
    ensures r >= ub && r !in used
    ensures forall x :: ub <= x < r ==> x in used
    decreases |set x | x in used && x >= ub|
  {
    if ub !in used then ub
    else
      assert (set x | x in used && x >= ub + 1) == (set x | x in used && x >= ub) - {ub};
      SkipUsed(used, ub + 1)
  }

  /** `alloc_fd(newfd)`. With -1: the least recycled fd if there is one,
      otherwise the first unclaimed fd from the bound up, entered as a
      vacant slot, the bound moving past it. With an explicit fd (read as an
      unsigned number): None if it holds a slot that is not recycled;
      otherwise it is taken out of recycle, or entered as a vacant slot and
      marked claimed. */
  function AllocFd(t: FdTable, newfd: int): (r: (Option<nat>, FdTable))
    requires IsIsize(newfd)
    ensures newfd == -1 && t.recycle != {} ==>
      var fd := SetMin(t.recycle);
      r == (Some(fd), t.(recycle := t.recycle - {fd}))
    ensures newfd == -1 && t.recycle == {} ==>
      && r.0.Some? && r.0.value >= t.upperBound && r.0.value !in t.manuallyUsed
      && (forall x :: t.upperBound <= x < r.0.value ==> x in t.manuallyUsed)
      && r.1 == t.(table := t.table[r.0.value := None], upperBound := r.0.value + 1)
    ensures newfd != -1 ==>
      var n := AsUsize(newfd);
      && (r.0.None? <==> n in t.table && n !in t.recycle)
      && (r.0.None? ==> r.1 == t)
      && (n in t.recycle ==> r == (Some(n), t.(recycle := t.recycle - {n})))
      && (n !in t.table && n !in t.recycle ==>
            r == (Some(n), t.(table := t.table[n := None], manuallyUsed := t.manuallyUsed + {n})))
    ensures Inv(t) ==> Inv(r.1)
    ensures Inv(t) && r.0.Some? ==>
      && (r.0.value !in t.table || t.table[r.0.value].None?)
      && r.0.value in r.1.table && r.1.table[r.0.value].None? && r.0.value !in r.1.recycle
  {
    if newfd == -1 then
      if t.recycle != {} then
        var fd := SetMin(t.recycle);
        (Some(fd), t.(recycle := t.recycle - {fd}))
      else
        var fd := SkipUsed(t.manuallyUsed, t.upperBound);
        (Some(fd), t.(table := t.table[fd := None], upperBound := fd + 1))
    else
      var n := AsUsize(newfd);
      if n in t.table && n !in t.recycle then (None, t)
      else if n in t.recycle then (Some(n), t.(recycle := t.recycle - {n}))
      else (Some(n), t.(table := t.table[n := None], manuallyUsed := t.manuallyUsed + {n}))
  }

  /** `dealloc_fd(fd)`: panics when fd has no slot; otherwise the slot is
      emptied and fd recycled. */
  function DeallocFd(t: FdTable, fd: nat): (r: Res<FdTable>)
    ensures r.Panic? <==> fd !in t.table
    ensures r.Ok? ==> r.value == t.(table := t.table[fd := None], recycle := t.recycle + {fd})
    ensures r.Ok? && Inv(t) ==> Inv(r.value)
  {
    if fd in t.table then Ok(t.(table := t.table[fd := None], recycle := t.recycle + {fd})) else Panic
  }

  /** `get(fd)` (and indexing): the slot; a missing key panics. */
  function Get(t: FdTable, fd: nat): (r: Res<Option<File>>)
    ensures r.Panic? <==> fd !in t.table
    ensures r.Ok? ==> r.value == t.table[fd]
  {
    if fd in t.table then Ok(t.table[fd]) else Panic
  }

  /** Storing a file through `get_mut(fd)` (and `IndexMut`). */
  function Install(t: FdTable, fd: nat, f: File): (r: Res<FdTable>)
    ensures r.Panic? <==> fd !in t.table
    ensures r.Ok? ==> r.value == t.(table := t.table[fd := Some(f)])
    ensures r.Ok? && Inv(t) && fd !in t.recycle ==> Inv(r.value)
  {
    if fd in t.table then Ok(t.(table := t.table[fd := Some(f)])) else Panic
  }

  /** `len`: the number of slots, vacant ones included. */
  function Len(t: FdTable): (n: nat)
    ensures n == |t.table.Keys|
  {
    |t.table|
  }

  /** `clear`. */
  function Clear(t: FdTable): (r: FdTable)
    ensures r == New()
  {
    FdTable({}, map[], {}, 0)
  }

  /** `contains(fd)`: fd has a slot and it holds a file. */
  function Contains(t: FdTable, fd: nat): (b: bool)
    ensures b <==> fd in t.table && t.table[fd].Some?
  {
    match Get(t, fd)
    case Ok(slot) => slot.Some?
    case Panic => false
  }

  /** `clone`: both sets and the bound copied, then every slot copied one by
      one (a file is shared, a vacant slot stays vacant). The copy equals
      the original. */
  method Clone(t: FdTable) returns (r: FdTable)
    ensures r == t
  {
    r := FdTable(t.recycle, map[], t.manuallyUsed, t.upperBound);
    var rest := t.table.Keys;
    while rest != {}
      invariant rest <= t.table.Keys
      invariant r.recycle == t.recycle && r.manuallyUsed == t.manuallyUsed && r.upperBound == t.upperBound
      invariant forall fd :: fd in r.table <==> fd in t.table && fd !in rest
      invariant forall fd :: fd in r.table ==> r.table[fd] == t.table[fd]
      decreases |rest|
    {
      var fd :| fd in rest;
      var slot := match t.table[fd] case Some(f) => Some(f) case None => None;
      r := r.(table := r.table[fd := slot]);
      rest := rest - {fd};
    }
  }

  /** A released fd is the next one handed out when nothing else waits to
      be recycled: closing and reopening reuses the descriptor. */
  lemma DeallocThenAlloc(t: FdTable, fd: nat)
    requires Inv(t) && fd in t.table && t.recycle == {}
    ensures var t1 := DeallocFd(t, fd).value;
      AllocFd(t1, -1) == (Some(fd), t.(table := t.table[fd := None]))
  {
    var t1 := DeallocFd(t, fd).value;
    assert t1.recycle == {fd};
    assert SetMin(t1.recycle) == fd;
  }

  /** An fd claimed by number is never handed out by a later `alloc_fd(-1)`
      while it holds a slot outside recycle. */
  lemma ClaimedNotReissued(t: FdTable, n: nat)
    requires Inv(t) && n < USIZE_MOD + ISIZE_MIN && n !in t.table && n !in t.recycle
    ensures var (got, t1) := AllocFd(t, n);
      && got == Some(n)
      && Inv(t1)
      && AllocFd(t1, -1).0 != Some(n)
  {
    var (got, t1) := AllocFd(t, n);
    assert AsUsize(n) == n;
    assert n in t1.manuallyUsed && n !in t1.recycle;
  }
}

=== FILE: futex.dfy ===
/** Futexes: per-process wait queues keyed by a user address, with WAIT
    (block while the word there holds the expected value) and WAKE (release
    up to n waiters in FIFO order).

    User memory is a map from word addresses to the 32-bit values stored
    there; an address outside it is a fault, which panics the kernel. */
module Futexes {
  import opened Base
  import opened Tasks
  import WaitQueues
  import Manager
  import opened Pcbs
  import opened KernelState

  /** The operation codes of `FutexOp`, 0 to 13 in declaration order. */
  datatype FutexOp =
    | FutexWait | FutexWake | FutexFd | FutexRequeue | FutexCmpRequeue
    | FutexWakeOp | FutexLockPi | FutexUnlockPi | FutexTrylockPi
    | FutexWaitBitset | FutexWakeBitset | FutexWaitRequeuePi
    | FutexCmpRequeuePi | FutexLockPi2

  /** `FUTEX_OP_SIZE`: one past the last operation code. */
  const FUTEX_OP_SIZE: nat := 14

  /** `EAGAIN` of the kernel's error numbers. */
  const EAGAIN: int := 11

  function Code(op: FutexOp): (c: nat)
    ensures c < FUTEX_OP_SIZE
  {
    match op
    case FutexWait => 0
    case FutexWake => 1
    case FutexFd => 2
    case FutexRequeue => 3
    case FutexCmpRequeue => 4
    case FutexWakeOp => 5
    case FutexLockPi => 6
    case FutexUnlockPi => 7
    case FutexTrylockPi => 8
    case FutexWaitBitset => 9
    case FutexWakeBitset => 10
    case FutexWaitRequeuePi => 11
    case FutexCmpRequeuePi => 12
    case FutexLockPi2 => 13
  }

  /** `FutexOp::from`: panics from FUTEX_OP_SIZE on; below it the value is
      reinterpreted as the operation with that code. (A negative value would
      be reinterpreted as no operation at all; callers pass none.) */
  function From(v: nat): (r: Res<FutexOp>)
    ensures r.Ok? <==> v < FUTEX_OP_SIZE
    ensures r.Ok? ==> Code(r.value) == v
  {
    if v >= FUTEX_OP_SIZE then Panic
    else Ok([FutexWait, FutexWake, FutexFd, FutexRequeue, FutexCmpRequeue,
             FutexWakeOp, FutexLockPi, FutexUnlockPi, FutexTrylockPi,
             FutexWaitBitset, FutexWakeBitset, FutexWaitRequeuePi,
             FutexCmpRequeuePi, FutexLockPi2][v])
  }

  /** Decoding the code of an operation gives the operation back. */
  lemma FromCode(op: FutexOp)
    ensures From(Code(op)) == Ok(op)
  {
  }

  /** User memory: the 32-bit word stored at each mapped address. */
  type UserWords = map<nat, int>

  /** No futex queue of the process is left locked between system calls. */
  ghost predicate Unlocked(p: Pcb) {
    forall key :: key in p.futexTable ==> p.futexTable[key].lock == WaitQueues.FREE
  }

  /** Every task waiting on a futex of the process is a live task. */
  ghost predicate WaitersLive(p: Pcb, tcbs: Tcbs) {
    forall key, i :: key in p.futexTable && 0 <= i < |p.futexTable[key].queue| ==>
      p.futexTable[key].queue[i] in tcbs
  }

  /** The queue for `key`, created empty on first use. */
  function QueueAt(table: map<nat, WaitQueues.WaitQueue>, key: nat): (w: WaitQueues.WaitQueue)
    ensures key in table ==> w == table[key]
    ensures key !in table ==> w == WaitQueues.New()
  {
    if key in table then table[key] else WaitQueues.New()
  }

  /** The kernel with the running process's futex queue at `key` replaced. */
  function WithQueue(k: Kernel, key: nat, w: WaitQueues.WaitQueue): (r: Kernel)
    requires HasCurrent(k)
    ensures HasCurrent(r) && Current(r) == Current(k) && CurrentProc(r) == CurrentProc(k)
    ensures r.procs[CurrentProc(k)].futexTable == k.procs[CurrentProc(k)].futexTable[key := w]
  {
    var p := CurrentProc(k);
    var pcb := k.procs[p];
    k.(procs := k.procs[p := pcb.(futexTable := pcb.futexTable[key := w])])
  }

  /** `sys_futex_wait` with the user token taken before the process is
      borrowed (the corrected order; see `SysFutexWaitAsWritten`): with the
      queue for `uaddr` locked, compare the word at `uaddr` with `expected`.
      On a mismatch return -EAGAIN, blocking nobody; on a match append the
      running task (now Blocked) to the queue, release the lock, take the task
      off the processor and return 0. Either way the queue now exists and is
      unlocked. */
  function SysFutexWait(k: Kernel, uaddr: nat, expected: int, mem: UserWords): (r: Res<(int, Kernel)>)
    requires HasCurrent(k) && Unlocked(k.procs[CurrentProc(k)])
    ensures r.Panic? <==> uaddr !in mem
    ensures r.Ok? && mem[uaddr] != expected ==>
      var w := QueueAt(k.procs[CurrentProc(k)].futexTable, uaddr);
      r.value == (-EAGAIN, WithQueue(k, uaddr, w))
    ensures r.Ok? && mem[uaddr] == expected ==>
      var w := QueueAt(k.procs[CurrentProc(k)].futexTable, uaddr);
      var k1 := WithQueue(k, uaddr, w.(queue := w.queue + [Current(k)]));
      && r.value.0 == 0
      && r.value.1 == BlockCurrentAndRunNext(k1.(tcbs := SetStatus(k1.tcbs, Current(k), Blocked)))
  {
    var p := CurrentProc(k);
    var w := QueueAt(k.procs[p].futexTable, uaddr);
    var guard := WaitQueues.Lock(w);
    if uaddr !in mem then Panic
    else if mem[uaddr] != expected then
      Ok((-EAGAIN, WithQueue(k, uaddr, WaitQueues.Unlock(guard))))
    else
      var (g1, tcbs1) := WaitQueues.GuardAdd(guard, k.tcbs, Current(k));
      var k1 := WithQueue(k, uaddr, WaitQueues.Unlock(g1)).(tcbs := tcbs1);
      Ok((0, BlockCurrentAndRunNext(k1)))
  }

  /** The wait from the reading of the user token on, with `held` the
      processes borrowed at that point: the read panics when the running
      process is among them, and otherwise the wait proceeds as `SysFutexWait`. */
  function WaitReadingToken(k: Kernel, uaddr: nat, expected: int, mem: UserWords, held: set<ProcRef>)
    : (r: Res<(int, Kernel)>)
    requires HasCurrent(k) && Unlocked(k.procs[CurrentProc(k)])
    ensures r.Panic? <==> CurrentProc(k) in held || uaddr !in mem
    ensures r.Ok? ==> r == SysFutexWait(k, uaddr, expected, mem)
  {
    match CurrentUserToken(k, held)
    case Panic => Panic
    case Ok(_) => SysFutexWait(k, uaddr, expected, mem)
  }

  /** `sys_futex_wait` as written: the running process stays borrowed from
      the moment its futex table is looked up, and the user token is then read
      through `current_user_token`, which borrows the same process again. That
      second borrow panics, before the word at `uaddr` is ever read. */
  function SysFutexWaitAsWritten(k: Kernel, uaddr: nat, expected: int, mem: UserWords): (r: Res<(int, Kernel)>)
    requires HasCurrent(k) && Unlocked(k.procs[CurrentProc(k)])
    ensures r.Panic?
  {
    WaitReadingToken(k, uaddr, expected, mem, {CurrentProc(k)})
  }

  /** As written, FUTEX_WAIT panics on every call, whatever the word and the
      expected value; with the token taken first, while nothing is borrowed,
      it panics only on an unmapped address and otherwise returns 0 or -EAGAIN. */
  lemma FutexWaitAsWrittenAlwaysPanics(k: Kernel, uaddr: nat, expected: int, mem: UserWords)
    requires HasCurrent(k) && Unlocked(k.procs[CurrentProc(k)])
    ensures SysFutexWaitAsWritten(k, uaddr, expected, mem).Panic?
    ensures WaitReadingToken(k, uaddr, expected, mem, {}) == SysFutexWait(k, uaddr, expected, mem)
    ensures uaddr in mem ==>
      var r := SysFutexWait(k, uaddr, expected, mem);
      r.Ok? && (r.value.0 == 0 <==> mem[uaddr] == expected) && (r.value.0 == -EAGAIN <==> mem[uaddr] != expected)
  {
  }

  /** Taking the head of a queue and then `c` more is taking `c + 1`. */
  lemma SplitFront(q: seq<TaskRef>, c: nat)
    requires c < |q|
    ensures q[..c + 1] == [q[0]] + q[1..][..c]
    ensures q[1..][c..] == q[c + 1..]
  {
  }

  /** The waking loop of `sys_futex_wake`: take up to `n` tasks from the
      locked queue `g`, each set Ready and appended to the ready queue `ready`.
      Returns the count woken, the queue left, the ready queue and the TCBs. */
  function WakeLoop(g: WaitQueues.WaitQueue, ready: seq<TaskRef>, tcbs: Tcbs, n: nat)
    : (r: (nat, WaitQueues.WaitQueue, seq<TaskRef>, Tcbs))
    requires forall i :: 0 <= i < |g.queue| ==> g.queue[i] in tcbs
    ensures r.0 == if n < |g.queue| then n else |g.queue|
    ensures r.1 == g.(queue := g.queue[r.0..])
    ensures r.2 == ready + g.queue[..r.0]
    decreases n
  {
    if n == 0 || g.queue == [] then (0, g, ready, tcbs)
    else
      var t := g.queue[0];
      var g1 := g.(queue := g.queue[1..]);
      assert WaitQueues.GuardTake(g) == (Some(t), g1);
      var (c, g2, ready2, tcbs2) := WakeLoop(g1, ready + [t], tcbs[t := tcbs[t].(status := Ready)], n - 1);
      SplitFront(g.queue, c);
      (c + 1, g2, ready2, tcbs2)
  }

  /** The tasks woken by the loop, and only they, are now Ready; no TCB
      appears or disappears. */
  lemma {:induction false} WakeLoopStatus(g: WaitQueues.WaitQueue, ready: seq<TaskRef>, tcbs: Tcbs, n: nat)
    requires forall i :: 0 <= i < |g.queue| ==> g.queue[i] in tcbs
    ensures var (c, _, _, tcbs') := WakeLoop(g, ready, tcbs, n);
      && (forall u :: u in tcbs' <==> u in tcbs)
      && (forall u :: u in g.queue[..c] ==> tcbs'[u].status == Ready)
      && (forall u :: u in tcbs && u !in g.queue[..c] ==> tcbs'[u] == tcbs[u])
    decreases n
  {
    if n > 0 && g.queue != [] {
      var t := g.queue[0];
      var g1 := g.(queue := g.queue[1..]);
      var tcbs1 := tcbs[t := tcbs[t].(status := Ready)];
      assert tcbs1.Keys == tcbs.Keys;
      WakeLoopStatus(g1, ready + [t], tcbs1, n - 1);
      var (c, g2, ready2, tcbs2) := WakeLoop(g1, ready + [t], tcbs1, n - 1);
      assert WakeLoop(g, ready, tcbs, n) == (c + 1, g2, ready2, tcbs2);
      assert tcbs2.Keys == tcbs.Keys;
      var woken := g.queue[..c + 1];
      SplitFront(g.queue, c);
      forall u | u in woken ensures tcbs2[u].status == Ready {
        if u !in g1.queue[..c] { assert u == t; }
      }
      forall u | u in tcbs && u !in woken ensures tcbs2[u] == tcbs[u] {
        assert u != t && u !in g1.queue[..c];
      }
    }
  }

  /** `sys_futex_wake`: with the queue for `uaddr` locked, wake up to `n` of
      its tasks in FIFO order, each set Ready and appended to the ready queue;
      returns how many were woken. */
  function SysFutexWake(k: Kernel, uaddr: nat, n: nat): (r: (int, Kernel))
    requires HasCurrent(k) && Unlocked(k.procs[CurrentProc(k)])
    requires WaitersLive(k.procs[CurrentProc(k)], k.tcbs)
    ensures var w := QueueAt(k.procs[CurrentProc(k)].futexTable, uaddr);
      var c := if n < |w.queue| then n else |w.queue|;
      && r.0 == c
      && r.1.procs == WithQueue(k, uaddr, w.(queue := w.queue[c..])).procs
      && r.1.manager.readyQueue == k.manager.readyQueue + w.queue[..c]
      && (forall u :: u in r.1.tcbs <==> u in k.tcbs)
      && (forall u :: u in w.queue[..c] ==> r.1.tcbs[u].status == Ready)
      && (forall u :: u in k.tcbs && u !in w.queue[..c] ==> r.1.tcbs[u] == k.tcbs[u])
      && r.1.processor == k.processor
      && r.1.pid2pcb == k.pid2pcb && r.1.trapCtx == k.trapCtx
      && r.1.initProc == k.initProc && r.1.idlePid == k.idlePid
  {
    var p := CurrentProc(k);
    var w := QueueAt(k.procs[p].futexTable, uaddr);
    var guard := WaitQueues.Lock(w);
    var (c, g1, ready, tcbs) := WakeLoop(guard, k.manager.readyQueue, k.tcbs, n);
    WakeLoopStatus(guard, k.manager.readyQueue, k.tcbs, n);
    var k1 := WithQueue(k, uaddr, WaitQueues.Unlock(g1));
    (c, k1.(manager := Manager.TaskManager(ready), tcbs := tcbs))
  }

  /** `sys_futex` with the corrected wait (`SysFutexWait`): WAIT and WAKE are
      served, every other valid operation returns -1, and a code from
      FUTEX_OP_SIZE on panics. As written, WAIT panics instead
      (`SysFutexWaitAsWritten`). */
  function SysFutex(k: Kernel, uaddr: nat, op: nat, val: nat, mem: UserWords): (r: Res<(int, Kernel)>)
    requires HasCurrent(k) && Unlocked(k.procs[CurrentProc(k)])
    requires WaitersLive(k.procs[CurrentProc(k)], k.tcbs)
    ensures op >= FUTEX_OP_SIZE ==> r.Panic?
    ensures op == 0 ==> r == SysFutexWait(k, uaddr, val, mem)
    ensures op == 1 ==> r == Ok(SysFutexWake(k, uaddr, val))
    ensures 2 <= op < FUTEX_OP_SIZE ==> r == Ok((-1, k))
  {
    match From(op)
    case Panic => Panic
    case Ok(FutexWait) => SysFutexWait(k, uaddr, val, mem)
    case Ok(FutexWake) => Ok(SysFutexWake(k, uaddr, val))
    case Ok(_) => Ok((-1, k))
  }

  /** Waking nobody: WAKE with n = 0 returns 0 and changes no queue, no task
      and the ready queue not at all (an empty queue may appear for a new key). */
  lemma WakeZero(k: Kernel, uaddr: nat)
    requires HasCurrent(k) && Unlocked(k.procs[CurrentProc(k)])
    requires WaitersLive(k.procs[CurrentProc(k)], k.tcbs)
    ensures var (c, k') := SysFutexWake(k, uaddr, 0);
      var w := QueueAt(k.procs[CurrentProc(k)].futexTable, uaddr);
      && c == 0
      && k'.manager == k.manager
      && k'.procs[CurrentProc(k)].futexTable == k.procs[CurrentProc(k)].futexTable[uaddr := w]
  {
    var w := QueueAt(k.procs[CurrentProc(k)].futexTable, uaddr);
    assert w.queue[0..] == w.queue && w.queue[..0] == [];
  }

  function Last(q: seq<TaskRef>): Option<TaskRef> {
    if q == [] then None else Some(q[|q| - 1])
  }

  /** A waiter and a waker on the same address meet (with the corrected
      wait; as written the WAIT panics): after a matching WAIT
      the waiter is the last task of that address's queue, so a WAKE for the
      whole queue releases it, and a WAIT on another address never touches
      this queue. */
  lemma WaitEnqueuesOnItsKey(k: Kernel, uaddr: nat, other: nat, mem: UserWords)
    requires HasCurrent(k) && Unlocked(k.procs[CurrentProc(k)])
    requires uaddr in mem && other != uaddr
    ensures var r := SysFutexWait(k, uaddr, mem[uaddr], mem);
      var p := CurrentProc(k);
      && r.Ok? && r.value.0 == 0
      && p in r.value.1.procs
      && uaddr in r.value.1.procs[p].futexTable
      && Last(r.value.1.procs[p].futexTable[uaddr].queue) == Some(Current(k))
      && (other in k.procs[p].futexTable <==> other in r.value.1.procs[p].futexTable)
      && (other in k.procs[p].futexTable ==> r.value.1.procs[p].futexTable[other] == k.procs[p].futexTable[other])
      && r.value.1.tcbs[Current(k)].status == Blocked
      && r.value.1.processor.current.None?
  {
  }
}

=== FILE: kernel.dfy ===
/** The whole kernel state the lifecycle operations act on: every TCB and
    PCB (by handle), the ready queue, the pid index, the processor slot, the
    trap contexts of the threads, and the two distinguished processes
    (INITPROC and the idle process's pid).

    Here live the operations of `task/mod.rs` that only move a task between
    the processor, the ready queue and the blocked state, and the scheduler
    invariant they keep. The context switch that follows each of them is an
    opaque step that changes nothing in this state. */
module KernelState {
  import opened Base
  import opened Tasks
  import Trap
  import Manager
  import Processors
  import opened Pcbs

  datatype Kernel = Kernel(
    tcbs: Tcbs,
    procs: map<ProcRef, Pcb>,
    manager: Manager.TaskManager,
    pid2pcb: Manager.PidIndex,
    processor: Processors.Processor,
    trapCtx: map<TaskRef, Trap.TrapContext>,  // content of each thread's trap-context page
    initProc: ProcRef,
    idlePid: nat
  )

  /** A task is running and its process is alive: what `current_task().unwrap()`
      and `current_process()` rely on. */
  predicate HasCurrent(k: Kernel) {
    && k.processor.current.Some?
    && k.processor.current.value in k.tcbs
    && k.tcbs[k.processor.current.value].process in k.procs
  }

  function Current(k: Kernel): TaskRef
    requires HasCurrent(k)
  {
    k.processor.current.value
  }

  function CurrentProc(k: Kernel): ProcRef
    requires HasCurrent(k)
  {
    k.tcbs[Current(k)].process
  }

  /** `current_user_token`: the running process's address space, read through
      a fresh exclusive borrow of that process. `held` is the set of processes
      the caller already holds borrowed; borrowing one of them again panics. */
  function CurrentUserToken(k: Kernel, held: set<ProcRef>): (r: Res<nat>)
    requires HasCurrent(k)
    ensures r.Panic? <==> CurrentProc(k) in held
    ensures r.Ok? ==> r.value == k.procs[CurrentProc(k)].memorySet
  {
    var p := CurrentProc(k);
    if p in held then Panic else Ok(k.procs[p].memorySet)
  }

  /** The scheduler invariant: the ready queue holds distinct Ready tasks,
      and the running task (if any) is Running and not queued. */
  ghost predicate SchedInv(k: Kernel) {
    var q := k.manager.readyQueue;
    && Distinct(q)
    && (forall i :: 0 <= i < |q| ==> q[i] in k.tcbs && k.tcbs[q[i]].status == Ready)
    && (k.processor.current.Some? ==>
          && k.processor.current.value in k.tcbs
          && k.tcbs[k.processor.current.value].status == Running
          && k.processor.current.value !in q)
  }

  /** `suspend_current_and_run_next`: the running task gives up the
      processor, becomes Ready and joins the back of the ready queue. */
  function Suspend(k: Kernel): (r: Kernel)
    requires HasCurrent(k)
    ensures r.processor.current.None?
    ensures r.manager.readyQueue == k.manager.readyQueue + [Current(k)]
    ensures r.tcbs == SetStatus(k.tcbs, Current(k), Ready)
    ensures r.procs == k.procs && r.pid2pcb == k.pid2pcb && r.trapCtx == k.trapCtx
    ensures SchedInv(k) ==> SchedInv(r)
  {
    var (t, p) := Processors.TakeCurrent(k.processor);
    var tcbs := SetStatus(k.tcbs, t.value, Ready);
    var r := k.(processor := p, tcbs := tcbs, manager := Manager.Add(k.manager, t.value));
    assert SchedInv(k) ==> SchedInv(r) by {
      if SchedInv(k) {
        var q := r.manager.readyQueue;
        forall i, j | 0 <= i < j < |q| ensures q[i] != q[j] {
          if j < |q| - 1 { assert q[i] == k.manager.readyQueue[i] && q[j] == k.manager.readyQueue[j]; }
        }
      }
    }
    r
  }

  /** `block_current_task`: the running task gives up the processor and
      becomes Blocked; it is put on no queue here. */
  function BlockCurrentTask(k: Kernel): (r: Kernel)
    requires HasCurrent(k)
    ensures r.processor.current.None?
    ensures r.manager == k.manager
    ensures r.tcbs == SetStatus(k.tcbs, Current(k), Blocked)
    ensures r.procs == k.procs && r.pid2pcb == k.pid2pcb && r.trapCtx == k.trapCtx
    ensures SchedInv(k) ==> SchedInv(r)
  {
    var (t, p) := Processors.TakeCurrent(k.processor);
    k.(processor := p, tcbs := SetStatus(k.tcbs, t.value, Blocked))
  }

  /** `block_current_and_run_next`: `current_process()` (which panics with no
      live process) followed by `block_current_task`. */
  function BlockCurrentAndRunNext(k: Kernel): (r: Kernel)
    requires HasCurrent(k)
    ensures r == BlockCurrentTask(k)
  {
    BlockCurrentTask(k)
  }

  /** `wakeup_task` on the whole state. */
  function Wakeup(k: Kernel, t: TaskRef): (r: Kernel)
    requires t in k.tcbs
    ensures r.manager.readyQueue == k.manager.readyQueue + [t]
    ensures r.tcbs == SetStatus(k.tcbs, t, Ready)
    ensures r.processor == k.processor && r.procs == k.procs
    ensures SchedInv(k) && k.tcbs[t].status == Blocked ==> SchedInv(r)
  {
    var (m, tcbs) := Manager.WakeupTask(k.manager, k.tcbs, t);
    var r := k.(manager := m, tcbs := tcbs);
    assert SchedInv(k) && k.tcbs[t].status == Blocked ==> SchedInv(r) by {
      if SchedInv(k) && k.tcbs[t].status == Blocked {
        var q := r.manager.readyQueue;
        assert forall i :: 0 <= i < |k.manager.readyQueue| ==> k.manager.readyQueue[i] != t;
        forall i, j | 0 <= i < j < |q| ensures q[i] != q[j] {
          if j < |q| - 1 { assert q[i] == k.manager.readyQueue[i] && q[j] == k.manager.readyQueue[j]; }
        }
      }
    }
    r
  }

  /** One turn of `run_tasks` on the whole state. */
  function RunStep(k: Kernel): (r: Kernel)
    requires SchedInv(k)
    ensures k.manager.readyQueue == [] ==> r == k
    ensures k.manager.readyQueue != [] ==>
      && r.processor.current == Some(k.manager.readyQueue[0])
      && r.manager.readyQueue == k.manager.readyQueue[1..]
      && r.tcbs == SetStatus(k.tcbs, k.manager.readyQueue[0], Running)
    ensures k.processor.current.None? ==> SchedInv(r)
  {
    var (p, m, tcbs) := Processors.RunTasksStep(k.processor, k.manager, k.tcbs);
    var r := k.(processor := p, manager := m, tcbs := tcbs);
    assert k.processor.current.None? ==> SchedInv(r) by {
      if k.processor.current.None? && k.manager.readyQueue != [] {
        var q := k.manager.readyQueue;
        forall i | 0 <= i < |q| - 1 ensures q[1..][i] != q[0] {
          assert q[1..][i] == q[i + 1];
        }
      }
    }
    r
  }

  /** OR the flags into process `p`'s set; nothing else changes. */
  function AddSignal(k: Kernel, p: ProcRef, sig: bv32): (r: Kernel)
    requires p in k.procs
    ensures r.procs.Keys == k.procs.Keys
    ensures r.procs[p].signals == k.procs[p].signals | sig
    ensures r.procs[p].(signals := k.procs[p].signals) == k.procs[p]
    ensures forall q :: q in k.procs && q != p ==> r.procs[q] == k.procs[q]
    ensures r.(procs := k.procs) == k
  {
    k.(procs := k.procs[p := k.procs[p].(signals := k.procs[p].signals | sig)])
  }

  /** Flags already set are not added again: a second OR of the same flags
      leaves the state as it is. */
  lemma AddSignalAgain(k: Kernel, p: ProcRef, sig: bv32)
    requires p in k.procs
    ensures AddSignal(AddSignal(k, p, sig), p, sig) == AddSignal(k, p, sig)
  {
    OrAgain(k.procs[p].signals, sig);
    AddSetSignal(AddSignal(k, p, sig), p, sig);
  }

  /** Adding flags that are all set already changes nothing. */
  lemma AddSetSignal(k: Kernel, p: ProcRef, sig: bv32)
    requires p in k.procs && k.procs[p].signals | sig == k.procs[p].signals
    ensures AddSignal(k, p, sig) == k
  {
    SameSignals(k.procs[p], k.procs[p].signals | sig);
    assert k.procs[p := k.procs[p]] == k.procs;
  }

  lemma OrAgain(a: bv32, b: bv32)
    ensures (a | b) | b == a | b
  {
  }

  lemma SameSignals(pcb: Pcb, s: bv32)
    requires s == pcb.signals
    ensures pcb.(signals := s) == pcb
  {
  }

  /** `current_add_signal`: OR the flags into the running process's set. */
  function CurrentAddSignal(k: Kernel, sig: bv32): (r: Kernel)
    requires HasCurrent(k)
    ensures r.procs.Keys == k.procs.Keys
    ensures r.procs[CurrentProc(k)].signals == k.procs[CurrentProc(k)].signals | sig
    ensures r.procs[CurrentProc(k)].(signals := k.procs[CurrentProc(k)].signals) == k.procs[CurrentProc(k)]
    ensures forall q :: q in k.procs && q != CurrentProc(k) ==> r.procs[q] == k.procs[q]
    ensures r.(procs := k.procs) == k
  {
    AddSignal(k, CurrentProc(k), sig)
  }

  /** Yield followed by the next scheduling turn: with the yielding task the
      only ready one, it is resumed at once; otherwise the oldest ready task
      runs and the yielding one waits behind the rest. */
  lemma YieldThenRun(k: Kernel)
    requires HasCurrent(k) && SchedInv(k)
    ensures var r := RunStep(Suspend(k));
      && SchedInv(r)
      && (k.manager.readyQueue == [] ==> r.processor.current == k.processor.current)
      && (k.manager.readyQueue != [] ==>
            && r.processor.current == Some(k.manager.readyQueue[0])
            && r.manager.readyQueue == k.manager.readyQueue[1..] + [Current(k)])
  {
    var s := Suspend(k);
    if k.manager.readyQueue != [] {
      assert s.manager.readyQueue == [k.manager.readyQueue[0]] + (k.manager.readyQueue[1..] + [Current(k)]);
    }
  }
}

=== FILE: lifecycle.dfy ===
/** Process creation and replacement (`ProcessControlBlock::{new, fork,
    exec}`): the initial field values of a new or forked process, the
    registration of its main thread, and the argument layout `exec` pushes
    on the new user stack.

    `MemorySet::from_elf` and `from_existed_user`, the thread-resource and
    kernel-stack allocators, the pid allocator and the kernel's own page
    table are outside this model: their answers arrive as parameters. */
module Lifecycle {
  import opened Base
  import opened Tasks
  import Trap
  import Dirs
  import Manager
  import opened Pcbs
  import opened KernelState

  /** The standard streams a new process starts with: stdin, stdout, and a
      second stdout object serving as stderr. */
  const STDIN: File := File(0, true, false)
  const STDOUT: File := File(1, false, true)
  const STDERR: File := File(2, false, true)

  /** What `MemorySet::from_elf` returns besides the address space itself:
      the end of the loaded image (the initial program break) and the entry
      point. */
  datatype Image = Image(memorySet: nat, programBrk: nat, entry: nat)

  /** Kernel-wide values copied into every trap context: the kernel's page
      table token, the trap handler address, and `sstatus` as read. */
  datatype Env = Env(satp: nat, handler: nat, sstatus: Trap.Sstatus)

  /** The fresh process record of `new`: no parent, children or threads yet,
      the three standard streams, cwd "/" on the root inode, an empty heap
      at the program break, user privilege. */
  function FreshPcb(pid: nat, img: Image, root: Dirs.InodeRef): (q: Pcb)
    ensures !q.isZombie && q.exitCode == 0 && q.parent.None? && q.children == []
    ensures q.fdTable == [Some(STDIN), Some(STDOUT), Some(STDERR)]
    ensures q.dir.cwd == "/" && q.dir.inode == root
    ensures q.programBrkBottom == q.currentHeapTop == img.programBrk
    ensures q.privilege == UserMode && q.signals == 0 && q.tasks == []
  {
    Pcb(pid, false, 0, None, [], Dirs.New(root), [], img.memorySet,
        [Some(STDIN), Some(STDOUT), Some(STDERR)], 0, img.programBrk, img.programBrk,
        UserMode, map[], Tms(0, 0, 0, 0))
  }

  /** `ProcessControlBlock::new`: a process `p` with pid `pid` and one thread
      `t` (thread id 0 at the user stack top), whose trap context starts the
      program at its entry point; the process is indexed by its pid and the
      thread queued as ready. `ustackTop`, `ppn` and `kstackTop` are what the
      resource and kernel-stack allocators hand out. */
  function NewProcess(k: Kernel, img: Image, root: Dirs.InodeRef, env: Env,
                      p: ProcRef, pid: nat, t: TaskRef, ustackTop: nat, ppn: nat, kstackTop: nat): (r: Kernel)
    requires p !in k.procs && t !in k.tcbs
    ensures p in r.procs && r.procs == k.procs[p := r.procs[p]]
    ensures r.procs[p] == FreshPcb(pid, img, root).(tasks := [Some(t)])
    ensures t in r.tcbs && r.tcbs == k.tcbs[t := r.tcbs[t]]
    ensures Fresh(r.tcbs[t], p) && r.tcbs[t].res == Some(TaskUserRes(0, USER_STACK_TOP, ustackTop, ppn))
    ensures t in r.trapCtx && r.trapCtx[t] == Trap.AppInitContext(env.sstatus, img.entry, ustackTop, env.satp, kstackTop, env.handler)
    ensures Manager.Pid2Process(r.pid2pcb, pid) == Some(p)
    ensures r.manager.readyQueue == k.manager.readyQueue + [t]
    ensures r.processor == k.processor
    ensures SchedInv(k) ==> SchedInv(r)
  {
    var res := TaskUserRes(0, USER_STACK_TOP, ustackTop, ppn);
    var task := NewTask(p, res, kstackTop, 0, 0);
    var ctx := Trap.AppInitContext(env.sstatus, img.entry, ustackTop, env.satp, kstackTop, env.handler);
    var r := k.(procs := k.procs[p := FreshPcb(pid, img, root).(tasks := [Some(t)])],
                tcbs := k.tcbs[t := task],
                trapCtx := k.trapCtx[t := ctx],
                pid2pcb := Manager.InsertIntoPid2Process(k.pid2pcb, pid, p),
                manager := Manager.Add(k.manager, t));
    assert SchedInv(k) ==> SchedInv(r) by {
      if SchedInv(k) { QueueAppendFresh(k.manager.readyQueue, k.tcbs, t); }
    }
    r
  }

  /** Appending a task that is not yet a TCB keeps a queue of distinct TCBs
      distinct. */
  lemma QueueAppendFresh(q: seq<TaskRef>, tcbs: Tcbs, t: TaskRef)
    requires Distinct(q) && (forall i :: 0 <= i < |q| ==> q[i] in tcbs) && t !in tcbs
    ensures Distinct(q + [t])
  {
    var q' := q + [t];
    forall i, j | 0 <= i < j < |q'| ensures q'[i] != q'[j] {
      if j < |q| { assert q'[i] == q[i] && q'[j] == q[j]; }
    }
  }

  /** The main thread of process `q` and its user resources, which `fork`
      and `exec` fetch through `get_task(0)`. */
  predicate HasMainThread(k: Kernel, q: ProcRef) {
    && q in k.procs
    && |k.procs[q].tasks| >= 1
    && k.procs[q].tasks[0].Some?
    && k.procs[q].tasks[0].value in k.tcbs
    && k.tcbs[k.procs[q].tasks[0].value].res.Some?
  }

  function MainThread(k: Kernel, q: ProcRef): TaskRef
    requires HasMainThread(k, q)
  {
    k.procs[q].tasks[0].value
  }

  /** `fork` of process `q`: the child `c` (pid `pid`) gets a copy of the
      address space (`memorySet`), the same fd slots sharing the same files,
      a fresh cwd "/" on the parent's current inode, the parent's heap
      bounds, and one thread `t` whose trap context is the parent's with its
      own kernel stack. The child is appended to the parent's children,
      indexed by pid and queued. The source asserts that `q` has exactly one
      thread slot; a vacant slot 0 or a main thread without resources also
      panics. */
  function Fork(k: Kernel, q: ProcRef, memorySet: nat, c: ProcRef, pid: nat, t: TaskRef, ppn: nat, kstackTop: nat): (r: Res<Kernel>)
    requires q in k.procs && c !in k.procs && t !in k.tcbs
    requires HasMainThread(k, q) ==> MainThread(k, q) in k.trapCtx
    ensures r.Ok? <==> |k.procs[q].tasks| == 1 && HasMainThread(k, q)
    ensures r.Ok? ==> c in r.value.procs
    ensures r.Ok? ==>
      var parent := k.procs[q];
      var child := r.value.procs[c];
      && child.pid == pid && !child.isZombie && child.exitCode == 0
      && child.parent == Some(q) && child.children == [] && child.tasks == [Some(t)]
      && child.fdTable == parent.fdTable
      && child.dir == Dirs.New(parent.dir.inode)
      && child.programBrkBottom == parent.programBrkBottom && child.currentHeapTop == parent.currentHeapTop
      && child.memorySet == memorySet && child.privilege == UserMode && child.signals == 0
      && r.value.procs == k.procs[q := parent.(children := parent.children + [c])][c := child]
    ensures r.Ok? ==> r.value.processor == k.processor && r.value.initProc == k.initProc
  {
    var parent := k.procs[q];
    if |parent.tasks| != 1 || !HasMainThread(k, q) then Panic
    else
      var t0 := MainThread(k, q);
      var child := Pcb(pid, false, 0, Some(q), [], Dirs.New(Dirs.GetCurrentInode(parent.dir)), [Some(t)],
                       memorySet, parent.fdTable, 0, parent.programBrkBottom, parent.currentHeapTop,
                       UserMode, map[], Tms(0, 0, 0, 0));
      var res := k.tcbs[t0].res.value.(tid := 0, trapCtxPpn := ppn);
      var ctx := k.trapCtx[t0].(kernelSp := kstackTop);
      Ok(k.(procs := k.procs[q := parent.(children := parent.children + [c])][c := child],
            tcbs := k.tcbs[t := NewTask(c, res, kstackTop, 0, 0)],
            trapCtx := k.trapCtx[t := ctx],
            pid2pcb := Manager.InsertIntoPid2Process(k.pid2pcb, pid, c),
            manager := Manager.Add(k.manager, t)))
  }

  /** The child's thread after `fork`: a fresh TCB of the child that reuses
      the parent's user stack and resumes where the parent trapped, on its
      own kernel stack; it is the last ready task and the child is found by
      its pid. The scheduler invariant survives the fork. */
  lemma ForkStartsChild(k: Kernel, q: ProcRef, memorySet: nat, c: ProcRef, pid: nat, t: TaskRef, ppn: nat, kstackTop: nat)
    requires q in k.procs && c !in k.procs && t !in k.tcbs
    requires HasMainThread(k, q) ==> MainThread(k, q) in k.trapCtx
    requires Fork(k, q, memorySet, c, pid, t, ppn, kstackTop).Ok?
    ensures var r := Fork(k, q, memorySet, c, pid, t, ppn, kstackTop).value;
      var t0 := MainThread(k, q);
      && t in r.tcbs && Fresh(r.tcbs[t], c) && r.tcbs[t].kstackTop == kstackTop
      && r.tcbs[t].res.value.tid == 0
      && r.tcbs[t].res.value.ustackBase == k.tcbs[t0].res.value.ustackBase
      && r.tcbs[t].trapCtxPpn == ppn
      && r.trapCtx[t].x == k.trapCtx[t0].x && r.trapCtx[t].sepc == k.trapCtx[t0].sepc
      && r.trapCtx[t].kernelSp == kstackTop
      && r.manager.readyQueue == k.manager.readyQueue + [t]
      && Manager.Pid2Process(r.pid2pcb, pid) == Some(c)
      && (forall u :: u in k.tcbs ==> u in r.tcbs && r.tcbs[u] == k.tcbs[u])
      && (SchedInv(k) ==> SchedInv(r))
  {
    var r := Fork(k, q, memorySet, c, pid, t, ppn, kstackTop).value;
    if SchedInv(k) {
      QueueAppendFresh(k.manager.readyQueue, k.tcbs, t);
      assert SchedInv(r);
    }
  }

  /** What `exec` writes on the new user stack: the argv array (word i at
      `argvBase + 8 * i`) and the bytes of the strings. */
  datatype StackImage = StackImage(argv: seq<nat>, bytes: map<nat, byte>)

  /** Room taken by the first `n` argument strings, each with its NUL. */
  function ArgsSize(args: seq<seq<byte>>, n: nat): nat
    requires n <= |args|
  {
    if n == 0 then 0 else ArgsSize(args, n - 1) + |args[n - 1]| + 1
  }

  /** Address of the copy of `args[i]`: string i sits just below string
      i - 1, the first just below the argv array. */
  function StrAt(argvBase: int, args: seq<seq<byte>>, i: nat): int
    requires i < |args|
  {
    argvBase - ArgsSize(args, i + 1)
  }

  /** The argument block `exec` builds below `top`: the argv array of
      |args| + 1 words ending in a null pointer, each entry pointing at a
      NUL-terminated copy of its argument, every copy below the array and
      below the previous one, and the final stack pointer rounded down to a
      multiple of 8. */
  ghost predicate ArgBlock(top: nat, args: seq<seq<byte>>, sp: nat, argvBase: nat, img: StackImage) {
    && argvBase + (|args| + 1) * 8 == top
    && |img.argv| == |args| + 1 && img.argv[|args|] == 0
    && (forall i :: 0 <= i < |args| ==> img.argv[i] == StrAt(argvBase, args, i))
    && (forall i :: 0 <= i < |args| ==> Copied(img.bytes, StrAt(argvBase, args, i), args[i]))
    && (forall a :: a in img.bytes ==> sp <= a < argvBase)
    && sp % 8 == 0 && argvBase - ArgsSize(args, |args|) - 8 < sp <= argvBase - ArgsSize(args, |args|)
  }

  /** The argument block fits in the user stack, the USER_STACK_SIZE bytes
      below `top`. The source does not check this: it writes the block
      through page-table translations, and the first write below the stack
      reaches an unmapped page and panics. */
  predicate Fits(top: nat, args: seq<seq<byte>>) {
    var need := (|args| + 1) * 8 + ArgsSize(args, |args|);
    need <= USER_STACK_SIZE && need <= top
  }

  /** The stack writes of `exec` (the argv loop and the string copies). */
  method ArgvLayout(top: nat, args: seq<seq<byte>>) returns (sp: nat, argvBase: nat, img: StackImage)
    requires Fits(top, args)
    ensures argvBase == top - (|args| + 1) * 8
    ensures |img.argv| == |args| + 1 && img.argv[|args|] == 0
    ensures forall i :: 0 <= i < |args| ==> img.argv[i] == StrAt(argvBase, args, i)
    ensures forall i :: 0 <= i < |args| ==> Copied(img.bytes, StrAt(argvBase, args, i), args[i])
    ensures forall a :: a in img.bytes ==> sp <= a < argvBase
    ensures sp % 8 == 0 && argvBase - ArgsSize(args, |args|) - 8 < sp <= argvBase - ArgsSize(args, |args|)
  {
    sp := top - (|args| + 1) * 8;
    argvBase := sp;
    var argv: seq<nat> := seq(|args| + 1, _ => 0);
    var bytes: map<nat, byte> := map[];
    var i := 0;
    while i < |args|
      invariant 0 <= i <= |args|
      invariant sp == argvBase - ArgsSize(args, i)
      invariant |argv| == |args| + 1 && argv[|args|] == 0
      invariant forall m :: 0 <= m < i ==> argv[m] == StrAt(argvBase, args, m)
      invariant forall m :: 0 <= m < i ==> Copied(bytes, StrAt(argvBase, args, m), args[m])
      invariant forall a :: a in bytes ==> sp <= a < argvBase
    {
      ArgsSizeMono(args, i + 1, |args|);
      sp := sp - (|args[i]| + 1);
      argv := argv[i := sp];
      ghost var before := bytes;
      bytes := CopyString(bytes, sp, args[i]);
      assert forall a :: a in before ==> a in bytes && bytes[a] == before[a];
      CopiesKept(before, bytes, argvBase, args, i);
      i := i + 1;
    }
    var low := sp;
    sp := AlignDown8(low);
    img := StackImage(argv, bytes);
  }

  /** `s` followed by a NUL sits at address `at`. */
  ghost predicate Copied(bytes: map<nat, byte>, at: int, s: seq<byte>) {
    && at >= 0
    && (forall a :: at <= a < at + |s| ==> a in bytes && bytes[a] == s[a - at])
    && at + |s| in bytes && bytes[at + |s|] == 0
  }

  /** A copy survives writes that keep every byte it occupies. */
  lemma CopiedKept(before: map<nat, byte>, after: map<nat, byte>, at: int, s: seq<byte>)
    requires Copied(before, at, s)
    requires forall a :: a in before ==> a in after && after[a] == before[a]
    ensures Copied(after, at, s)
  {
  }

  /** The copies of the first `n` arguments survive writes that keep every
      byte already written. */
  lemma CopiesKept(before: map<nat, byte>, after: map<nat, byte>, argvBase: int, args: seq<seq<byte>>, n: nat)
    requires n <= |args|
    requires forall m :: 0 <= m < n ==> Copied(before, StrAt(argvBase, args, m), args[m])
    requires forall a :: a in before ==> a in after && after[a] == before[a]
    ensures forall m :: 0 <= m < n ==> Copied(after, StrAt(argvBase, args, m), args[m])
  {
    forall m | 0 <= m < n ensures Copied(after, StrAt(argvBase, args, m), args[m]) {
      CopiedKept(before, after, StrAt(argvBase, args, m), args[m]);
    }
  }

  /** The inner copy loop of `exec`: the bytes of `s`, then a NUL, from
      address `at` up; every byte already written lies above the copy and
      is kept. */
  method CopyString(bytes: map<nat, byte>, at: nat, s: seq<byte>) returns (r: map<nat, byte>)
    ensures Copied(r, at, s)
    ensures forall a :: a in bytes ==> a in r && (a > at + |s| ==> r[a] == bytes[a])
    ensures forall a :: a in r ==> a in bytes || at <= a <= at + |s|
  {
    r := bytes;
    var p := at;
    var j := 0;
    while j < |s|
      invariant 0 <= j <= |s| && p == at + j
      invariant forall a :: at <= a < at + j ==> a in r && r[a] == s[a - at]
      invariant forall a :: a in bytes ==> a in r && (a > at + |s| ==> r[a] == bytes[a])
      invariant forall a :: a in r ==> a in bytes || at <= a < at + j
    {
      r := r[p := s[j]];
      p := p + 1;
      j := j + 1;
    }
    r := r[p := 0];
  }

  /** `sp -= sp % 8`: the largest multiple of 8 not above `x`. */
  function AlignDown8(x: nat): (r: nat)
    ensures r % 8 == 0 && x - 8 < r <= x
  {
    x - x % 8
  }

  /** The room taken by the argument strings only grows with their number. */
  lemma {:induction false} ArgsSizeMono(args: seq<seq<byte>>, m: nat, n: nat)
    requires m <= n <= |args|
    ensures ArgsSize(args, m) <= ArgsSize(args, n)
    decreases n
  {
    if m < n { ArgsSizeMono(args, m, n - 1); }
  }

  /** One argument at least as long as the user stack never fits, wherever
      the stack top lies. */
  lemma OversizedArgDoesNotFit(top: nat, args: seq<seq<byte>>, i: nat)
    requires i < |args| && |args[i]| >= USER_STACK_SIZE
    ensures !Fits(top, args)
  {
    ArgsSizeMono(args, i + 1, |args|);
  }

  /** `exec` on single-threaded process `q`: the new image replaces the
      address space and resets the heap to its program break; the main
      thread gets a fresh user stack and trap-context page (`ustackTop`,
      `ppn`) and a trap context that enters the program with the argument
      block on its stack, argc in a0 and the argv address in a1. The pid,
      fds, cwd, parent and children stay. The source asserts a single thread
      slot; a vacant slot 0 or a main thread without resources also panics,
      and so does an argument block larger than the user stack. */
  method Exec(k: Kernel, q: ProcRef, img: Image, env: Env, ustackTop: nat, ppn: nat, args: seq<seq<byte>>)
    returns (r: Res<(Kernel, StackImage)>)
    requires q in k.procs
    ensures r.Panic? <==> |k.procs[q].tasks| != 1 || !HasMainThread(k, q) || !Fits(ustackTop, args)
    ensures r.Ok? ==>
      var (k', stack) := r.value;
      var t0 := MainThread(k, q);
      && k'.procs == k.procs[q := k.procs[q].(memorySet := img.memorySet, programBrkBottom := img.programBrk,
                                             currentHeapTop := img.programBrk)]
      && t0 in k'.tcbs && k'.tcbs == k.tcbs[t0 := k'.tcbs[t0]]
      && k'.tcbs[t0] == k.tcbs[t0].(res := Some(k.tcbs[t0].res.value.(ustackBase := USER_STACK_TOP, ustackTop := ustackTop, trapCtxPpn := ppn)),
                                    trapCtxPpn := ppn)
      && t0 in k'.trapCtx
      && var ctx := k'.trapCtx[t0];
      && Trap.WellFormed(ctx)
      && ArgBlock(ustackTop, args, ctx.x[Trap.SP], ctx.x[Trap.A1], stack)
      && ctx.x[Trap.A0] == |args|
      && (forall i :: 0 <= i < Trap.REG_COUNT && i != Trap.SP && i != Trap.A0 && i != Trap.A1 ==> ctx.x[i] == 0)
      && ctx.sepc == img.entry && ctx.kernelSp == k.tcbs[t0].kstackTop
      && ctx.sstatus.spp == Trap.User
      && k'.manager == k.manager && k'.processor == k.processor && k'.pid2pcb == k.pid2pcb
  {
    var pcb := k.procs[q];
    if |pcb.tasks| != 1 || !HasMainThread(k, q) {
      return Panic;
    }
    if !Fits(ustackTop, args) {
      return Panic;
    }
    var t0 := MainThread(k, q);
    var tcb := k.tcbs[t0];
    var res := tcb.res.value.(ustackBase := USER_STACK_TOP, ustackTop := ustackTop, trapCtxPpn := ppn);
    var sp, argvBase, stack := ArgvLayout(ustackTop, args);
    var ctx := Trap.AppInitContext(env.sstatus, img.entry, sp, env.satp, tcb.kstackTop, env.handler);
    ctx := ctx.(x := ctx.x[Trap.A0 := |args|][Trap.A1 := argvBase]);
    var k' := k.(procs := k.procs[q := pcb.(memorySet := img.memorySet, programBrkBottom := img.programBrk,
                                            currentHeapTop := img.programBrk)],
                 tcbs := k.tcbs[t0 := tcb.(res := Some(res), trapCtxPpn := ppn)],
                 trapCtx := k.trapCtx[t0 := ctx]);
    r := Ok((k', stack));
  }
}

=== FILE: manager.dfy ===
/** The ready queue (`TaskManager`) and the pid -> process index (`PID2PCB`),
    the kernel's two global tables. */
module Manager {
  import opened Base
  import opened Tasks

  datatype TaskManager = TaskManager(readyQueue: seq<TaskRef>)

  function New(): (m: TaskManager)
    ensures m.readyQueue == []
  {
    TaskManager([])
  }

  /** `add` / `add_task`: append at the back. */
  function Add(m: TaskManager, t: TaskRef): (r: TaskManager)
    ensures r.readyQueue == m.readyQueue + [t]
  {
    TaskManager(m.readyQueue + [t])
  }

  /** `fetch` / `fetch_task`: pop the front, None on an empty queue. */
  function Fetch(m: TaskManager): (r: (Option<TaskRef>, TaskManager))
    ensures r.0.None? <==> m.readyQueue == []
    ensures r.0.None? ==> r.1 == m
    ensures r.0.Some? ==> [r.0.value] + r.1.readyQueue == m.readyQueue
  {
    if m.readyQueue == [] then (None, m) else (Some(m.readyQueue[0]), TaskManager(m.readyQueue[1..]))
  }

  /** `wakeup_task`: mark Ready, then append to the ready queue. */
  function WakeupTask(m: TaskManager, tcbs: Tcbs, t: TaskRef): (r: (TaskManager, Tcbs))
    requires t in tcbs
    ensures r.0.readyQueue == m.readyQueue + [t]
    ensures r.1 == SetStatus(tcbs, t, Ready)
  {
    (Add(m, t), SetStatus(tcbs, t, Ready))
  }

  /** FIFO: a task added to a queue of n tasks comes out after exactly those n. */
  lemma {:induction false} FetchAfterAdd(m: TaskManager, t: TaskRef)
    ensures Fetch(Add(m, t)).0 == if m.readyQueue == [] then Some(t) else Some(m.readyQueue[0])
    ensures m.readyQueue != [] ==> Fetch(Add(m, t)).1 == Add(Fetch(m).1, t)
  {
    if m.readyQueue != [] {
      assert (m.readyQueue + [t])[1..] == m.readyQueue[1..] + [t];
    }
  }

  /** One round-robin step: the running task is fetched and re-added at the back. */
  function Rotate(m: TaskManager): TaskManager {
    match Fetch(m)
    case (None, m') => m'
    case (Some(t), m') => Add(m', t)
  }

  function RotateN(m: TaskManager, n: nat): TaskManager
    decreases n
  {
    if n == 0 then m else RotateN(Rotate(m), n - 1)
  }

  /** Round-robin fairness: after k yields (k at most the queue length) the
      queue is the original one rotated by k, so tasks run in cyclic order. */
  lemma {:induction false} RoundRobin(m: TaskManager, k: nat)
    requires k <= |m.readyQueue|
    ensures RotateN(m, k).readyQueue == m.readyQueue[k..] + m.readyQueue[..k]
    decreases k
  {
    if k > 0 {
      var q := m.readyQueue;
      var m1 := Rotate(m);
      assert m1.readyQueue == q[1..] + [q[0]];
      RoundRobin(m1, k - 1);
      var q1 := m1.readyQueue;
      assert q1[k-1..] == q[k..] + [q[0]];
      assert q1[..k-1] == q[1..k];
      assert q[..k] == [q[0]] + q[1..k];
    }
  }

  type PidIndex = map<nat, ProcRef>

  /** `pid2process`. */
  function Pid2Process(idx: PidIndex, pid: nat): (r: Option<ProcRef>)
    ensures r.Some? <==> pid in idx
    ensures r.Some? ==> r.value == idx[pid]
  {
    if pid in idx then Some(idx[pid]) else None
  }

  /** `insert_into_pid2process`: any earlier entry for the pid is replaced. */
  function InsertIntoPid2Process(idx: PidIndex, pid: nat, p: ProcRef): (r: PidIndex)
    ensures Pid2Process(r, pid) == Some(p)
    ensures r.Keys == idx.Keys + {pid}
    ensures forall q :: q in idx && q != pid ==> r[q] == idx[q]
  {
    idx[pid := p]
  }

  /** `remove_from_pid2process`: panics on an unknown pid. */
  function RemoveFromPid2Process(idx: PidIndex, pid: nat): (r: Res<PidIndex>)
    ensures r.Panic? <==> pid !in idx
    ensures r.Ok? ==> r.value.Keys == idx.Keys - {pid}
    ensures r.Ok? ==> forall q :: q in r.value ==> r.value[q] == idx[q]
  {
    if pid in idx then Ok(idx - {pid}) else Panic
  }
}

=== FILE: open_file.dfy ===
/** `open_file`: look a name up in the root directory, creating it when asked,
    truncating when asked, and wrap the inode as an `OSInode` whose
    permissions come from the flags. The root's `find` and `create` answers
    are supplied. */
module OpenFiles {
  import opened Base
  import opened OsInodes
  import Dirs

  /** The file opened, and the inode `clear`ed on the way (TRUNC). */
  datatype Opened = Opened(file: Option<OSInode>, cleared: Option<Dirs.InodeRef>)

  /** `CREAT` of this revision is the `CREATE` bit of `OpenFlags`. */
  const CREAT: OpenFlags := CREATE

  /** `found` answers `root.find(name)`, `created` answers `root.create(name)`
      (asked only with CREAT and when the name is not found). */
  function OpenFile(flags: OpenFlags, found: Option<Dirs.InodeRef>, created: Option<Dirs.InodeRef>): (r: Opened)
    ensures !Contains(flags, CREAT) ==> (r.file.None? <==> found.None?)
    ensures Contains(flags, CREAT) ==> (r.file.None? <==> found.None? && created.None?)
    ensures r.file.Some? ==> r.file.value.inode == (if found.Some? then found.value else created.value)
    ensures r.file.Some? ==> r.file.value.offset == 0
    ensures r.file.Some? ==> (r.file.value.readable, r.file.value.writable) == ReadWrite(flags)
    ensures r.cleared.Some? <==> r.file.Some? && Contains(flags, TRUNC)
    ensures r.cleared.Some? ==> r.cleared.value == r.file.value.inode
  {
    var (rd, wr) := ReadWrite(flags);
    var inode := if Contains(flags, CREAT) && found.None? then created else found;
    match inode
    case None => Opened(None, None)
    case Some(i) =>
      Opened(Some(New(rd, wr, i)), if Contains(flags, TRUNC) then Some(i) else None)
  }

  /** With CREAT an existing inode is reused: `create` is not consulted. */
  lemma CreatReusesExisting(flags: OpenFlags, found: Dirs.InodeRef, created: Option<Dirs.InodeRef>)
    requires Contains(flags, CREAT)
    ensures OpenFile(flags, Some(found), created) == OpenFile(flags, Some(found), None)
  {
  }
}

=== FILE: os_inode.dfy ===
/** `OSInode`: an open file over an inode, with fixed read/write permissions
    and a cursor; and `OpenFlags` with their permission decoding.

    The inode is reached only through `read_at`/`write_at`, whose results are
    supplied as functions of (offset, request). */
module OsInodes {
  import opened Base
  import Dirs

  type OpenFlags = bv32

  const RDONLY: OpenFlags := 0
  const WRONLY: OpenFlags := 1
  const RDWR: OpenFlags := 2
  const CREATE: OpenFlags := 0x200
  const TRUNC: OpenFlags := 0x400
  /** Every bit `OpenFlags` defines. */
  const ALL_FLAGS: OpenFlags := WRONLY | RDWR | CREATE | TRUNC

  /** `contains` on bit flags. */
  predicate Contains(f: OpenFlags, g: OpenFlags) { f & g == g }

  /** `read_write`: (readable, writable). Read-only is the empty set; WRONLY
      wins over anything else; any other non-empty set is read-write. */
  function ReadWrite(f: OpenFlags): (r: (bool, bool))
    ensures r.0 <==> !Contains(f, WRONLY)
    ensures r.1 <==> f != RDONLY
    ensures r.0 || r.1
  {
    if f == RDONLY then (true, false)
    else if Contains(f, WRONLY) then (false, true)
    else (true, true)
  }

  datatype OSInode = OSInode(readable: bool, writable: bool, offset: nat, inode: Dirs.InodeRef)

  /** `OSInode::new`: cursor at 0. */
  function New(readable: bool, writable: bool, inode: Dirs.InodeRef): (f: OSInode)
    ensures f.offset == 0 && f.inode == inode
    ensures Readable(f) == readable && Writable(f) == writable
  {
    OSInode(readable, writable, 0, inode)
  }

  /** `readable`: the read permission the file was opened with. */
  function Readable(f: OSInode): (b: bool)
    ensures b <==> f.readable
  {
    f.readable
  }

  /** `writable`: the write permission the file was opened with. */
  function Writable(f: OSInode): (b: bool)
    ensures b <==> f.writable
  {
    f.writable
  }

  /** The inode's `read_at(offset, buf)`: the bytes it put into a buffer of
      `len` bytes (their count is its return value). */
  type ReadAt = (nat, nat) -> seq<byte>
  /** The inode's `write_at(offset, bytes)`: the count it reports written. */
  type WriteAt = (nat, seq<byte>) -> nat

  /** An inode never reports more bytes than the buffer holds. */
  ghost predicate Bounded(readAt: ReadAt) {
    forall o: nat, l: nat :: |readAt(o, l)| <= l
  }

  function Flatten(cs: seq<seq<byte>>): seq<byte> {
    if |cs| == 0 then [] else cs[0] + Flatten(cs[1..])
  }

  lemma FlattenPrefixCons(c: seq<byte>, rest: seq<seq<byte>>, i: nat)
    requires i <= |rest|
    ensures |Flatten(([c] + rest)[..i + 1])| == |c| + |Flatten(rest[..i])|
  {
    assert ([c] + rest)[..i + 1] == [c] + rest[..i];
    assert ([c] + rest[..i])[1..] == rest[..i];
  }

  /** `chunks` is what reading into buffers of lengths `lens` from `offset`
      on produces: chunk i is the (non-empty) result of the read at the offset
      reached so far, and the first empty read ends the run. */
  ghost predicate ReadRun(readAt: ReadAt, offset: nat, lens: seq<nat>, chunks: seq<seq<byte>>) {
    && |chunks| <= |lens|
    && (forall i :: 0 <= i < |chunks| ==>
          |chunks[i]| > 0 && chunks[i] == readAt(offset + |Flatten(chunks[..i])|, lens[i]))
    && (|chunks| < |lens| ==> readAt(offset + |Flatten(chunks)|, lens[|chunks|]) == [])
  }

  /** A non-empty read followed by a run from the offset it reached is a
      run from the first offset. */
  lemma ReadRunCons(readAt: ReadAt, offset: nat, lens: seq<nat>, c: seq<byte>, rest: seq<seq<byte>>)
    requires |lens| > 0 && |c| > 0 && c == readAt(offset, lens[0])
    requires ReadRun(readAt, offset + |c|, lens[1..], rest)
    ensures ReadRun(readAt, offset, lens, [c] + rest)
  {
    ReadRunConsChunks(readAt, offset, lens, c, rest);
    ReadRunConsEnd(readAt, offset, lens, c, rest);
  }

  lemma ReadRunConsChunks(readAt: ReadAt, offset: nat, lens: seq<nat>, c: seq<byte>, rest: seq<seq<byte>>)
    requires |lens| > 0 && |c| > 0 && c == readAt(offset, lens[0])
    requires ReadRun(readAt, offset + |c|, lens[1..], rest)
    ensures forall i :: 0 <= i < |[c] + rest| ==>
      |([c] + rest)[i]| > 0 && ([c] + rest)[i] == readAt(offset + |Flatten(([c] + rest)[..i])|, lens[i])
  {
    var chunks := [c] + rest;
    assert chunks[..0] == [];
    forall i | 1 <= i < |chunks|
      ensures |chunks[i]| > 0 && chunks[i] == readAt(offset + |Flatten(chunks[..i])|, lens[i])
    {
      FlattenPrefixCons(c, rest, i - 1);
      assert chunks[i] == rest[i - 1] && lens[1..][i - 1] == lens[i];
    }
  }

  lemma ReadRunConsEnd(readAt: ReadAt, offset: nat, lens: seq<nat>, c: seq<byte>, rest: seq<seq<byte>>)
    requires |lens| > 0 && |c| > 0
    requires ReadRun(readAt, offset + |c|, lens[1..], rest)
    ensures |[c] + rest| < |lens| ==> readAt(offset + |Flatten([c] + rest)|, lens[|[c] + rest|]) == []
  {
    var chunks := [c] + rest;
    assert chunks[1..] == rest;
    assert |Flatten(chunks)| == |c| + |Flatten(rest)|;
    if |chunks| < |lens| {
      assert lens[1..][|rest|] == lens[|chunks|];
    }
  }

  /** Read into the buffers of lengths `lens` from `offset` on, stopping at the
      first empty read; yields the non-empty chunks read. */
  function ReadSlices(readAt: ReadAt, offset: nat, lens: seq<nat>): (chunks: seq<seq<byte>>)
    ensures ReadRun(readAt, offset, lens, chunks)
    decreases |lens|
  {
    if |lens| == 0 then []
    else
      var c := readAt(offset, lens[0]);
      if |c| == 0 then []
      else
        var rest := ReadSlices(readAt, offset + |c|, lens[1..]);
        ReadRunCons(readAt, offset, lens, c, rest);
        [c] + rest
  }

  /** `File::read`: returns the total read; the cursor advances by it. */
  function Read(f: OSInode, readAt: ReadAt, lens: seq<nat>): (r: (nat, OSInode, seq<seq<byte>>))
    ensures r.2 == ReadSlices(readAt, f.offset, lens)
    ensures r.0 == |Flatten(r.2)|
    ensures r.1 == f.(offset := f.offset + r.0)
  {
    var chunks := ReadSlices(readAt, f.offset, lens);
    var tot := |Flatten(chunks)|;
    (tot, f.(offset := f.offset + tot), chunks)
  }

  /** Write every slice in turn, panicking on any short write. */
  function WriteSlices(writeAt: WriteAt, offset: nat, slices: seq<seq<byte>>): (r: Res<nat>)
    ensures r.Ok? <==> WholeWrites(writeAt, offset, slices)
    ensures r.Ok? ==> r.value == |Flatten(slices)|
    decreases |slices|
  {
    if |slices| == 0 then Ok(0)
    else
      var n := writeAt(offset, slices[0]);
      if n != |slices[0]| then
        WholeWritesCons(writeAt, offset, slices);
        Panic
      else
        var rest := WriteSlices(writeAt, offset + n, slices[1..]);
        WholeWritesCons(writeAt, offset, slices);
        match rest
        case Panic => Panic
        case Ok(m) => Ok(n + m)
  }

  /** The bytes in the first `i` slices. */
  function Before(slices: seq<seq<byte>>, i: nat): nat
    requires i <= |slices|
  {
    if i == 0 then 0 else Before(slices, i - 1) + |slices[i - 1]|
  }

  /** Past the first slice, the offsets of the rest are shifted by its length. */
  lemma {:induction false} BeforeShift(slices: seq<seq<byte>>, j: nat)
    requires j < |slices|
    ensures Before(slices, j + 1) == |slices[0]| + Before(slices[1..], j)
    decreases j
  {
    if j > 0 {
      BeforeShift(slices, j - 1);
      assert slices[1..][j - 1] == slices[j];
    }
  }

  /** Slice `i` is written whole at the offset the slices before it reach. */
  ghost predicate WholeAt(writeAt: WriteAt, offset: nat, slices: seq<seq<byte>>, i: nat)
    requires i < |slices|
  {
    writeAt(offset + Before(slices, i), slices[i]) == |slices[i]|
  }

  /** Every slice is written whole from `offset` on. */
  ghost predicate WholeWrites(writeAt: WriteAt, offset: nat, slices: seq<seq<byte>>) {
    forall i :: 0 <= i < |slices| ==> WholeAt(writeAt, offset, slices, i)
  }

  /** Slice `j + 1` of `slices` is written whole exactly when slice `j` of
      the rest is, from the offset after the first. */
  lemma WholeAtShift(writeAt: WriteAt, offset: nat, slices: seq<seq<byte>>, j: nat)
    requires j + 1 < |slices|
    ensures WholeAt(writeAt, offset, slices, j + 1) == WholeAt(writeAt, offset + |slices[0]|, slices[1..], j)
  {
    BeforeShift(slices, j);
    assert slices[1..][j] == slices[j + 1];
  }

  /** Every slice is written whole exactly when the first one is and the
      rest are from the offset after it. */
  lemma WholeWritesCons(writeAt: WriteAt, offset: nat, slices: seq<seq<byte>>)
    requires |slices| > 0
    ensures WholeWrites(writeAt, offset, slices) <==>
      writeAt(offset, slices[0]) == |slices[0]| && WholeWrites(writeAt, offset + |slices[0]|, slices[1..])
    ensures |Flatten(slices)| == |slices[0]| + |Flatten(slices[1..])|
  {
    var c, rest := slices[0], slices[1..];
    var next := offset + |c|;
    assert WholeAt(writeAt, offset, slices, 0) == (writeAt(offset, c) == |c|);
    if WholeWrites(writeAt, offset, slices) {
      forall j | 0 <= j < |rest| ensures WholeAt(writeAt, next, rest, j) {
        WholeAtShift(writeAt, offset, slices, j);
        assert WholeAt(writeAt, offset, slices, j + 1);
      }
    }
    if writeAt(offset, c) == |c| && WholeWrites(writeAt, next, rest) {
      forall i | 0 <= i < |slices| ensures WholeAt(writeAt, offset, slices, i) {
        if i > 0 { WholeAtShift(writeAt, offset, slices, i - 1); }
      }
    }
  }

  /** `File::write`: every slice must be written whole; returns the total and
      advances the cursor by it. */
  function Write(f: OSInode, writeAt: WriteAt, slices: seq<seq<byte>>): (r: Res<(nat, OSInode)>)
    ensures r.Ok? <==> WholeWrites(writeAt, f.offset, slices)
    ensures r.Ok? ==> r.value.0 == |Flatten(slices)| && r.value.1 == f.(offset := f.offset + r.value.0)
  {
    match WriteSlices(writeAt, f.offset, slices)
    case Panic => Panic
    case Ok(tot) => Ok((tot, f.(offset := f.offset + tot)))
  }

  const READ_ALL_CHUNK: nat := 512

  /** Reads from `size` on come back empty, so `read_all` ends. */
  ghost predicate EndsAt(readAt: ReadAt, size: nat) {
    forall o: nat, l: nat :: o >= size ==> readAt(o, l) == []
  }

  /** The bytes `read_all` collects from `offset` on. */
  function ReadAllFrom(readAt: ReadAt, size: nat, offset: nat): (data: seq<byte>)
    requires Bounded(readAt) && EndsAt(readAt, size)
    ensures readAt(offset + |data|, READ_ALL_CHUNK) == []
    ensures data == [] <==> readAt(offset, READ_ALL_CHUNK) == []
    ensures data != [] ==> data == readAt(offset, READ_ALL_CHUNK) + ReadAllFrom(readAt, size, offset + |readAt(offset, READ_ALL_CHUNK)|)
    decreases size - offset
  {
    var c := readAt(offset, READ_ALL_CHUNK);
    if |c| == 0 then []
    else
      assert offset < size;
      c + ReadAllFrom(readAt, size, offset + |c|)
  }

  /** `read_all`: read 512-byte chunks until one comes back empty; the
      cursor ends just past the data returned. */
  function ReadAll(f: OSInode, readAt: ReadAt, size: nat): (r: (seq<byte>, OSInode))
    requires Bounded(readAt) && EndsAt(readAt, size)
    ensures r.0 == ReadAllFrom(readAt, size, f.offset)
    ensures r.1 == f.(offset := f.offset + |r.0|)
    ensures readAt(r.1.offset, READ_ALL_CHUNK) == []
  {
    var data := ReadAllFrom(readAt, size, f.offset);
    (data, f.(offset := f.offset + |data|))
  }

  function Min(a: nat, b: nat): nat { if a < b then a else b }

  /** `read_at` of an inode whose contents are `data`. */
  function IdealChunk(data: seq<byte>, o: nat, l: nat): (c: seq<byte>)
    ensures |c| <= l
    ensures o >= |data| ==> c == []
    ensures o < |data| && l > 0 ==> |c| > 0 && o + |c| <= |data| && data[o..] == c + data[o + |c|..]
  {
    if o >= |data| then [] else data[o..Min(o + l, |data|)]
  }

  function IdealReadAt(data: seq<byte>): (r: ReadAt)
    ensures Bounded(r) && EndsAt(r, |data|)
    ensures forall o: nat, l: nat :: r(o, l) == IdealChunk(data, o, l)
  {
    (o: nat, l: nat) => IdealChunk(data, o, l)
  }

  /** Over an inode holding `data`, `read_all` from offset `o` returns
      exactly the rest of the data. */
  lemma {:induction false} ReadAllIdeal(data: seq<byte>, o: nat)
    requires o <= |data|
    ensures ReadAllFrom(IdealReadAt(data), |data|, o) == data[o..]
    decreases |data| - o
  {
    var c := IdealReadAt(data)(o, READ_ALL_CHUNK);
    if o < |data| {
      ReadAllIdeal(data, o + |c|);
    }
  }
}

=== FILE: pcb.dfy ===
/** The process control block (`ProcessControlBlockInner`) and the
    operations on it alone: fd-slot allocation, the program break and the
    translation of `mmap` protection bits.

    The address space (`MemorySet`) is an opaque identity; its answers to
    `shink_to`, `append_to` and `mmap` are supplied as functions. Mutexes,
    semaphores and condition variables owned by the process are not part of
    this record. */
module Pcbs {
  import opened Base
  import opened Tasks
  import Dirs
  import WaitQueues

  const PAGE_SIZE: nat := 0x1000
  const USER_STACK_TOP: nat := 0x3_ffff_f000
  /** The bytes of one thread's user stack. */
  const USER_STACK_SIZE: nat := 4096 * 2

  datatype Privilege = UserMode | KernelMode

  /** An open file (`Arc<dyn File>`): its identity and its two permissions. */
  datatype File = File(id: nat, readable: bool, writable: bool)

  /** An fd table: slot i holds the file of descriptor i, if any. */
  type FdSlots = seq<Option<File>>

  /** CPU-time counters (`Tms`), in clock ticks. */
  datatype Tms = Tms(usr: nat, sys: nat, childUsr: nat, childSys: nat)

  datatype Pcb = Pcb(
    pid: nat,
    isZombie: bool,
    exitCode: int,                               // an i32
    parent: Option<ProcRef>,                     // weak link to the parent
    children: seq<ProcRef>,
    dir: Dirs.DirStruct,
    tasks: seq<Option<TaskRef>>,                 // slot tid holds thread tid
    memorySet: nat,                              // the address space, opaque
    fdTable: FdSlots,
    signals: bv32,
    programBrkBottom: nat,
    currentHeapTop: nat,
    privilege: Privilege,
    futexTable: map<nat, WaitQueues.WaitQueue>,  // keyed by user address
    times: Tms
  )

  /** `alloc_fd`: the lowest empty slot, or a new slot pushed at the end. */
  function AllocFd(fds: FdSlots): (r: (nat, FdSlots))
    ensures r.0 <= |fds| && r.0 < |r.1| && r.1[r.0].None?
    ensures forall i :: 0 <= i < r.0 ==> fds[i].Some?
    ensures r.0 < |fds| ==> r.1 == fds
    ensures r.0 == |fds| ==> r.1 == fds + [None]
  {
    match FirstNone(fds)
    case Some(fd) => (fd, fds)
    case None => (|fds|, fds + [None])
  }

  /** `alloc_fd` changes no occupied slot and grows the table by at most one;
      it appends only when every slot is taken. */
  lemma AllocFdFrame(fds: FdSlots)
    ensures var (fd, fds') := AllocFd(fds);
      && |fds| <= |fds'| <= |fds| + 1
      && (forall i :: 0 <= i < |fds| ==> fds'[i] == fds[i])
      && (|fds'| == |fds| + 1 <==> forall i :: 0 <= i < |fds| ==> fds[i].Some?)
  {
  }

  /** `thread_count`: the number of thread slots, vacant ones included;
      every thread `get_task` finds has a tid below it. */
  function ThreadCount(p: Pcb): (n: nat)
    ensures n == |p.tasks|
    ensures forall tid: nat :: GetTask(p, tid).Ok? ==> tid < n
  {
    |p.tasks|
  }

  /** `get_task`: panics on a vacant or missing slot. */
  function GetTask(p: Pcb, tid: nat): (r: Res<TaskRef>)
    ensures r.Ok? <==> tid < |p.tasks| && p.tasks[tid].Some?
    ensures r.Ok? ==> p.tasks[tid] == Some(r.value)
  {
    if tid < |p.tasks| && p.tasks[tid].Some? then Ok(p.tasks[tid].value) else Panic
  }

  /** The address space's answer to `shink_to(bottom, top)` or
      `append_to(bottom, top)`: whether the heap area could be resized. */
  type Resize = (nat, nat) -> bool

  /** `change_program_brk(size)`: 0 only queries the break. Any other value,
      read as an unsigned address, shrinks the heap when below the current
      top and grows it otherwise; on success the top moves there and the old
      top is returned, on failure None is returned and nothing changes. */
  function ChangeProgramBrk(p: Pcb, size: int, shrinkTo: Resize, appendTo: Resize): (r: (Option<nat>, Pcb))
    requires IsIsize(size)
    ensures size == 0 ==> r == (Some(p.currentHeapTop), p)
    ensures size != 0 ==>
      var newBrk := AsUsize(size);
      var ok := if newBrk < p.currentHeapTop then shrinkTo(p.programBrkBottom, newBrk)
                else appendTo(p.programBrkBottom, newBrk);
      && (ok ==> r == (Some(p.currentHeapTop), p.(currentHeapTop := newBrk)))
      && (!ok ==> r == (None, p))
  {
    var oldBrk := p.currentHeapTop;
    var newBrk := AsUsize(size);
    if size == 0 then (Some(oldBrk), p)
    else
      var ok := if newBrk < oldBrk then shrinkTo(p.programBrkBottom, newBrk)
                else appendTo(p.programBrkBottom, newBrk);
      if ok then (Some(oldBrk), p.(currentHeapTop := newBrk)) else (None, p)
  }

  /** After a successful move of the break, querying it reports the new top;
      the heap bottom never moves. */
  lemma BrkQueryAfterMove(p: Pcb, size: int, shrinkTo: Resize, appendTo: Resize)
    requires IsIsize(size) && size != 0
    requires ChangeProgramBrk(p, size, shrinkTo, appendTo).0.Some?
    ensures var p' := ChangeProgramBrk(p, size, shrinkTo, appendTo).1;
      && ChangeProgramBrk(p', 0, shrinkTo, appendTo).0 == Some(AsUsize(size))
      && p'.programBrkBottom == p.programBrkBottom
  {
  }

  /** Page-table entry permissions requested from the address space. */
  datatype PteFlags = PteFlags(u: bool, r: bool, w: bool, x: bool)

  /** Bit `b` of a natural number. */
  predicate Bit(n: nat, b: nat) {
    (n / Pow2(b)) % 2 == 1
  }

  function Pow2(b: nat): (r: nat)
    ensures r >= 1
  {
    if b == 0 then 1 else 2 * Pow2(b - 1)
  }

  /** The flag translation of `current_task_mmap`: U for a user-mode process,
      R, W, X for protection bits 0, 1, 2. */
  function MmapFlags(priv: Privilege, prot: nat): (f: PteFlags)
    ensures f.u <==> priv == UserMode
    ensures f.r <==> Bit(prot, 0)
    ensures f.w <==> Bit(prot, 1)
    ensures f.x <==> Bit(prot, 2)
  {
    PteFlags(priv == UserMode, Bit(prot, 0), Bit(prot, 1), Bit(prot, 2))
  }

  /** The protection value a set of R/W/X flags stands for. */
  function ProtOf(f: PteFlags): nat {
    (if f.r then 1 else 0) + (if f.w then 2 else 0) + (if f.x then 4 else 0)
  }

  /** For every accepted protection value the translation loses nothing: the
      flags give the protection back. */
  lemma MmapFlagsRoundTrip(priv: Privilege, prot: nat)
    requires prot < 8
    ensures ProtOf(MmapFlags(priv, prot)) == prot
  {
    assert Pow2(1) == 2 && Pow2(2) == 4;
  }

  /** The address space's `mmap(start, end, flags)` result. */
  type Mmap = (nat, nat, PteFlags) -> int

  /** `current_task_mmap`: `prot` truncated to a byte must be a valid
      protection set, `prot` itself must be below 8, and address and length
      must be page aligned; otherwise the kernel panics. */
  function CurrentTaskMmap(p: Pcb, addr: nat, len: nat, prot: nat, mmap: Mmap): (r: Res<int>)
    requires addr < USIZE_MOD && len < USIZE_MOD && prot < USIZE_MOD
    ensures r.Ok? <==> prot < 8 && addr % PAGE_SIZE == 0 && len % PAGE_SIZE == 0
    ensures r.Ok? ==> r.value == mmap(addr, addr + len, MmapFlags(p.privilege, prot))
  {
    var protByte := prot % 256;
    if protByte >= 8 then Panic
    else
      var flags := MmapFlags(p.privilege, protByte);
      if prot / 8 != 0 then Panic
      else if addr % PAGE_SIZE != 0 || len % PAGE_SIZE != 0 then Panic
      else Ok(mmap(addr, addr + len, flags))
  }
}

=== FILE: processor.dfy ===
/** The single `Processor`: the slot holding the running task and the idle
    (scheduling) continuation, and one turn of the idle loop `run_tasks`.

    The context switch itself is opaque: it changes nothing in this state. */
module Processors {
  import opened Base
  import opened Tasks
  import Manager

  datatype Processor = Processor(current: Option<TaskRef>, idleCtx: TaskContext)

  /** `Processor::new`. */
  function New(): (p: Processor)
    ensures p.current.None? && p.idleCtx == ZeroContext
  {
    Processor(None, ZeroContext)
  }

  /** `take_current`: hand out the running task and empty the slot. */
  function TakeCurrent(p: Processor): (r: (Option<TaskRef>, Processor))
    ensures r.0 == p.current
    ensures r.1.current.None? && r.1.idleCtx == p.idleCtx
  {
    (p.current, p.(current := None))
  }

  /** `current`: a copy of the running task's handle; the slot is unchanged. */
  function Current(p: Processor): (r: Option<TaskRef>)
    ensures r == p.current
  {
    p.current
  }

  /** One iteration of `run_tasks`: fetch the front of the ready queue, mark
      it Running and make it current before switching to it; with an empty
      queue nothing changes (the loop only reports it). */
  function RunTasksStep(p: Processor, m: Manager.TaskManager, tcbs: Tcbs): (r: (Processor, Manager.TaskManager, Tcbs))
    requires m.readyQueue != [] ==> m.readyQueue[0] in tcbs
    ensures m.readyQueue == [] ==> r == (p, m, tcbs)
    ensures m.readyQueue != [] ==>
      var t := m.readyQueue[0];
      && r.0 == p.(current := Some(t))
      && r.1.readyQueue == m.readyQueue[1..]
      && r.2 == SetStatus(tcbs, t, Running)
  {
    match Manager.Fetch(m)
    case (None, m') => (p, m', tcbs)
    case (Some(t), m') => (p.(current := Some(t)), m', SetStatus(tcbs, t, Running))
  }

  /** `current_process`: upgrade the running task's weak process reference;
      panics when no task runs or the process is gone. */
  function CurrentProcess(p: Processor, tcbs: Tcbs, live: set<ProcRef>): (r: Res<ProcRef>)
    ensures r.Ok? <==> p.current.Some? && p.current.value in tcbs && tcbs[p.current.value].process in live
    ensures r.Ok? ==> r.value == tcbs[p.current.value].process
  {
    match Current(p)
    case None => Panic
    case Some(t) =>
      if t in tcbs && tcbs[t].process in live then Ok(tcbs[t].process) else Panic
  }

  /** `current_kstack_top`: the running task's kernel stack, or the boot
      stack (`bootStackTop`, read from a linker symbol) before any task runs. */
  function CurrentKstackTop(p: Processor, tcbs: Tcbs, bootStackTop: nat): (r: nat)
    requires p.current.Some? ==> p.current.value in tcbs
    ensures p.current.None? ==> r == bootStackTop
    ensures p.current.Some? ==> r == tcbs[p.current.value].kstackTop
  {
    match Current(p)
    case None => bootStackTop
    case Some(t) => tcbs[t].kstackTop
  }

  /** `schedule`: switch from the calling task into the idle continuation.
      Neither a status nor the current slot changes; the result is the
      continuation resumed. */
  function Schedule(p: Processor): (target: TaskContext)
    ensures target == p.idleCtx
  {
    p.idleCtx
  }
}

=== FILE: redox_disk.dfy ===
/** `CoreDisk`: the disk RedoxFS runs on, over a 512-byte-sector block
    device. A file-system block is 8 sectors: block `b` starts at sector
    `8 b`, and a buffer is moved one sector-sized chunk at a time (the last
    chunk may be shorter). The block device is an ideal one: what a sector
    was last given is what it returns. */
module RedoxDisk {
  import opened Base

  /** Bytes per device sector. */
  const SECTOR_SIZE: nat := 512
  /** Sectors per file-system block. */
  const SECTORS_PER_BLOCK: nat := 8
  /** `size()`: the disk image, 32 MiB. */
  const DISK_SIZE: nat := 32 * 2048 * 512

  /** The sectors written so far; any other sector reads as zeros. */
  type Device = map<nat, seq<byte>>

  function Zeros(n: nat): (z: seq<byte>)
    ensures |z| == n && forall i :: 0 <= i < n ==> z[i] == 0
  {
    seq(n, _ => 0)
  }

  /** The 512 bytes of sector `s`. */
  function Sector(d: Device, s: nat): (b: seq<byte>)
    ensures |b| == SECTOR_SIZE
  {
    if s in d && |d[s]| == SECTOR_SIZE then d[s] else Zeros(SECTOR_SIZE)
  }

  /** `write_block(s, chunk)`: the chunk overwrites the front of the sector;
      only sector `s` changes. */
  function WriteBlock(d: Device, s: nat, chunk: seq<byte>): (d': Device)
    requires |chunk| <= SECTOR_SIZE
    ensures Sector(d', s) == chunk + Sector(d, s)[|chunk|..]
    ensures forall t :: t != s ==> Sector(d', t) == Sector(d, t)
  {
    d[s := chunk + Sector(d, s)[|chunk|..]]
  }

  /** `read_block(s, chunk)` into a chunk of `n` bytes. */
  function ReadBlock(d: Device, s: nat, n: nat): (chunk: seq<byte>)
    requires n <= SECTOR_SIZE
    ensures |chunk| == n && chunk == Sector(d, s)[..n]
  {
    Sector(d, s)[..n]
  }

  /** The number of chunks `chunks(SECTOR_SIZE)` cuts `n` bytes into. */
  function ChunkCount(n: nat): nat {
    (n + SECTOR_SIZE - 1) / SECTOR_SIZE
  }

  /** The `n` bytes the disk holds from sector `base` on. */
  function Image(d: Device, base: nat, n: nat): (b: seq<byte>)
    ensures |b| == n
    decreases n
  {
    if n <= SECTOR_SIZE then Sector(d, base)[..n]
    else Sector(d, base) + Image(d, base + 1, n - SECTOR_SIZE)
  }

  /** The device after `buf` was written chunk by chunk from sector `base`. */
  function WriteAll(d: Device, base: nat, buf: seq<byte>): Device
    decreases |buf|
  {
    if |buf| == 0 then d
    else if |buf| <= SECTOR_SIZE then WriteBlock(d, base, buf)
    else WriteAll(WriteBlock(d, base, buf[..SECTOR_SIZE]), base + 1, buf[SECTOR_SIZE..])
  }

  /** Writing from sector `base` leaves every sector before it, and every
      sector past the last chunk, as it was. */
  lemma {:induction false} WriteAllFrame(d: Device, base: nat, buf: seq<byte>, t: nat)
    requires t < base || t >= base + ChunkCount(|buf|)
    ensures Sector(WriteAll(d, base, buf), t) == Sector(d, t)
    decreases |buf|
  {
    if |buf| > SECTOR_SIZE {
      assert ChunkCount(|buf|) == 1 + ChunkCount(|buf| - SECTOR_SIZE);
      WriteAllFrame(WriteBlock(d, base, buf[..SECTOR_SIZE]), base + 1, buf[SECTOR_SIZE..], t);
    }
  }

  /** What was written is what is read back from the same sectors. */
  lemma {:induction false} WriteAllImage(d: Device, base: nat, buf: seq<byte>)
    ensures Image(WriteAll(d, base, buf), base, |buf|) == buf
    decreases |buf|
  {
    if |buf| > SECTOR_SIZE {
      var d1 := WriteBlock(d, base, buf[..SECTOR_SIZE]);
      var rest := buf[SECTOR_SIZE..];
      WriteAllImage(d1, base + 1, rest);
      WriteAllFrame(d1, base + 1, rest, base);
      assert Sector(WriteAll(d1, base + 1, rest), base) == buf[..SECTOR_SIZE];
      assert buf == buf[..SECTOR_SIZE] + rest;
    } else if |buf| > 0 {
      assert Sector(WriteBlock(d, base, buf), base)[..|buf|] == buf;
    }
  }

  /** `read_at(block, buffer)`: the buffer is filled chunk by chunk from the
      sectors of the block on, and its whole length is reported. */
  method ReadAt(d: Device, block: nat, n: nat) returns (r: nat, buf: seq<byte>)
    ensures r == n && buf == Image(d, block * SECTORS_PER_BLOCK, n)
  {
    var base := block * SECTORS_PER_BLOCK;
    buf := [];
    var i := 0;
    var off := 0;
    while off < n
      invariant off <= n && |buf| == off
      invariant off < n ==> buf + Image(d, base + i, n - off) == Image(d, base, n)
      invariant off == n ==> buf == Image(d, base, n)
      decreases n - off
    {
      var len := if n - off < SECTOR_SIZE then n - off else SECTOR_SIZE;
      var chunk := ReadBlock(d, base + i, len);
      if n - off > SECTOR_SIZE {
        assert Image(d, base + i, n - off) == chunk + Image(d, base + i + 1, n - off - SECTOR_SIZE);
      } else {
        assert Image(d, base + i, n - off) == chunk;
      }
      buf := buf + chunk;
      off := off + len;
      i := i + 1;
    }
    r := n;
  }

  /** `write_at(block, buffer)`: each chunk goes to the next sector from the
      block's first on, and the whole length is reported. */
  method WriteAt(d: Device, block: nat, buf: seq<byte>) returns (r: nat, d': Device)
    ensures r == |buf| && d' == WriteAll(d, block * SECTORS_PER_BLOCK, buf)
  {
    var base := block * SECTORS_PER_BLOCK;
    d' := d;
    var i := 0;
    var off := 0;
    while off < |buf|
      invariant off <= |buf|
      invariant WriteAll(d', base + i, buf[off..]) == WriteAll(d, base, buf)
      decreases |buf| - off
    {
      var len := if |buf| - off < SECTOR_SIZE then |buf| - off else SECTOR_SIZE;
      var chunk := buf[off..off + len];
      if |buf| - off > SECTOR_SIZE {
        assert buf[off..][..SECTOR_SIZE] == chunk && buf[off..][SECTOR_SIZE..] == buf[off + len..];
      } else {
        assert buf[off..] == chunk;
        assert buf[off + len..] == [];
      }
      d' := WriteBlock(d', base + i, chunk);
      off := off + len;
      i := i + 1;
    }
    assert buf[off..] == [];
    r := |buf|;
  }

  /** Writing a buffer at a block and reading as many bytes from the same
      block gives the buffer back; the sectors before the block and past
      the written ones are untouched. */
  method WriteThenRead(d: Device, block: nat, buf: seq<byte>) returns (back: seq<byte>, d': Device)
    ensures back == buf
    ensures forall t: nat :: t < block * SECTORS_PER_BLOCK || t >= block * SECTORS_PER_BLOCK + ChunkCount(|buf|) ==>
      Sector(d', t) == Sector(d, t)
  {
    var _, d1 := WriteAt(d, block, buf);
    WriteAllImage(d, block * SECTORS_PER_BLOCK, buf);
    forall t: nat | t < block * SECTORS_PER_BLOCK || t >= block * SECTORS_PER_BLOCK + ChunkCount(|buf|)
      ensures Sector(d1, t) == Sector(d, t)
    {
      WriteAllFrame(d, block * SECTORS_PER_BLOCK, buf, t);
    }
    var _, b := ReadAt(d1, block, |buf|);
    back, d' := b, d1;
  }

  /** `size()`. */
  function Size(): (n: nat)
    ensures n == DISK_SIZE && n == 33554432
  {
    DISK_SIZE
  }
}

=== FILE: semaphore.dfy ===
/** The counting semaphore: a signed count and a FIFO of the tasks blocked
    on it. A negative count is the number of waiters. */
module Semaphores {
  import opened Base
  import opened Tasks
  import opened KernelState

  datatype Semaphore = Semaphore(count: int, waitQueue: seq<TaskRef>)

  /** The balance between count and waiters that `up` and `down` keep. */
  ghost predicate Inv(s: Semaphore) {
    && (s.count < 0 ==> |s.waitQueue| == -s.count)
    && (s.count >= 0 ==> s.waitQueue == [])
  }

  /** `Semaphore::new(res_count)`: the count is `res_count as isize`. */
  function New(resCount: nat): (s: Semaphore)
    requires resCount < USIZE_MOD
    ensures s.waitQueue == []
    ensures IsIsize(s.count) && AsUsize(s.count) == resCount
    ensures resCount < USIZE_MOD + ISIZE_MIN ==> s.count == resCount && Inv(s)
  {
    Semaphore(AsIsize(resCount), [])
  }

  /** The semaphore half of `up`: increment, and when the count is still not
      positive pop the front waiter, if any, to be woken. */
  function UpSem(s: Semaphore): (r: (Option<TaskRef>, Semaphore))
    ensures r.1.count == s.count + 1
    ensures s.count + 1 > 0 ==> r.0.None? && r.1.waitQueue == s.waitQueue
    ensures s.count + 1 <= 0 && s.waitQueue != [] ==>
      r.0 == Some(s.waitQueue[0]) && r.1.waitQueue == s.waitQueue[1..]
    ensures s.waitQueue == [] ==> r.0.None? && r.1.waitQueue == []
    ensures Inv(s) ==> Inv(r.1)
  {
    var c := s.count + 1;
    if c <= 0 && s.waitQueue != [] then (Some(s.waitQueue[0]), Semaphore(c, s.waitQueue[1..]))
    else (None, Semaphore(c, s.waitQueue))
  }

  /** The semaphore half of `down` by task `t`: decrement, and when the count
      turns negative append `t`, which then blocks. */
  function DownSem(s: Semaphore, t: TaskRef): (r: (bool, Semaphore))
    ensures r.1.count == s.count - 1
    ensures r.0 <==> s.count - 1 < 0
    ensures r.0 ==> r.1.waitQueue == s.waitQueue + [t]
    ensures !r.0 ==> r.1.waitQueue == s.waitQueue
    ensures Inv(s) ==> Inv(r.1)
  {
    var c := s.count - 1;
    if c < 0 then (true, Semaphore(c, s.waitQueue + [t])) else (false, Semaphore(c, s.waitQueue))
  }

  /** Every waiter is a live task. */
  ghost predicate WaitersLive(s: Semaphore, k: Kernel) {
    forall i :: 0 <= i < |s.waitQueue| ==> s.waitQueue[i] in k.tcbs
  }

  /** `Semaphore::up`: the woken waiter, if any, is set Ready and appended to
      the ready queue; nothing else in the kernel changes. */
  function Up(s: Semaphore, k: Kernel): (r: (Semaphore, Kernel))
    requires WaitersLive(s, k)
    ensures r.0 == UpSem(s).1
    ensures UpSem(s).0.None? ==> r.1 == k
    ensures UpSem(s).0.Some? ==> r.1 == Wakeup(k, UpSem(s).0.value)
    ensures WaitersLive(r.0, r.1)
  {
    match UpSem(s)
    case (None, s') => (s', k)
    case (Some(t), s') => (s', Wakeup(k, t))
  }

  /** `Semaphore::down` by the running task: when it has to wait it is
      appended to the waiters and blocked (off the processor, not ready). */
  function Down(s: Semaphore, k: Kernel): (r: (Semaphore, Kernel))
    requires HasCurrent(k) && WaitersLive(s, k)
    ensures r.0 == DownSem(s, Current(k)).1
    ensures !DownSem(s, Current(k)).0 ==> r.1 == k
    ensures DownSem(s, Current(k)).0 ==> r.1 == BlockCurrentAndRunNext(k)
    ensures WaitersLive(r.0, r.1)
  {
    var t := Current(k);
    match DownSem(s, t)
    case (false, s') => (s', k)
    case (true, s') => (s', BlockCurrentAndRunNext(k))
  }

  /** `down` by each task of `ts` in turn. */
  function DownAll(s: Semaphore, ts: seq<TaskRef>): Semaphore
    decreases |ts|
  {
    if ts == [] then s else DownAll(DownSem(s, ts[0]).1, ts[1..])
  }

  /** `up` `n` times, collecting the tasks woken. */
  function UpN(s: Semaphore, n: nat): (seq<TaskRef>, Semaphore)
    decreases n
  {
    if n == 0 then ([], s)
    else
      var (w, s1) := UpSem(s);
      var (rest, s2) := UpN(s1, n - 1);
      ((if w.Some? then [w.value] else []) + rest, s2)
  }

  lemma {:induction false} DownAllQueues(s: Semaphore, ts: seq<TaskRef>)
    requires s.count <= 0
    ensures DownAll(s, ts).count == s.count - |ts|
    ensures DownAll(s, ts).waitQueue == s.waitQueue + ts
    decreases |ts|
  {
    if ts != [] {
      var s1 := DownSem(s, ts[0]).1;
      DownAllQueues(s1, ts[1..]);
      assert s1.waitQueue + ts[1..] == s.waitQueue + ts;
    }
  }

  lemma {:induction false} UpNWakesFront(s: Semaphore, n: nat)
    requires Inv(s) && n <= |s.waitQueue|
    ensures UpN(s, n).0 == s.waitQueue[..n]
    ensures UpN(s, n).1 == Semaphore(s.count + n, s.waitQueue[n..])
    decreases n
  {
    if n > 0 {
      var (w, s1) := UpSem(s);
      UpNWakesFront(s1, n - 1);
      assert s.waitQueue[..n] == [s.waitQueue[0]] + s1.waitQueue[..n - 1];
      assert s1.waitQueue[n - 1..] == s.waitQueue[n..];
    }
  }

  /** FIFO: tasks that block on a semaphore created with count 0 are woken
      by the same number of `up`s in the order they blocked, after which the
      semaphore is back at 0 with no waiters. */
  lemma FifoWakeOrder(ts: seq<TaskRef>)
    ensures var s := DownAll(New(0), ts);
      && Inv(s)
      && UpN(s, |ts|) == (ts, New(0))
  {
    var s0 := New(0);
    assert s0 == Semaphore(0, []);
    DownAllQueues(s0, ts);
    var s := DownAll(s0, ts);
    assert s == Semaphore(-|ts|, ts);
    UpNWakesFront(s, |ts|);
    assert ts[..|ts|] == ts && ts[|ts|..] == [];
    assert UpN(s, |ts|).1 == s0;
  }
}

=== FILE: string_util.dfy ===
/** `str_to_u8`: copy a string into a byte buffer as a NUL-terminated C
    string, and the reading of such a string back. */
module Strings {
  import opened Base

  /** No byte of `s` is NUL. */
  predicate NoNul(s: seq<byte>) {
    forall i :: 0 <= i < |s| ==> s[i] != 0
  }

  /** The C string held in `b`: the bytes before the first NUL, or None when
      `b` holds no NUL. */
  function CString(b: seq<byte>): (r: Option<seq<byte>>)
    ensures r.None? <==> NoNul(b)
    ensures r.Some? ==> |r.value| < |b| && b[|r.value|] == 0 && r.value == b[..|r.value|] && NoNul(r.value)
  {
    if |b| == 0 then None
    else if b[0] == 0 then Some([])
    else
      match CString(b[1..])
      case None => None
      case Some(t) => Some([b[0]] + t)
  }

  /** A buffer that starts with `s` followed by a NUL holds the C string `s`
      whatever follows. */
  lemma {:induction false} CStringOfTerminated(b: seq<byte>, s: seq<byte>)
    requires NoNul(s) && |s| < |b| && b[..|s|] == s && b[|s|] == 0
    ensures CString(b) == Some(s)
    decreases |s|
  {
    if |s| > 0 {
      assert b[1..][..|s| - 1] == s[1..];
      CStringOfTerminated(b[1..], s[1..]);
    }
  }

  /** `str_to_u8` as the source writes it: an empty string gives -1 and
      leaves the buffer alone; otherwise the bytes are copied to the front,
      the NUL is stored at index |s| + 1 (so byte |s| keeps its old value),
      and 0 is returned. An index past the buffer panics. */
  function StrToU8AsWritten(s: seq<byte>, target: seq<byte>): (r: Res<(int, seq<byte>)>)
    ensures |s| == 0 ==> r == Ok((-1, target))
    ensures |s| > 0 ==> (r.Panic? <==> |target| <= |s| + 1)
    ensures r.Ok? && |s| > 0 ==>
      var out := r.value.1;
      && r.value.0 == 0 && |out| == |target|
      && out[..|s|] == s && out[|s|] == target[|s|] && out[|s| + 1] == 0
      && out[|s| + 2..] == target[|s| + 2..]
  {
    if |s| == 0 then Ok((-1, target))
    else if |target| <= |s| + 1 then Panic
    else Ok((0, s + [target[|s|]] + [0] + target[|s| + 2..]))
  }

  /** The stray byte: copying "a" into a buffer holding 9, 9, 9 leaves
      97, 9, 0, which reads back as the C string "a\t" and not "a". */
  lemma StrToU8AsWrittenKeepsStrayByte()
    ensures StrToU8AsWritten([97], [9, 9, 9]) == Ok((0, [97, 9, 0]))
    ensures CString([97, 9, 0]) == Some([97, 9])
  {
    var t: seq<byte> := [9, 9, 9];
    assert [97] + [t[1]] + [0] + t[3..] == [97, 9, 0];
    var b: seq<byte> := [97, 9, 0];
    var a: seq<byte> := [97, 9];
    assert b[..2] == a;
    CStringOfTerminated(b, a);
  }

  /** `str_to_u8` with the NUL stored right after the copy, at index |s|:
      the buffer then holds `s` as a C string. Everything past the NUL is
      left alone; a buffer with no room for the NUL panics. */
  method StrToU8(s: seq<byte>, target: seq<byte>) returns (r: Res<(int, seq<byte>)>)
    ensures |s| == 0 ==> r == Ok((-1, target))
    ensures |s| > 0 ==> (r.Panic? <==> |target| <= |s|)
    ensures r.Ok? && |s| > 0 ==>
      var out := r.value.1;
      && r.value.0 == 0 && |out| == |target|
      && out[..|s|] == s && out[|s|] == 0 && out[|s| + 1..] == target[|s| + 1..]
    ensures r.Ok? && |s| > 0 && NoNul(s) ==> CString(r.value.1) == Some(s)
  {
    if |s| == 0 {
      return Ok((-1, target));
    }
    if |target| <= |s| {
      return Panic;
    }
    var out := target;
    var i := 0;
    while i < |s|
      invariant 0 <= i <= |s| && |out| == |target|
      invariant out[..i] == s[..i] && out[i..] == target[i..]
    {
      out := out[i := s[i]];
      i := i + 1;
    }
    assert out[..|s|] == s;
    out := out[|s| := 0];
    assert out[..|s|] == s;
    if NoNul(s) {
      CStringOfTerminated(out, s);
    }
    r := Ok((0, out));
  }
}

=== FILE: sys_fs.dfy ===
/** The file-descriptor system calls over the current process's fd table
    (`write`, `read`, `openat`, `close`, `pipe`, `dup`). Each takes the
    table and returns the new one; what the file objects themselves answer
    (byte counts, directory lookups, the pipe ends) is supplied. */
module SysFs {
  import opened Base
  import opened Pcbs
  import OsInodes
  import OpenFiles
  import Dirs
  import Futexes

  /** `fd` names an open file of the table. */
  predicate IsOpen(fds: FdSlots, fd: nat) {
    fd < |fds| && fds[fd].Some?
  }

  /** `sys_write(fd, buf, len)`: -1 when fd is past the table, vacant, or
      not writable; otherwise what the file's `write` reports (`written`). */
  function SysWrite(fds: FdSlots, fd: nat, written: nat): (r: int)
    ensures r == -1 <==> !(IsOpen(fds, fd) && fds[fd].value.writable)
    ensures r != -1 ==> r == written
  {
    if fd >= |fds| then -1
    else match fds[fd]
      case Some(file) => if !file.writable then -1 else written
      case None => -1
  }

  /** `sys_read(fd, buf, len)`: -1 when fd is past the table, vacant, or not
      readable; otherwise what the file's `read` reports (`got`). */
  function SysRead(fds: FdSlots, fd: nat, got: nat): (r: int)
    ensures r == -1 <==> !(IsOpen(fds, fd) && fds[fd].value.readable)
    ensures r != -1 ==> r == got
  {
    if fd >= |fds| then -1
    else match fds[fd]
      case Some(file) => if !file.readable then -1 else got
      case None => -1
  }

  /** `AT_FDCWD`: a dirfd meaning the working directory. */
  const AT_FDCWD: int := -100

  /** `strip_prefix("./").unwrap_or(path)`. */
  function StripDotSlash(path: string): (p: string)
    ensures |path| >= 2 && path[..2] == "./" ==> p == path[2..]
    ensures !(|path| >= 2 && path[..2] == "./") ==> p == path
  {
    if |path| >= 2 && path[..2] == "./" then path[2..] else path
  }

  /** `OpenFlags::from_bits(flags).unwrap_or(empty)` on the bit pattern of
      the `i32` argument: the flags when every set bit is one `OpenFlags`
      defines, the empty set (read-only) otherwise. */
  function FromBits(flags: OsInodes.OpenFlags): (f: OsInodes.OpenFlags)
    ensures flags & !OsInodes.ALL_FLAGS == 0 ==> f == flags
    ensures flags & !OsInodes.ALL_FLAGS != 0 ==> f == OsInodes.RDONLY
  {
    if flags & !OsInodes.ALL_FLAGS == 0 then flags else 0
  }

  /** Where `openat` looks: absolute paths and AT_FDCWD go straight to the
      root; any other dirfd must name an open file (read as `dirfd as usize`)
      and is otherwise only checked, since relative lookup is not
      implemented. */
  predicate DirfdOk(fds: FdSlots, dirfd: int, path: string)
    requires IsI32(dirfd)
  {
    (|path| > 0 && path[0] == '/') || dirfd == AT_FDCWD || IsOpen(fds, AsUsize(dirfd))
  }

  /** Put `f` in the lowest vacant slot, or at the end when there is none. */
  function Install(fds: FdSlots, f: File): (r: (nat, FdSlots))
    ensures r.0 <= |fds| && |r.1| == (if r.0 == |fds| then |fds| + 1 else |fds|)
    ensures r.1[r.0] == Some(f)
    ensures forall i :: 0 <= i < r.0 ==> fds[i].Some?
    ensures r.0 < |fds| ==> fds[r.0].None?
    ensures forall i :: 0 <= i < |fds| && i != r.0 ==> r.1[i] == fds[i]
  {
    var (fd, fds') := AllocFd(fds);
    (fd, fds'[fd := Some(f)])
  }

  /** `sys_openat(dirfd, path, flags)`. The path loses a leading "./", the
      flags are decoded by `FromBits`, the dirfd is checked by `DirfdOk`, and
      `open_file` runs with `find` and `create` answering the root
      directory's lookups; a successful open becomes file `id`, whose
      permissions are those of the flags, installed in the lowest vacant
      slot (or a new last one), whose index is returned. Anything that fails
      gives -1 and leaves the table alone. */
  function SysOpenat(fds: FdSlots, dirfd: int, path: string, flags: OsInodes.OpenFlags,
                     find: string -> Option<Dirs.InodeRef>, create: string -> Option<Dirs.InodeRef>,
                     id: nat): (r: (int, FdSlots))
    requires IsI32(dirfd)
    ensures var name := StripDotSlash(path);
      var outcome := OpenFiles.OpenFile(FromBits(flags), find(name), create(name));
      && (r.0 == -1 <==> !DirfdOk(fds, dirfd, name) || outcome.file.None?)
      && (r.0 == -1 ==> r.1 == fds)
      && (r.0 != -1 ==>
            var (rd, wr) := OsInodes.ReadWrite(FromBits(flags));
            r == Install(fds, File(id, rd, wr)))
  {
    var name := StripDotSlash(path);
    var outcome := OpenFiles.OpenFile(FromBits(flags), find(name), create(name));
    if !DirfdOk(fds, dirfd, name) || outcome.file.None? then (-1, fds)
    else
      var (fd, fds') := Install(fds, File(id, outcome.file.value.readable, outcome.file.value.writable));
      (fd as int, fds')
  }

  /** `sys_close(fd)`: -1 for an fd that names no open file; otherwise its
      slot is emptied (the table keeps its length) and 0 returned. */
  function SysClose(fds: FdSlots, fd: nat): (r: (int, FdSlots))
    ensures r.0 == -1 <==> !IsOpen(fds, fd)
    ensures r.0 == -1 ==> r.1 == fds
    ensures r.0 != -1 ==> r.0 == 0 && |r.1| == |fds| && !IsOpen(r.1, fd)
    ensures forall i :: 0 <= i < |fds| && i != fd ==> r.1[i] == fds[i]
  {
    if !IsOpen(fds, fd) then (-1, fds) else (0, fds[fd := None])
  }

  /** `sys_pipe(ptr)`: the two ends of a fresh pipe (`readEnd`, `writeEnd`)
      go in the two lowest vacant slots, the read end first, and the two fds
      are stored in the user words at `ptr` and `ptr + 8`; an unmapped word
      panics. */
  function SysPipe(fds: FdSlots, ptr: nat, mem: Futexes.UserWords, readEnd: File, writeEnd: File)
    : (r: Res<(int, FdSlots, Futexes.UserWords)>)
    ensures r.Panic? <==> ptr !in mem || ptr + 8 !in mem
    ensures r.Ok? ==>
      var (ret, fds', mem') := r.value;
      && ret == 0
      && mem'.Keys == mem.Keys
      && var rfd := mem'[ptr]; var wfd := mem'[ptr + 8];
      && |fds'| >= |fds|
      && 0 <= rfd < wfd < |fds'|
      && fds'[rfd] == Some(readEnd) && fds'[wfd] == Some(writeEnd)
      && (rfd < |fds| ==> fds[rfd].None?) && (wfd < |fds| ==> fds[wfd].None?)
      && (forall i :: 0 <= i < |fds| && i != rfd && i != wfd ==> fds'[i] == fds[i])
      && (forall a :: a in mem && a != ptr && a != ptr + 8 ==> mem'[a] == mem[a])
  {
    var (rfd, fds1) := Install(fds, readEnd);
    var (wfd, fds2) := Install(fds1, writeEnd);
    if ptr !in mem || ptr + 8 !in mem then Panic
    else Ok((0, fds2, mem[ptr := rfd][ptr + 8 := wfd]))
  }

  /** `sys_dup(fd)`: -1 for an fd that names no open file; otherwise the same
      file is installed in the lowest vacant slot (or a new last one) and
      that fd returned. */
  function SysDup(fds: FdSlots, fd: nat): (r: (int, FdSlots))
    ensures r.0 == -1 <==> !IsOpen(fds, fd)
    ensures r.0 == -1 ==> r.1 == fds
    ensures r.0 != -1 ==>
      && |r.1| >= |fds| && 0 <= r.0 < |r.1| && r.0 != fd
      && r.1[r.0] == fds[fd]
      && (forall i :: 0 <= i < |fds| && i != r.0 ==> r.1[i] == fds[i])
  {
    if !IsOpen(fds, fd) then (-1, fds)
    else
      var (nfd, fds') := Install(fds, fds[fd].value);
      (nfd as int, fds')
  }

  /** The duplicate is the same open file: reading and writing through it
      behave exactly as through the original. */
  lemma DupSharesFile(fds: FdSlots, fd: nat, n: nat)
    requires IsOpen(fds, fd)
    ensures var (nfd, fds') := SysDup(fds, fd);
      && SysRead(fds', nfd, n) == SysRead(fds, fd, n)
      && SysWrite(fds', nfd, n) == SysWrite(fds, fd, n)
      && SysRead(fds', fd, n) == SysRead(fds, fd, n)
  {
  }

  /** A closed fd can no longer be read or written, and closing it again
      fails. */
  lemma CloseInvalidates(fds: FdSlots, fd: nat, n: nat)
    requires IsOpen(fds, fd)
    ensures var (_, fds') := SysClose(fds, fd);
      && SysRead(fds', fd, n) == -1 && SysWrite(fds', fd, n) == -1
      && SysClose(fds', fd).0 == -1
  {
  }

  /** Closing the lowest open-file fd below which every slot is occupied,
      and opening a file, hands the same fd back. */
  lemma CloseThenOpenReuses(fds: FdSlots, fd: nat, path: string, flags: OsInodes.OpenFlags,
                            find: string -> Option<Dirs.InodeRef>, create: string -> Option<Dirs.InodeRef>, id: nat)
    requires IsOpen(fds, fd) && forall i :: 0 <= i < fd ==> fds[i].Some?
    requires var name := StripDotSlash(path);
      OpenFiles.OpenFile(FromBits(flags), find(name), create(name)).file.Some?
    ensures var (_, fds1) := SysClose(fds, fd);
      SysOpenat(fds1, AT_FDCWD, path, flags, find, create, id).0 == fd
  {
  }

  /** A file outcome read-only (no flag bits) can be read and not written;
      one outcome with WRONLY the other way round. */
  lemma OpenPermissions(fds: FdSlots, path: string,
                        find: string -> Option<Dirs.InodeRef>, create: string -> Option<Dirs.InodeRef>, id: nat, n: nat)
    requires find(StripDotSlash(path)).Some?
    ensures var (fd, fds') := SysOpenat(fds, AT_FDCWD, path, 0, find, create, id);
      fd >= 0 && SysRead(fds', fd, n) == n && SysWrite(fds', fd, n) == -1
    ensures var (fd, fds') := SysOpenat(fds, AT_FDCWD, path, 1, find, create, id);
      fd >= 0 && SysRead(fds', fd, n) == -1 && SysWrite(fds', fd, n) == n
  {
    assert FromBits(0) == OsInodes.RDONLY;
    assert FromBits(1) == OsInodes.WRONLY;
  }
}

=== FILE: sys_process.dfy ===
/** The process system calls of `syscall/process.rs` besides waiting:
    `sys_yield`, `sys_getcwd`, `sys_clone`, `sys_fork`, `sys_exec` (its
    argument collection), `sys_kill` and `sys_times`.

    User memory is seen through `Futexes.UserWords` (an unmapped word
    panics); the allocators, `translated_str`, the ELF loader and the board
    clock frequency answer through parameters. */
module SysProcess {
  import opened Base
  import opened Tasks
  import opened Pcbs
  import opened KernelState
  import Trap
  import Manager
  import Dirs
  import Futexes
  import Strings
  import Exit
  import Lifecycle
  import SysWait

  /** `sys_yield`: suspend the caller, which becomes the last ready task,
      and answer 0. */
  function SysYield(k: Kernel): (r: (int, Kernel))
    requires HasCurrent(k)
    ensures r.0 == 0
    ensures r.1.processor.current.None?
    ensures r.1.manager.readyQueue == k.manager.readyQueue + [Current(k)]
    ensures Current(k) in r.1.tcbs && r.1.tcbs[Current(k)].status == Ready
    ensures SchedInv(k) ==> SchedInv(r.1)
  {
    (0, Suspend(k))
  }

  /** `sys_getcwd(buf, buf_len)` with `user` the bytes of the `buf_len`-byte
      user buffer and `cwd` the bytes of the working directory. A buffer
      with no room for the NUL gets 0 and is not written; otherwise the
      directory and a NUL are written at its front and the buffer address
      (as an `isize`) is returned. The source's copy loop walks the buffer
      and stops at index |cwd|, which the length check places inside it. */
  method SysGetcwd(cwd: seq<byte>, buf: nat, user: seq<byte>) returns (r: int, out: seq<byte>)
    requires buf < USIZE_MOD
    ensures |user| <= |cwd| ==> r == 0 && out == user
    ensures |user| > |cwd| ==>
      && r == AsIsize(buf) && |out| == |user|
      && out[..|cwd|] == cwd && out[|cwd|] == 0 && out[|cwd| + 1..] == user[|cwd| + 1..]
    ensures |user| > |cwd| && Strings.NoNul(cwd) ==> Strings.CString(out) == Some(cwd)
  {
    if |user| <= |cwd| {
      return 0, user;
    }
    out := user;
    var index := 0;
    while index < |cwd|
      invariant 0 <= index <= |cwd| && |out| == |user|
      invariant out[..index] == cwd[..index] && out[index..] == user[index..]
    {
      out := out[index := cwd[index]];
      index := index + 1;
    }
    assert out[..|cwd|] == cwd;
    out := out[|cwd| := 0];
    assert out[..|cwd|] == cwd;
    if Strings.NoNul(cwd) {
      Strings.CStringOfTerminated(out, cwd);
    }
    r := AsIsize(buf);
  }

  /** What the allocators hand `fork`: the copied address space, the child
      process handle and pid, its main thread's handle, trap-context page
      and kernel stack. */
  datatype ForkAlloc = ForkAlloc(memorySet: nat, child: ProcRef, pid: nat, task: TaskRef, ppn: nat, kstackTop: nat)

  /** What the allocators hand a new thread: its handle, thread id, user
      stack top, trap-context page and kernel stack. */
  datatype ThreadAlloc = ThreadAlloc(task: TaskRef, tid: nat, ustackTop: nat, ppn: nat, kstackTop: nat)

  /** What `sys_fork` and the fork path of `sys_clone` rely on: a running
      task, fresh handles, a parent whose main thread (when it has one) has
      a well-formed trap context, and a pid that is non-negative as an
      `isize`. */
  ghost predicate CanFork(k: Kernel, fa: ForkAlloc) {
    && HasCurrent(k)
    && fa.child !in k.procs && fa.task !in k.tcbs
    && fa.pid < USIZE_MOD + ISIZE_MIN
    && (Lifecycle.HasMainThread(k, CurrentProc(k)) ==>
          Lifecycle.MainThread(k, CurrentProc(k)) in k.trapCtx
          && Trap.WellFormed(k.trapCtx[Lifecycle.MainThread(k, CurrentProc(k))]))
  }

  /** `sys_fork(flags, stack)`: fork the current process; the child's main
      thread returns 0 (a0) and, when `stack` is not 0, runs on that stack
      (sp); every other register is the parent's. The parent gets the
      child's pid. Fork's own panics pass through. */
  function SysFork(k: Kernel, stack: nat, fa: ForkAlloc): (r: Res<(int, Kernel)>)
    requires CanFork(k, fa)
    ensures var q := CurrentProc(k);
      r.Ok? <==> |k.procs[q].tasks| == 1 && Lifecycle.HasMainThread(k, q)
    ensures r.Ok? ==>
      var q := CurrentProc(k);
      var (ret, k') := r.value;
      var f := Lifecycle.Fork(k, q, fa.memorySet, fa.child, fa.pid, fa.task, fa.ppn, fa.kstackTop).value;
      var parentCtx := k.trapCtx[Lifecycle.MainThread(k, q)];
      && ret == fa.pid
      && k'.procs == f.procs && k'.tcbs == f.tcbs && k'.manager == f.manager && k'.pid2pcb == f.pid2pcb
      && k'.processor == k.processor
      && fa.task in k'.trapCtx
      && var ctx := k'.trapCtx[fa.task];
      && Trap.WellFormed(ctx)
      && ctx.x[Trap.A0] == 0
      && ctx.x[Trap.SP] == (if stack != 0 then stack else parentCtx.x[Trap.SP])
      && (forall i :: 0 <= i < Trap.REG_COUNT && i != Trap.A0 && i != Trap.SP ==> ctx.x[i] == parentCtx.x[i])
      && ctx.sepc == parentCtx.sepc && ctx.kernelSp == fa.kstackTop
  {
    var q := CurrentProc(k);
    match Lifecycle.Fork(k, q, fa.memorySet, fa.child, fa.pid, fa.task, fa.ppn, fa.kstackTop)
    case Panic => Panic
    case Ok(f) =>
      Lifecycle.ForkStartsChild(k, q, fa.memorySet, fa.child, fa.pid, fa.task, fa.ppn, fa.kstackTop);
      var ctx := f.trapCtx[fa.task];
      var x1 := ctx.x[Trap.A0 := 0];
      var x2 := if stack != 0 then x1[Trap.SP := stack] else x1;
      Ok((fa.pid, f.(trapCtx := f.trapCtx[fa.task := ctx.(x := x2)])))
  }

  /** The child of a fork is not a zombie: waiting for its pid right away
      finds it and answers -2. */
  lemma ForkThenWaitRunning(k: Kernel, stack: nat, fa: ForkAlloc, ptr: nat, mem: Futexes.UserWords)
    requires CanFork(k, fa) && SysWait.ChildrenLive(k, CurrentProc(k))
    requires SysFork(k, stack, fa).Ok?
    requires var cs := k.procs[CurrentProc(k)].children;
      forall i :: 0 <= i < |cs| ==> k.procs[cs[i]].pid != fa.pid
    ensures var k' := SysFork(k, stack, fa).value.1;
      && HasCurrent(k') && CurrentProc(k') == CurrentProc(k)
      && SysWait.ChildrenLive(k', CurrentProc(k'))
      && SysWait.Waitpid(k', fa.pid, ptr, mem) == Ok((-2, k', mem))
  {
    var q := CurrentProc(k);
    var k' := SysFork(k, stack, fa).value.1;
    Lifecycle.ForkStartsChild(k, q, fa.memorySet, fa.child, fa.pid, fa.task, fa.ppn, fa.kstackTop);
    assert Current(k') == Current(k) && k'.tcbs[Current(k)] == k.tcbs[Current(k)];
    var cs' := k'.procs[q].children;
    assert cs' == k.procs[q].children + [fa.child];
    assert cs'[|cs'| - 1] == fa.child;
    assert SysWait.AnyMatch(k', cs', fa.pid);
  }

  /** `sys_clone` for a new thread (CLONE_VM), as the source writes it. The
      thread (tid and user stack from the allocators, the caller's stack
      base, the clone flags and `ctid` recorded) is put in slot tid of the
      thread table, grown with vacant slots as needed, and its trap context
      is a copy of the caller's with sp = `stack` and a0 = 0 (the kernel
      stack field included). With CLONE_PARENT_SETTID the tid is stored as
      a `u32` at `ptid`; a null `ptid` returns -1 instead, after the thread
      was registered and without scheduling it. Otherwise the thread joins
      the ready queue and the tid is returned. */
  function CloneThreadAsWritten(k: Kernel, flags: nat, stack: nat, ptid: nat, ctid: nat,
                                mem: Futexes.UserWords, ta: ThreadAlloc): (r: Res<(int, Kernel, Futexes.UserWords)>)
    requires CanCloneThread(k, ta)
    ensures var settid := Bit(flags, Exit.CLONE_PARENT_SETTID_BIT);
      r.Panic? <==> settid && ptid != 0 && ptid !in mem
    ensures r.Ok? ==>
      var settid := Bit(flags, Exit.CLONE_PARENT_SETTID_BIT);
      var (ret, k', mem') := r.value;
      && ThreadAdded(k, k', flags, stack, ctid, ta)
      && k'.trapCtx[ta.task].kernelSp == k.trapCtx[Current(k)].kernelSp
      && (ret == -1 <==> settid && ptid == 0)
      && (ret != -1 ==> ret == ta.tid && k'.manager.readyQueue == k.manager.readyQueue + [ta.task])
      && (ret == -1 ==> k'.manager == k.manager && mem' == mem)
      && (settid && ptid != 0 ==> mem' == mem[ptid := ta.tid % I32_MOD])
      && (!settid ==> mem' == mem)
  {
    var k1 := AddThread(k, flags, stack, ctid, ta, k.trapCtx[Current(k)].kernelSp);
    var settid := Bit(flags, Exit.CLONE_PARENT_SETTID_BIT);
    if settid && ptid == 0 then Ok((-1, k1, mem))
    else if settid && ptid !in mem then Panic
    else
      var mem' := if settid then mem[ptid := ta.tid % I32_MOD] else mem;
      Ok((ta.tid, k1.(manager := Manager.Add(k1.manager, ta.task)), mem'))
  }

  /** `sys_clone` for a new thread with both defects of the written code
      put right: a null `ptid` under CLONE_PARENT_SETTID is refused before
      anything is created, and the new thread's trap context names its own
      kernel stack. */
  function CloneThread(k: Kernel, flags: nat, stack: nat, ptid: nat, ctid: nat,
                       mem: Futexes.UserWords, ta: ThreadAlloc): (r: Res<(int, Kernel, Futexes.UserWords)>)
    requires CanCloneThread(k, ta)
    ensures var settid := Bit(flags, Exit.CLONE_PARENT_SETTID_BIT);
      r.Panic? <==> settid && ptid != 0 && ptid !in mem
    ensures var settid := Bit(flags, Exit.CLONE_PARENT_SETTID_BIT);
      settid && ptid == 0 ==> r == Ok((-1, k, mem))
    ensures r.Ok? && r.value.0 != -1 ==>
      var settid := Bit(flags, Exit.CLONE_PARENT_SETTID_BIT);
      var (ret, k', mem') := r.value;
      && ret == ta.tid
      && ThreadAdded(k, k', flags, stack, ctid, ta)
      && k'.trapCtx[ta.task].kernelSp == ta.kstackTop == k'.tcbs[ta.task].kstackTop
      && k'.manager.readyQueue == k.manager.readyQueue + [ta.task]
      && (settid ==> mem' == mem[ptid := ta.tid % I32_MOD])
      && (!settid ==> mem' == mem)
    ensures r.Ok? && SchedInv(k) ==> SchedInv(r.value.1)
  {
    var settid := Bit(flags, Exit.CLONE_PARENT_SETTID_BIT);
    if settid && ptid == 0 then Ok((-1, k, mem))
    else if settid && ptid !in mem then Panic
    else
      var k1 := AddThread(k, flags, stack, ctid, ta, ta.kstackTop);
      var mem' := if settid then mem[ptid := ta.tid % I32_MOD] else mem;
      var k2 := k1.(manager := Manager.Add(k1.manager, ta.task));
      assert SchedInv(k) ==> SchedInv(k2) by {
        if SchedInv(k) {
          Lifecycle.QueueAppendFresh(k.manager.readyQueue, k.tcbs, ta.task);
        }
      }
      Ok((ta.tid, k2, mem'))
  }

  /** What a new thread needs: a running caller holding user resources and
      a well-formed trap context, and a fresh task handle. */
  ghost predicate CanCloneThread(k: Kernel, ta: ThreadAlloc) {
    && HasCurrent(k)
    && k.tcbs[Current(k)].res.Some?
    && Current(k) in k.trapCtx && Trap.WellFormed(k.trapCtx[Current(k)])
    && ta.task !in k.tcbs
  }

  /** The thread table grown with vacant slots to at least `n` entries. */
  function Grow(tasks: seq<Option<TaskRef>>, n: nat): (r: seq<Option<TaskRef>>)
    ensures |r| == if |tasks| < n then n else |tasks|
    ensures forall i :: 0 <= i < |tasks| ==> r[i] == tasks[i]
    ensures forall i :: |tasks| <= i < |r| ==> r[i].None?
  {
    if |tasks| < n then tasks + seq(n - |tasks|, _ => None) else tasks
  }

  /** The registration shared by both clone variants, with the kernel stack
      written into the new trap context as a parameter. */
  function AddThread(k: Kernel, flags: nat, stack: nat, ctid: nat, ta: ThreadAlloc, kernelSp: nat): (r: Kernel)
    requires CanCloneThread(k, ta)
    ensures ThreadAdded(k, r, flags, stack, ctid, ta)
    ensures r.trapCtx[ta.task].kernelSp == kernelSp
    ensures r.manager == k.manager
  {
    var cur := Current(k);
    var q := CurrentProc(k);
    var res := TaskUserRes(ta.tid, k.tcbs[cur].res.value.ustackBase, ta.ustackTop, ta.ppn);
    var task := NewTask(q, res, ta.kstackTop, flags, ctid);
    var pcb := k.procs[q];
    var tasks := Grow(pcb.tasks, ta.tid + 1)[ta.tid := Some(ta.task)];
    var parentCtx := k.trapCtx[cur];
    var ctx := parentCtx.(x := parentCtx.x[Trap.SP := stack][Trap.A0 := 0], kernelSp := kernelSp);
    k.(tcbs := k.tcbs[ta.task := task],
       procs := k.procs[q := pcb.(tasks := tasks)],
       trapCtx := k.trapCtx[ta.task := ctx])
  }

  /** The new thread is registered: a fresh TCB of the caller's process
      with the allocated resources on the caller's stack base; slot tid of
      the thread table holds it, the other slots are kept and the new ones
      are vacant; its trap context is the caller's with sp = `stack` and
      a0 = 0; nothing else changes but the processes' table entry. */
  ghost predicate ThreadAdded(k: Kernel, k': Kernel, flags: nat, stack: nat, ctid: nat, ta: ThreadAlloc)
    requires CanCloneThread(k, ta)
  {
    var cur := Current(k);
    var q := CurrentProc(k);
    var tasks := k.procs[q].tasks;
    var parentCtx := k.trapCtx[cur];
    && ta.task in k'.tcbs
    && k'.tcbs == k.tcbs[ta.task := k'.tcbs[ta.task]]
    && Fresh(k'.tcbs[ta.task], q)
    && k'.tcbs[ta.task].res == Some(TaskUserRes(ta.tid, k.tcbs[cur].res.value.ustackBase, ta.ustackTop, ta.ppn))
    && k'.tcbs[ta.task].kstackTop == ta.kstackTop
    && k'.tcbs[ta.task].cloneFlags == flags && k'.tcbs[ta.task].ctidPtr == ctid
    && q in k'.procs && k'.procs == k.procs[q := k'.procs[q]]
    && k'.procs[q] == k.procs[q].(tasks := k'.procs[q].tasks)
    && var tasks' := k'.procs[q].tasks;
    && |tasks'| == (if |tasks| <= ta.tid then ta.tid + 1 else |tasks|)
    && tasks'[ta.tid] == Some(ta.task)
    && (forall i :: 0 <= i < |tasks| && i != ta.tid ==> tasks'[i] == tasks[i])
    && (forall i :: |tasks| <= i < |tasks'| && i != ta.tid ==> tasks'[i].None?)
    && ta.task in k'.trapCtx && k'.trapCtx == k.trapCtx[ta.task := k'.trapCtx[ta.task]]
    && var ctx := k'.trapCtx[ta.task];
    && Trap.WellFormed(ctx)
    && ctx.x[Trap.SP] == stack && ctx.x[Trap.A0] == 0
    && (forall i :: 0 <= i < Trap.REG_COUNT && i != Trap.SP && i != Trap.A0 ==> ctx.x[i] == parentCtx.x[i])
    && ctx.sepc == parentCtx.sepc && ctx.sstatus == parentCtx.sstatus
    && k'.processor == k.processor && k'.pid2pcb == k.pid2pcb
    && k'.initProc == k.initProc && k'.idlePid == k.idlePid
  }

  /** A refused CLONE_PARENT_SETTID (null `ptid`) as written: -1 comes
      back, yet the thread stays in slot tid of the table; it is neither
      queued nor running, so it never runs and never exits to free the
      slot, and the caller's process, now with more than one thread slot,
      can no longer fork. */
  lemma CloneAsWrittenOrphansThread(k: Kernel, flags: nat, stack: nat, ctid: nat,
                                    mem: Futexes.UserWords, ta: ThreadAlloc, fa: ForkAlloc)
    requires CanCloneThread(k, ta) && SchedInv(k)
    requires Lifecycle.HasMainThread(k, CurrentProc(k)) ==> Lifecycle.MainThread(k, CurrentProc(k)) in k.trapCtx
    requires Bit(flags, Exit.CLONE_PARENT_SETTID_BIT) && ta.tid > 0
    requires fa.child !in k.procs && fa.task !in k.tcbs && fa.task != ta.task
    ensures var r := CloneThreadAsWritten(k, flags, stack, 0, ctid, mem, ta);
      var q := CurrentProc(k);
      && r.Ok? && r.value.0 == -1
      && var k' := r.value.1;
      && k'.procs[q].tasks[ta.tid] == Some(ta.task)
      && ta.task !in k'.manager.readyQueue && k'.processor.current != Some(ta.task)
      && (Lifecycle.HasMainThread(k', q) ==> Lifecycle.MainThread(k', q) in k'.trapCtx)
      && Lifecycle.Fork(k', q, fa.memorySet, fa.child, fa.pid, fa.task, fa.ppn, fa.kstackTop).Panic?
  {
    var k' := CloneThreadAsWritten(k, flags, stack, 0, ctid, mem, ta).value.1;
    var q := CurrentProc(k);
    assert forall i :: 0 <= i < |k.manager.readyQueue| ==> k.manager.readyQueue[i] != ta.task;
    assert |k'.procs[q].tasks| > 1;
    if Lifecycle.HasMainThread(k', q) {
      var t0 := Lifecycle.MainThread(k', q);
      assert t0 in k'.tcbs;
      assert t0 in k'.trapCtx by {
        if t0 != ta.task {
          assert k'.procs[q].tasks[0] == k.procs[q].tasks[0];
        }
      }
    }
  }

  /** The written code copies the caller's kernel-stack field into the new
      thread's trap context, so a trap taken by the new thread lands on the
      caller's kernel stack rather than its own. */
  lemma CloneAsWrittenSharesKernelStack(k: Kernel, flags: nat, stack: nat, ptid: nat, ctid: nat,
                                        mem: Futexes.UserWords, ta: ThreadAlloc)
    requires CanCloneThread(k, ta)
    requires ta.kstackTop != k.trapCtx[Current(k)].kernelSp
    requires CloneThreadAsWritten(k, flags, stack, ptid, ctid, mem, ta).Ok?
    ensures var k' := CloneThreadAsWritten(k, flags, stack, ptid, ctid, mem, ta).value.1;
      k'.trapCtx[ta.task].kernelSp != k'.tcbs[ta.task].kstackTop
  {
  }

  /** `sys_clone(flags, stack, ptid, tls, ctid)`: without CLONE_VM it is
      `sys_fork`; with it a new thread of the caller's process (the
      corrected `CloneThread`). */
  function SysClone(k: Kernel, flags: nat, stack: nat, ptid: nat, ctid: nat, mem: Futexes.UserWords,
                    fa: ForkAlloc, ta: ThreadAlloc): (r: Res<(int, Kernel, Futexes.UserWords)>)
    requires !Bit(flags, Exit.CLONE_VM_BIT) ==> CanFork(k, fa)
    requires Bit(flags, Exit.CLONE_VM_BIT) ==> CanCloneThread(k, ta)
    ensures !Bit(flags, Exit.CLONE_VM_BIT) ==>
      match SysFork(k, stack, fa)
      case Panic => r.Panic?
      case Ok((ret, k')) => r == Ok((ret, k', mem))
    ensures Bit(flags, Exit.CLONE_VM_BIT) ==> r == CloneThread(k, flags, stack, ptid, ctid, mem, ta)
  {
    if !Bit(flags, Exit.CLONE_VM_BIT) then
      match SysFork(k, stack, fa)
      case Panic => Panic
      case Ok((ret, k')) => Ok((ret, k', mem))
    else CloneThread(k, flags, stack, ptid, ctid, mem, ta)
  }

  /** `translated_str`: the C string at a user address, or None when it
      runs into unmapped memory, where the source panics. */
  type ReadStr = int -> Option<seq<byte>>

  /** `sys_exec`'s argument collection: read the pointer words from `args`
      on, eight bytes apart, until a 0 word, and read the C string each
      points to. An unmapped word or an unreadable string panics, so the
      collection succeeds exactly when the array is terminated and every
      string it points to is readable. */
  method CollectArgs(mem: Futexes.UserWords, args: nat, str: ReadStr) returns (r: Res<seq<seq<byte>>>)
    ensures r.Ok? <==> exists n: nat :: Collectible(mem, args, str, n)
    ensures r.Ok? ==> Collected(mem, args, str, r.value)
    ensures r.Panic? ==>
      exists n: nat :: && (forall i :: 0 <= i < n ==> ArgWord(mem, args, i) && ArgReadable(mem, args, str, i))
                       && (args + 8 * n !in mem || (ArgWord(mem, args, n) && !ArgReadable(mem, args, str, n)))
  {
    var argv: seq<seq<byte>> := [];
    var a := args;
    while true
      invariant a == args + 8 * |argv|
      invariant forall i :: 0 <= i < |argv| ==> ArgWord(mem, args, i) && str(mem[args + 8 * i]) == Some(argv[i])
      decreases |Above(mem, a)|
    {
      if a !in mem {
        NoTerminator(mem, args, |argv|);
        return Panic;
      }
      if mem[a] == 0 {
        forall i | 0 <= i < |argv| ensures ArgReadable(mem, args, str, i) {
          assert ArgWord(mem, args, i);
        }
        assert Collectible(mem, args, str, |argv|);
        return Ok(argv);
      }
      var s := str(mem[a]);
      if s.None? {
        UnreadableArg(mem, args, str, |argv|);
        return Panic;
      }
      AboveShrinks(mem, a);
      argv := argv + [s.value];
      a := a + 8;
    }
  }

  /** The mapped words from `a` up. */
  function Above(mem: Futexes.UserWords, a: nat): set<nat> {
    set x | x in mem && x >= a
  }

  /** Passing a mapped word leaves fewer mapped words ahead. */
  lemma AboveShrinks(mem: Futexes.UserWords, a: nat)
    requires a in mem
    ensures |Above(mem, a + 8)| < |Above(mem, a)|
  {
    assert a in Above(mem, a);
    SubsetSize(Above(mem, a + 8), Above(mem, a) - {a});
  }

  lemma {:induction false} SubsetSize(a: set<nat>, b: set<nat>)
    requires a <= b
    ensures |a| <= |b|
    decreases |a|
  {
    if a != {} {
      var x :| x in a;
      SubsetSize(a - {x}, b - {x});
    }
  }

  /** Word i of the argument array is mapped and not the terminating 0. */
  predicate ArgWord(mem: Futexes.UserWords, args: nat, i: nat) {
    args + 8 * i in mem && mem[args + 8 * i] != 0
  }

  /** The argument array at `args` holds `n` pointers and then a 0 word,
      every one of those words mapped. */
  predicate Terminated(mem: Futexes.UserWords, args: nat, n: nat) {
    && (forall i :: 0 <= i < n ==> ArgWord(mem, args, i))
    && args + 8 * n in mem && mem[args + 8 * n] == 0
  }

  /** Word i of the argument array is mapped and its string readable. */
  predicate ArgReadable(mem: Futexes.UserWords, args: nat, str: ReadStr, i: nat) {
    args + 8 * i in mem && str(mem[args + 8 * i]).Some?
  }

  /** The argument array is terminated after `n` pointers, each to a
      readable string. */
  predicate Collectible(mem: Futexes.UserWords, args: nat, str: ReadStr, n: nat) {
    Terminated(mem, args, n) && forall i :: 0 <= i < n ==> ArgReadable(mem, args, str, i)
  }

  /** `argv` is what the collection reads from a terminated array. */
  ghost predicate Collected(mem: Futexes.UserWords, args: nat, str: ReadStr, argv: seq<seq<byte>>) {
    && (forall i :: 0 <= i < |argv| ==> ArgWord(mem, args, i) && str(mem[args + 8 * i]) == Some(argv[i]))
    && args + 8 * |argv| in mem && mem[args + 8 * |argv|] == 0
  }

  /** Pointer words of a terminated array all come before its terminator. */
  lemma TerminatedBound(mem: Futexes.UserWords, args: nat, n: nat, m: nat)
    requires Terminated(mem, args, n)
    requires forall i :: 0 <= i < m ==> ArgWord(mem, args, i)
    ensures m <= n
  {
    assert !ArgWord(mem, args, n);
  }

  /** An unmapped word after mapped pointer words: the array is not
      terminated, whatever its length. */
  lemma NoTerminator(mem: Futexes.UserWords, args: nat, m: nat)
    requires forall i :: 0 <= i < m ==> ArgWord(mem, args, i)
    requires args + 8 * m !in mem
    ensures forall n: nat :: !Terminated(mem, args, n)
  {
    forall n: nat ensures !Terminated(mem, args, n) {
      if n < m {
        assert ArgWord(mem, args, n);
      } else {
        assert !ArgWord(mem, args, m);
      }
    }
  }

  /** An unreadable string at a pointer word before any 0 word: no prefix of
      the array is collectible, whatever its length. */
  lemma UnreadableArg(mem: Futexes.UserWords, args: nat, str: ReadStr, m: nat)
    requires forall i :: 0 <= i < m ==> ArgWord(mem, args, i)
    requires ArgWord(mem, args, m) && str(mem[args + 8 * m]).None?
    ensures forall n: nat :: !Collectible(mem, args, str, n)
  {
    forall n: nat ensures !Collectible(mem, args, str, n) {
      if Terminated(mem, args, n) {
        TerminatedBound(mem, args, n, m + 1);
        assert !ArgReadable(mem, args, str, m);
      }
    }
  }

  /** An array has one terminator, so one collection. */
  lemma CollectedUnique(mem: Futexes.UserWords, args: nat, str: ReadStr, a: seq<seq<byte>>, b: seq<seq<byte>>)
    requires Collected(mem, args, str, a) && Collected(mem, args, str, b)
    ensures a == b
  {
    TerminatedBound(mem, args, |b|, |a|);
    TerminatedBound(mem, args, |a|, |b|);
  }

  /** `sys_exec(path, args)` on the caller's process: read the path, collect the arguments,
      open the program read-only (`found` answers the root lookup of the
      path), and when it exists replace the image (`img`, from the loader)
      and return argc; a missing program gives -1 and changes nothing. An
      unreadable path, an unterminated argument array (an unmapped word
      before the 0), an unreadable argument string, an argument block larger
      than the new user stack, and a process that is not a single thread with
      its resources all panic. */
  method SysExec(k: Kernel, mem: Futexes.UserWords, path: nat, args: nat, str: ReadStr, found: Option<Dirs.InodeRef>,
                 img: Lifecycle.Image, env: Lifecycle.Env, ustackTop: nat, ppn: nat)
    returns (r: Res<(int, Kernel)>, stack: Lifecycle.StackImage)
    requires HasCurrent(k)
    ensures r.Panic? <==>
      || str(path).None?
      || !(exists n: nat :: Collectible(mem, args, str, n))
      || (found.Some? &&
          (|| (exists argv :: Collected(mem, args, str, argv) && !Lifecycle.Fits(ustackTop, argv))
           || |k.procs[CurrentProc(k)].tasks| != 1
           || !Lifecycle.HasMainThread(k, CurrentProc(k))))
    ensures str(path).Some? && (exists n: nat :: Collectible(mem, args, str, n)) && found.None? ==> r == Ok((-1, k))
    ensures r.Ok? && found.None? ==> r.value == (-1, k)
    ensures r.Ok? && found.Some? ==>
      var q := CurrentProc(k);
      && r.value.0 >= 0 && |k.procs[q].tasks| == 1 && Lifecycle.HasMainThread(k, q)
      && var t0 := Lifecycle.MainThread(k, q);
      && var k' := r.value.1;
      && k'.procs == k.procs[q := k.procs[q].(memorySet := img.memorySet, programBrkBottom := img.programBrk,
                                             currentHeapTop := img.programBrk)]
      && t0 in k'.trapCtx && Trap.WellFormed(k'.trapCtx[t0])
      && k'.trapCtx[t0].x[Trap.A0] == r.value.0
      && k'.trapCtx[t0].sepc == img.entry
      && exists argv: seq<seq<byte>> ::
           && |argv| == r.value.0
           && Collected(mem, args, str, argv)
           && Lifecycle.ArgBlock(ustackTop, argv, k'.trapCtx[t0].x[Trap.SP], k'.trapCtx[t0].x[Trap.A1], stack)
  {
    stack := Lifecycle.StackImage([], map[]);
    if str(path).None? {
      return Panic, stack;
    }
    var collected := CollectArgs(mem, args, str);
    if collected.Panic? {
      return Panic, stack;
    }
    var argv := collected.value;
    forall other | Collected(mem, args, str, other) ensures other == argv {
      CollectedUnique(mem, args, str, other, argv);
    }
    if found.None? {
      return Ok((-1, k)), stack;
    }
    var q := CurrentProc(k);
    var e := Lifecycle.Exec(k, q, img, env, ustackTop, ppn, argv);
    if e.Panic? {
      return Panic, stack;
    }
    var k';
    k', stack := e.value.0, e.value.1;
    r := Ok((|argv|, k'));
  }

  /** `SignalFlags::from_bits(signal)` succeeds: every set bit of `signal`
      is one of the `defined` ones. */
  predicate Defines(defined: bv32, signal: bv32) {
    signal & !defined == 0
  }

  /** `sys_kill(pid, signal)`: -1 for a pid nobody holds or for a signal
      with bits `SignalFlags` does not define (`defined`, the set of
      defined bits); otherwise the signal is added to the target's set and
      0 returned. */
  function SysKill(k: Kernel, pid: nat, signal: bv32, defined: bv32): (r: (int, Kernel))
    requires pid in k.pid2pcb ==> k.pid2pcb[pid] in k.procs
    ensures r.0 == -1 <==> pid !in k.pid2pcb || !Defines(defined, signal)
    ensures r.0 == -1 ==> r.1 == k
    ensures r.0 != -1 ==>
      var p := k.pid2pcb[pid];
      && r.0 == 0
      && r.1.procs.Keys == k.procs.Keys
      && r.1.procs[p].signals == k.procs[p].signals | signal
      && r.1.procs[p].(signals := k.procs[p].signals) == k.procs[p]
      && (forall o :: o in k.procs && o != p ==> r.1.procs[o] == k.procs[o])
      && r.1.(procs := k.procs) == k
  {
    var target := Manager.Pid2Process(k.pid2pcb, pid);
    if target.None? || !Defines(defined, signal) then (-1, k)
    else (0, AddSignal(k, target.value, signal))
  }

  /** A process killing itself gets the same state as the kernel raising
      the signal on the running process, and a repeated kill changes
      nothing more. */
  lemma KillSelfIsAddSignal(k: Kernel, pid: nat, signal: bv32, defined: bv32)
    requires HasCurrent(k) && pid in k.pid2pcb && k.pid2pcb[pid] == CurrentProc(k)
    requires Defines(defined, signal)
    ensures SysKill(k, pid, signal, defined).1 == CurrentAddSignal(k, signal)
    ensures var k1 := SysKill(k, pid, signal, defined).1;
      SysKill(k1, pid, signal, defined) == (0, k1)
  {
    AddSignalAgain(k, CurrentProc(k), signal);
  }

  /** The CPU time of the zombie children: (user, system), each child
      counting its own time and that of its reaped children. */
  function ZombieTimes(k: Kernel, cs: seq<ProcRef>): (r: (nat, nat))
    requires forall i :: 0 <= i < |cs| ==> cs[i] in k.procs
  {
    if |cs| == 0 then (0, 0)
    else
      var rest := ZombieTimes(k, cs[1..]);
      var t := k.procs[cs[0]].times;
      if k.procs[cs[0]].isZombie then (t.usr + t.childUsr + rest.0, t.sys + t.childSys + rest.1)
      else rest
  }

  /** Children still running add nothing to the reported child times. */
  lemma {:induction false} ZombieTimesOfLiving(k: Kernel, cs: seq<ProcRef>)
    requires forall i :: 0 <= i < |cs| ==> cs[i] in k.procs && !k.procs[cs[i]].isZombie
    ensures ZombieTimes(k, cs) == (0, 0)
  {
    if |cs| > 0 {
      ZombieTimesOfLiving(k, cs[1..]);
    }
  }

  /** Each zombie child's time is part of the reported child times. */
  lemma {:induction false} ZombieTimesCover(k: Kernel, cs: seq<ProcRef>, i: nat)
    requires forall j :: 0 <= j < |cs| ==> cs[j] in k.procs
    requires i < |cs| && k.procs[cs[i]].isZombie
    ensures var t := k.procs[cs[i]].times;
      t.usr + t.childUsr <= ZombieTimes(k, cs).0 && t.sys + t.childSys <= ZombieTimes(k, cs).1
  {
    if i > 0 {
      ZombieTimesCover(k, cs[1..], i - 1);
    }
  }

  /** `sys_times(ptr)`: -1 for a null pointer. Otherwise the four words of
      the `Tms` at `ptr` (an unmapped one panics) receive the process's own
      user and system time and its children's, the latter increased by the
      times of its zombie children, all divided by the clock frequency
      `freq`; 0 is returned. */
  function SysTimes(k: Kernel, ptr: nat, mem: Futexes.UserWords, freq: nat): (r: Res<(int, Futexes.UserWords)>)
    requires HasCurrent(k) && freq > 0 && SysWait.ChildrenLive(k, CurrentProc(k))
    ensures ptr == 0 ==> r == Ok((-1, mem))
    ensures ptr != 0 ==>
      (r.Panic? <==> ptr !in mem || ptr + 8 !in mem || ptr + 16 !in mem || ptr + 24 !in mem)
    ensures r.Ok? && ptr != 0 ==>
      var p := k.procs[CurrentProc(k)];
      var z := ZombieTimes(k, p.children);
      var (ret, mem') := r.value;
      && ret == 0 && mem'.Keys == mem.Keys
      && mem'[ptr] == p.times.usr / freq
      && mem'[ptr + 8] == p.times.sys / freq
      && mem'[ptr + 16] == (p.times.childUsr + z.0) / freq
      && mem'[ptr + 24] == (p.times.childSys + z.1) / freq
      && (forall a :: a in mem && a != ptr && a != ptr + 8 && a != ptr + 16 && a != ptr + 24 ==> mem'[a] == mem[a])
  {
    if ptr == 0 then Ok((-1, mem))
    else if ptr !in mem || ptr + 8 !in mem || ptr + 16 !in mem || ptr + 24 !in mem then Panic
    else
      var p := k.procs[CurrentProc(k)];
      var z := ZombieTimes(k, p.children);
      var mem': Futexes.UserWords := mem[ptr := p.times.usr / freq][ptr + 8 := p.times.sys / freq]
                [ptr + 16 := (p.times.childUsr + z.0) / freq][ptr + 24 := (p.times.childSys + z.1) / freq];
      Ok((0, mem'))
  }
}

=== FILE: sys_uname.dfy ===
/** `sys_uname`: copy `SYS_INFO` byte by byte into the user's buffer, which
    the page tables present as a sequence of fragments. */
module SysUname {
  import opened Base
  import opened SysInfo
  import OsInodes

  function Sum(lens: seq<nat>): nat {
    if |lens| == 0 then 0 else Sum(lens[..|lens| - 1]) + lens[|lens| - 1]
  }

  /** `sys_uname(ptr)` with `frags` the fragment lengths
      `translated_byte_buffer` gives for the record (they cover its size
      exactly). A null pointer gives -1 and writes nothing; otherwise the
      fragments receive, in order, exactly the bytes of `SYS_INFO`, one byte
      per step, and 0 is returned. */
  method Uname(ptr: nat, frags: seq<nat>) returns (r: int, written: seq<seq<byte>>)
    requires ptr != 0 ==> Sum(frags) == SYSINFO_SIZE
    ensures ptr == 0 <==> r == -1
    ensures ptr == 0 ==> written == []
    ensures ptr != 0 ==>
      && r == 0 && |written| == |frags|
      && (forall i :: 0 <= i < |frags| ==> |written[i]| == frags[i])
      && OsInodes.Flatten(written) == SysInfoBytes()
  {
    if ptr == 0 {
      return -1, [];
    }
    var info := SysInfoBytes();
    var index := 0;
    written := [];
    var f := 0;
    while f < |frags|
      invariant 0 <= f <= |frags| && |written| == f
      invariant index == Sum(frags[..f]) && index <= SYSINFO_SIZE
      invariant forall i :: 0 <= i < f ==> |written[i]| == frags[i]
      invariant OsInodes.Flatten(written) == info[..index]
    {
      SumPrefixBound(frags, f + 1);
      assert frags[..f + 1][..f] == frags[..f];
      var chunk := CopyOut(info, index, frags[f]);
      assert info[..index + frags[f]] == info[..index] + chunk;
      FlattenAppend(written, chunk);
      written := written + [chunk];
      index := index + frags[f];
      f := f + 1;
    }
    assert frags[..|frags|] == frags;
    r := 0;
  }

  /** The inner loop: the next `n` bytes of the record, one at a time. */
  method CopyOut(info: seq<byte>, index: nat, n: nat) returns (chunk: seq<byte>)
    requires index + n <= |info|
    ensures chunk == info[index..index + n]
  {
    chunk := [];
    var c := 0;
    while c < n
      invariant 0 <= c <= n && chunk == info[index..index + c]
    {
      chunk := chunk + [info[index + c]];
      c := c + 1;
    }
  }

  lemma {:induction false} SumPrefixBound(lens: seq<nat>, n: nat)
    requires n <= |lens|
    ensures Sum(lens[..n]) <= Sum(lens)
    decreases |lens|
  {
    if n < |lens| {
      assert lens[..|lens| - 1][..n] == lens[..n];
      SumPrefixBound(lens[..|lens| - 1], n);
    } else {
      assert lens[..n] == lens;
    }
  }

  lemma {:induction false} FlattenAppend(cs: seq<seq<byte>>, c: seq<byte>)
    ensures OsInodes.Flatten(cs + [c]) == OsInodes.Flatten(cs) + c
    decreases |cs|
  {
    if |cs| == 0 {
      assert [] + [c] == [c];
    } else {
      assert (cs + [c])[1..] == cs[1..] + [c];
      FlattenAppend(cs[1..], c);
    }
  }
}

=== FILE: sys_wait.dfy ===
/** `waitpid` and `sys_wait4`: reaping the zombie children of the current
    process. The exit code is stored through a user pointer into the user
    words (`Futexes.UserWords`), where an unmapped address panics. */
module SysWait {
  import opened Base
  import opened Tasks
  import opened Pcbs
  import opened KernelState
  import Exit
  import Futexes

  /** A child is matched by `pid == -1 || pid as usize == child.pid`. */
  predicate Matches(pid: int, childPid: nat)
    requires IsIsize(pid)
  {
    pid == -1 || AsUsize(pid) == childPid
  }

  /** What the source relies on when it walks the children: each child is
      a live process, and its pid stays non-negative as an `isize`. */
  ghost predicate ChildrenLive(k: Kernel, q: ProcRef) {
    && q in k.procs
    && (forall i :: 0 <= i < |k.procs[q].children| ==>
          k.procs[q].children[i] in k.procs && k.procs[k.procs[q].children[i]].pid < USIZE_MOD + ISIZE_MIN)
  }

  /** Some child matches `pid`. */
  predicate AnyMatch(k: Kernel, cs: seq<ProcRef>, pid: int)
    requires IsIsize(pid) && forall i :: 0 <= i < |cs| ==> cs[i] in k.procs
  {
    exists i :: 0 <= i < |cs| && Matches(pid, k.procs[cs[i]].pid)
  }

  /** A child that can be reaped: a zombie that matches. */
  predicate Reapable(k: Kernel, c: ProcRef, pid: int)
    requires IsIsize(pid) && c in k.procs
  {
    k.procs[c].isZombie && Matches(pid, k.procs[c].pid)
  }

  /** The index of the first reapable child from index `from` on. */
  function FirstZombie(k: Kernel, cs: seq<ProcRef>, pid: int, from: nat): (r: Option<nat>)
    requires IsIsize(pid) && forall i :: 0 <= i < |cs| ==> cs[i] in k.procs
    ensures r.Some? ==> from <= r.value < |cs| && Reapable(k, cs[r.value], pid)
    ensures r.Some? ==> forall j :: from <= j < r.value ==> !Reapable(k, cs[j], pid)
    ensures r.None? ==> forall j :: from <= j < |cs| ==> !Reapable(k, cs[j], pid)
    decreases |cs| - from
  {
    if from >= |cs| then None
    else if Reapable(k, cs[from], pid) then Some(from)
    else FirstZombie(k, cs, pid, from + 1)
  }

  /** `children.remove(idx)`. */
  function RemoveAt(cs: seq<ProcRef>, idx: nat): (r: seq<ProcRef>)
    requires idx < |cs|
    ensures |r| == |cs| - 1
    ensures forall i :: 0 <= i < idx ==> r[i] == cs[i]
    ensures forall i :: idx <= i < |r| ==> r[i] == cs[i + 1]
  {
    cs[..idx] + cs[idx + 1..]
  }

  /** Someone besides the reaper's `child` handle still holds a strong
      reference to process `c`: it is INITPROC, the reaper itself, indexed
      by some pid, or still in some child list. */
  predicate StillShared(k: Kernel, q: ProcRef, c: ProcRef) {
    || c == k.initProc || c == q
    || (exists pid :: pid in k.pid2pcb && k.pid2pcb[pid] == c)
    || (exists p :: p in k.procs && c in k.procs[p].children)
  }

  /** `waitpid(pid, exit_code_ptr)` for the current process. No matching
      child: -1. Matching children but none a zombie: -2. Both leave
      everything as it was. Otherwise the first reapable child leaves the
      child list; the source asserts it now holds the last reference to
      the child (a panic otherwise), the child's record is freed, its exit
      code is stored at a non-null pointer (an unmapped one panics) and its
      pid is returned. */
  function Waitpid(k: Kernel, pid: int, ptr: nat, mem: Futexes.UserWords): (r: Res<(int, Kernel, Futexes.UserWords)>)
    requires HasCurrent(k) && IsIsize(pid) && ChildrenLive(k, CurrentProc(k))
    ensures var cs := k.procs[CurrentProc(k)].children;
      !AnyMatch(k, cs, pid) ==> r == Ok((-1, k, mem))
    ensures var cs := k.procs[CurrentProc(k)].children;
      AnyMatch(k, cs, pid) && FirstZombie(k, cs, pid, 0).None? ==> r == Ok((-2, k, mem))
    ensures var q := CurrentProc(k); var cs := k.procs[q].children;
      FirstZombie(k, cs, pid, 0).Some? ==>
        var idx := FirstZombie(k, cs, pid, 0).value;
        var c := cs[idx];
        var k1 := k.(procs := k.procs[q := k.procs[q].(children := RemoveAt(cs, idx))]);
        && (r.Panic? <==> StillShared(k1, q, c) || (ptr != 0 && ptr !in mem))
        && (r.Ok? ==>
              var (ret, k', mem') := r.value;
              && ret == k.procs[c].pid
              && k' == k1.(procs := k1.procs - {c})
              && (ptr == 0 ==> mem' == mem)
              && (ptr != 0 ==> mem' == mem[ptr := k.procs[c].exitCode]))
  {
    var q := CurrentProc(k);
    var cs := k.procs[q].children;
    if !AnyMatch(k, cs, pid) then Ok((-1, k, mem))
    else
      match FirstZombie(k, cs, pid, 0)
      case None => Ok((-2, k, mem))
      case Some(idx) =>
        var c := cs[idx];
        var k1 := k.(procs := k.procs[q := k.procs[q].(children := RemoveAt(cs, idx))]);
        if StillShared(k1, q, c) then Panic
        else
          var code := k.procs[c].exitCode;
          var k' := k1.(procs := k1.procs - {c});
          if ptr == 0 then Ok((AsIsize(k.procs[c].pid), k', mem))
          else if ptr !in mem then Panic
          else Ok((AsIsize(k.procs[c].pid), k', mem[ptr := code]))
  }

  /** Reaping a zombie child that has exited through the process part of
      `exit` (it holds `code << 8`, nobody else refers to it, and no other
      child has its pid): `waitpid(pid)` returns the pid, stores the wait
      status from which WEXITSTATUS recovers `code & 0xff`, and forgets the
      child, so a second `waitpid(pid)` finds no such child and gives -1. */
  lemma ReapExitedChild(k: Kernel, c: ProcRef, code: int, ptr: nat, mem: Futexes.UserWords)
    requires HasCurrent(k) && ChildrenLive(k, CurrentProc(k))
    requires var q := CurrentProc(k); var cs := k.procs[q].children;
      && Distinct(cs) && c in cs && c != q && c != k.initProc
      && k.procs[c].isZombie && k.procs[c].exitCode == Exit.WaitStatus(code) && IsI32(code)
      && (forall i :: 0 <= i < |cs| && k.procs[cs[i]].pid == k.procs[c].pid ==> cs[i] == c)
      && (forall pid :: pid in k.pid2pcb ==> k.pid2pcb[pid] != c)
      && (forall p :: p in k.procs && p != q ==> c !in k.procs[p].children)
    requires ptr != 0 && ptr in mem
    ensures var pid := k.procs[c].pid;
      var r := Waitpid(k, pid, ptr, mem);
      && r.Ok? && r.value.0 == pid
      && Exit.WExitStatus(r.value.2[ptr]) == Exit.LowByte(code)
      && c !in r.value.1.procs
      && HasCurrent(r.value.1) && ChildrenLive(r.value.1, CurrentProc(r.value.1))
      && Waitpid(r.value.1, pid, ptr, r.value.2) == Ok((-1, r.value.1, r.value.2))
  {
    var q := CurrentProc(k);
    var cs := k.procs[q].children;
    var pid := k.procs[c].pid;
    FirstZombieIsOnly(k, cs, c, pid);
    var idx := FirstZombie(k, cs, pid, 0).value;
    var rest := RemoveAt(cs, idx);
    RemoveAtDistinct(cs, idx);
    var k1 := k.(procs := k.procs[q := k.procs[q].(children := rest)]);
    assert !StillShared(k1, q, c);
    Exit.WExitStatusOfWaitStatus(code);
    var k' := k1.(procs := k1.procs - {c});
    assert Waitpid(k, pid, ptr, mem).value.1 == k';
    ReapForgetsChild(k, c, idx, pid);
  }

  /** Once the only child with a given pid is removed from the child list
      and freed, the reaper is still running and no child matches that pid. */
  lemma ReapForgetsChild(k: Kernel, c: ProcRef, idx: nat, pid: nat)
    requires HasCurrent(k) && ChildrenLive(k, CurrentProc(k))
    requires var cs := k.procs[CurrentProc(k)].children;
      && Distinct(cs) && idx < |cs| && cs[idx] == c && c != CurrentProc(k)
      && k.procs[c].pid == pid && pid < USIZE_MOD + ISIZE_MIN
      && (forall i :: 0 <= i < |cs| && k.procs[cs[i]].pid == pid ==> cs[i] == c)
    ensures var q := CurrentProc(k); var cs := k.procs[q].children;
      var k1 := k.(procs := k.procs[q := k.procs[q].(children := RemoveAt(cs, idx))]);
      var k' := k1.(procs := k1.procs - {c});
      && HasCurrent(k') && CurrentProc(k') == q && ChildrenLive(k', q)
      && !AnyMatch(k', k'.procs[q].children, pid)
  {
    var q := CurrentProc(k);
    var cs := k.procs[q].children;
    var rest := RemoveAt(cs, idx);
    RemoveAtDistinct(cs, idx);
    var k1 := k.(procs := k.procs[q := k.procs[q].(children := rest)]);
    var k' := k1.(procs := k1.procs - {c});
    assert CurrentProc(k') == q && k'.procs[q].children == rest;
    forall j | 0 <= j < |rest| ensures rest[j] in k'.procs && k'.procs[rest[j]].pid == k.procs[rest[j]].pid {
      if j < idx { assert rest[j] == cs[j]; } else { assert rest[j] == cs[j + 1]; }
    }
  }

  /** When `c` is the only child with its pid and is a zombie, it is the
      one `waitpid(pid)` picks. */
  lemma FirstZombieIsOnly(k: Kernel, cs: seq<ProcRef>, c: ProcRef, pid: nat)
    requires (forall i :: 0 <= i < |cs| ==> cs[i] in k.procs) && c in cs && c in k.procs
    requires pid < USIZE_MOD + ISIZE_MIN && k.procs[c].pid == pid && k.procs[c].isZombie
    requires forall i :: 0 <= i < |cs| && k.procs[cs[i]].pid == pid ==> cs[i] == c
    ensures FirstZombie(k, cs, pid, 0).Some? && cs[FirstZombie(k, cs, pid, 0).value] == c
  {
    var i :| 0 <= i < |cs| && cs[i] == c;
    assert Reapable(k, cs[i], pid);
  }

  /** Removing an element of a sequence without repetitions removes it
      for good. */
  lemma RemoveAtDistinct(cs: seq<ProcRef>, idx: nat)
    requires Distinct(cs) && idx < |cs|
    ensures cs[idx] !in RemoveAt(cs, idx)
  {
    var rest := RemoveAt(cs, idx);
    forall j | 0 <= j < |rest| ensures rest[j] != cs[idx] {
      if j < idx { assert rest[j] == cs[j]; } else { assert rest[j] == cs[j + 1]; }
    }
  }

  /** `sys_wait4(pid, exit_code_ptr)`: call `waitpid`, and while it answers
      -2 yield and call it again. `obs` holds the state each successive call
      finds (other tasks run in between). Returns the first answer that is
      not -2, with `n` the call that gave it, or None when every observed
      call still answered -2. So wait4 never returns -2. */
  method Wait4(obs: seq<(Kernel, Futexes.UserWords)>, pid: int, ptr: nat)
    returns (r: Option<Res<(int, Kernel, Futexes.UserWords)>>, n: nat)
    requires IsIsize(pid)
    requires forall i :: 0 <= i < |obs| ==> HasCurrent(obs[i].0) && ChildrenLive(obs[i].0, CurrentProc(obs[i].0))
    ensures n <= |obs|
    ensures r.None? <==> n == |obs|
    ensures forall j :: 0 <= j < n ==> Waitpid(obs[j].0, pid, ptr, obs[j].1) == Ok((-2, obs[j].0, obs[j].1))
    ensures r.Some? ==> r.value == Waitpid(obs[n].0, pid, ptr, obs[n].1)
    ensures r.Some? && r.value.Ok? ==> r.value.value.0 != -2
  {
    n := 0;
    while n < |obs|
      invariant n <= |obs|
      invariant forall j :: 0 <= j < n ==> Waitpid(obs[j].0, pid, ptr, obs[j].1) == Ok((-2, obs[j].0, obs[j].1))
    {
      var ret := Waitpid(obs[n].0, pid, ptr, obs[n].1);
      if !(ret.Ok? && ret.value.0 == -2) {
        assert ret.Ok? ==> ret.value.0 != -2;
        return Some(ret), n;
      }
      assert ret == Ok((-2, obs[n].0, obs[n].1)) by {
        WaitpidMinusTwo(obs[n].0, pid, ptr, obs[n].1);
      }
      n := n + 1;
    }
    r := None;
  }

  /** An answer of -2 leaves the state and the user words alone. */
  lemma WaitpidMinusTwo(k: Kernel, pid: int, ptr: nat, mem: Futexes.UserWords)
    requires HasCurrent(k) && IsIsize(pid) && ChildrenLive(k, CurrentProc(k))
    requires Waitpid(k, pid, ptr, mem).Ok? && Waitpid(k, pid, ptr, mem).value.0 == -2
    ensures Waitpid(k, pid, ptr, mem) == Ok((-2, k, mem))
  {
  }
}

=== FILE: sysinfo.dfy ===
/** The fixed `uname` record (`Sysinfo`, `SYS_INFO`): six 10-byte fields,
    each a name packed by `str_to_u8_array_10`. */
module SysInfo {
  import opened Base
  import Strings

  const FIELD_LEN: nat := 10
  const FIELD_COUNT: nat := 6
  /** `size_of::<Sysinfo>()`: six byte arrays, no padding. */
  const SYSINFO_SIZE: nat := FIELD_COUNT * FIELD_LEN

  const OS_NAME: string := "PeachOS"
  const NODE_NAME: string := "admin"
  const KERNEL_RELEASE: string := ""
  const KERNEL_VERSION: string := "PeachOS"
  const MACHINE: string := "riscv64"
  const KERNEL_NAME: string := "PeachCore"

  /** The bytes of an ASCII string (`as_bytes`). */
  function Ascii(s: string): (b: seq<byte>)
    requires forall i :: 0 <= i < |s| ==> s[i] as int < 256
    ensures |b| == |s| && forall i :: 0 <= i < |s| ==> b[i] == s[i] as int
  {
    seq(|s|, i requires 0 <= i < |s| => s[i] as int)
  }

  /** The packing `str_to_u8_array_10` performs: the first bytes of `s`, as
      many as fit in ten, then zeros. Longer strings are cut, not refused. */
  function Pack10(s: seq<byte>): (r: seq<byte>)
    ensures |r| == FIELD_LEN
    ensures forall i :: 0 <= i < |s| && i < FIELD_LEN ==> r[i] == s[i]
    ensures forall i :: |s| <= i < FIELD_LEN ==> r[i] == 0
  {
    seq(FIELD_LEN, i requires 0 <= i < FIELD_LEN => if i < |s| then s[i] else 0)
  }

  /** `str_to_u8_array_10`: the copy loop over a zeroed buffer. */
  method StrToU8Array10(s: seq<byte>) returns (buf: seq<byte>)
    ensures buf == Pack10(s)
  {
    buf := seq(FIELD_LEN, _ => 0);
    var i := 0;
    while i < |s| && i < FIELD_LEN
      invariant 0 <= i <= FIELD_LEN && i <= |s| && |buf| == FIELD_LEN
      invariant forall j :: 0 <= j < i ==> buf[j] == s[j]
      invariant forall j :: i <= j < FIELD_LEN ==> buf[j] == 0
    {
      buf := buf[i := s[i]];
      i := i + 1;
    }
  }

  /** Reading a field back: its C string, or all ten bytes when no NUL. */
  function Unpack10(b: seq<byte>): seq<byte> {
    match Strings.CString(b)
    case Some(t) => t
    case None => b
  }

  /** A name of at most ten bytes without NUL comes back from its field. */
  lemma PackUnpack(s: seq<byte>)
    requires |s| <= FIELD_LEN && Strings.NoNul(s)
    ensures Unpack10(Pack10(s)) == s
  {
    var b := Pack10(s);
    if |s| < FIELD_LEN {
      assert b[..|s|] == s;
      Strings.CStringOfTerminated(b, s);
    } else {
      assert b == s;
    }
  }

  /** A longer name is cut to its first ten bytes. */
  lemma PackTruncates(s: seq<byte>)
    requires |s| > FIELD_LEN
    ensures Pack10(s) == s[..FIELD_LEN]
  {
  }

  /** `SYS_INFO` as the bytes of the record, field after field. */
  function SysInfoBytes(): (b: seq<byte>)
    ensures |b| == SYSINFO_SIZE
  {
    Pack10(Ascii(OS_NAME)) + Pack10(Ascii(NODE_NAME)) + Pack10(Ascii(KERNEL_RELEASE))
      + Pack10(Ascii(KERNEL_VERSION)) + Pack10(Ascii(MACHINE)) + Pack10(Ascii(KERNEL_NAME))
  }

  /** Field `f` of the record: bytes 10 f to 10 f + 9. */
  function Field(b: seq<byte>, f: nat): seq<byte>
    requires |b| == SYSINFO_SIZE && f < FIELD_COUNT
  {
    b[f * FIELD_LEN..(f + 1) * FIELD_LEN]
  }

  /** Six ten-byte fields laid end to end are read back field by field. */
  lemma FieldsOfConcat(p0: seq<byte>, p1: seq<byte>, p2: seq<byte>, p3: seq<byte>, p4: seq<byte>, p5: seq<byte>)
    requires |p0| == |p1| == |p2| == |p3| == |p4| == |p5| == FIELD_LEN
    ensures var b := p0 + p1 + p2 + p3 + p4 + p5;
      && |b| == SYSINFO_SIZE
      && Field(b, 0) == p0 && Field(b, 1) == p1 && Field(b, 2) == p2
      && Field(b, 3) == p3 && Field(b, 4) == p4 && Field(b, 5) == p5
  {
    var b := p0 + p1 + p2 + p3 + p4 + p5;
    assert b[0..10] == p0 && b[10..20] == p1 && b[20..30] == p2;
    assert b[30..40] == p3 && b[40..50] == p4 && b[50..60] == p5;
  }

  /** The fields of `SYS_INFO` are the six packed names, in declaration
      order. */
  lemma SysInfoLayout()
    ensures Field(SysInfoBytes(), 0) == Pack10(Ascii(OS_NAME))
    ensures Field(SysInfoBytes(), 1) == Pack10(Ascii(NODE_NAME))
    ensures Field(SysInfoBytes(), 2) == Pack10(Ascii(KERNEL_RELEASE))
    ensures Field(SysInfoBytes(), 3) == Pack10(Ascii(KERNEL_VERSION))
    ensures Field(SysInfoBytes(), 4) == Pack10(Ascii(MACHINE))
    ensures Field(SysInfoBytes(), 5) == Pack10(Ascii(KERNEL_NAME))
  {
    FieldsOfConcat(Pack10(Ascii(OS_NAME)), Pack10(Ascii(NODE_NAME)), Pack10(Ascii(KERNEL_RELEASE)),
                   Pack10(Ascii(KERNEL_VERSION)), Pack10(Ascii(MACHINE)), Pack10(Ascii(KERNEL_NAME)));
  }

  /** A field holding a packed name of at most ten ASCII characters, none
      of them NUL, reads back as that name. */
  lemma FieldReadsBack(f: nat, name: string)
    requires f < FIELD_COUNT && |name| <= FIELD_LEN
    requires forall i :: 0 <= i < |name| ==> 0 < name[i] as int < 128
    requires Field(SysInfoBytes(), f) == Pack10(Ascii(name))
    ensures Unpack10(Field(SysInfoBytes(), f)) == Ascii(name)
  {
    PackUnpack(Ascii(name));
  }

  /** Each field of `SYS_INFO` reads back as its name, the empty kernel
      release included. */
  lemma SysInfoFields()
    ensures Unpack10(Field(SysInfoBytes(), 0)) == Ascii(OS_NAME)
    ensures Unpack10(Field(SysInfoBytes(), 1)) == Ascii(NODE_NAME)
    ensures Unpack10(Field(SysInfoBytes(), 2)) == Ascii(KERNEL_RELEASE)
    ensures Unpack10(Field(SysInfoBytes(), 3)) == Ascii(KERNEL_VERSION)
    ensures Unpack10(Field(SysInfoBytes(), 4)) == Ascii(MACHINE)
    ensures Unpack10(Field(SysInfoBytes(), 5)) == Ascii(KERNEL_NAME)
  {
    SysInfoLayout();
    FieldReadsBack(0, OS_NAME);
    FieldReadsBack(1, NODE_NAME);
    FieldReadsBack(2, KERNEL_RELEASE);
    FieldReadsBack(3, KERNEL_VERSION);
    FieldReadsBack(4, MACHINE);
    FieldReadsBack(5, KERNEL_NAME);
  }
}

=== FILE: task.dfy ===
/** Thread control blocks (`TaskStruct`) and their two constructors.

    An `Arc<TaskStruct>` is modelled by a `TaskRef`, a handle into the
    kernel-wide map of TCBs; an `Arc`/`Weak` to a process by a `ProcRef`. */
module Tasks {
  import opened Base
  import Trap

  type TaskRef = nat
  type ProcRef = nat

  datatype TaskStatus = Ready | Running | Blocked

  /** Where a saved kernel continuation resumes. */
  datatype ResumePoint = Nowhere | TrapReturn | KpthreadTrapReturn

  /** Saved callee-preserved state (`TaskContext`): return address and stack
      pointer; the saved `s` registers start at zero and are not tracked. */
  datatype TaskContext = TaskContext(ra: ResumePoint, sp: nat)

  /** `TaskContext::zero_init`. */
  const ZeroContext: TaskContext := TaskContext(Nowhere, 0)

  /** Per-thread user resources (`TaskUserRes`), handed out by the thread-id
      and page allocators that are not part of this model. */
  datatype TaskUserRes = TaskUserRes(tid: nat, ustackBase: nat, ustackTop: nat, trapCtxPpn: nat)

  datatype Tcb = Tcb(
    process: ProcRef,          // weak back-reference to the owning process
    kstackTop: nat,            // top of the exclusively owned kernel stack
    res: Option<TaskUserRes>,
    trapCtxPpn: nat,           // physical page holding the trap context
    taskCtx: TaskContext,
    status: TaskStatus,
    exitCode: Option<int>,
    cloneFlags: nat,           // flags the thread was cloned with
    ctidPtr: nat               // user address cleared on exit (CLONE_CHILD_CLEARTID)
  )

  type Tcbs = map<TaskRef, Tcb>

  /** State every freshly constructed TCB is in. */
  predicate Fresh(t: Tcb, process: ProcRef) {
    && t.process == process
    && t.status == Ready
    && t.exitCode.None?
    && t.res.Some?
  }

  /** `TaskStruct::new`: a thread of `process` owning `res` whose first
      switch-in resumes in `trap_return` on its own kernel stack. The source
      is seen with three arguments and, at a call site, with the clone flags
      and child-tid pointer as well; the three-argument form passes 0, 0. */
  function NewTask(process: ProcRef, res: TaskUserRes, kstackTop: nat, cloneFlags: nat, ctidPtr: nat): (t: Tcb)
    ensures Fresh(t, process)
    ensures t.res == Some(res) && t.trapCtxPpn == res.trapCtxPpn
    ensures t.taskCtx == TaskContext(TrapReturn, kstackTop) && t.kstackTop == kstackTop
    ensures t.cloneFlags == cloneFlags && t.ctidPtr == ctidPtr
  {
    Tcb(process, kstackTop, Some(res), res.trapCtxPpn, TaskContext(TrapReturn, kstackTop), Ready, None, cloneFlags, ctidPtr)
  }

  /** `TaskStruct::new_kpthread`: a kernel thread whose trap context sits on
      top of its kernel stack, so the saved continuation starts one
      `TrapContext` below the stack top and no trap-context page is used. */
  function NewKpthread(process: ProcRef, res: TaskUserRes, kstackTop: nat): (t: Tcb)
    requires kstackTop >= Trap.TRAP_CONTEXT_SIZE
    ensures Fresh(t, process)
    ensures t.res == Some(res) && t.trapCtxPpn == 0
    ensures t.taskCtx.ra == KpthreadTrapReturn
    ensures t.taskCtx.sp + Trap.TRAP_CONTEXT_SIZE == kstackTop
  {
    Tcb(process, kstackTop, Some(res), 0, TaskContext(KpthreadTrapReturn, kstackTop - Trap.TRAP_CONTEXT_SIZE), Ready, None, 0, 0)
  }

  /** Change one TCB's status, through its exclusive-access cell. */
  function SetStatus(tcbs: Tcbs, t: TaskRef, s: TaskStatus): (r: Tcbs)
    requires t in tcbs
    ensures r.Keys == tcbs.Keys
    ensures r[t].status == s && r[t].(status := tcbs[t].status) == tcbs[t]
    ensures forall u :: u in tcbs && u != t ==> r[u] == tcbs[u]
  {
    tcbs[t := tcbs[t].(status := s)]
  }
}

=== FILE: trap_context.dfy ===
/** The user-mode register image saved on a trap (`TrapContext`) and its
    constructors for a fresh user program and for a kernel-mode thread. */
module Trap {

  /** Previous-privilege field (SPP) of `sstatus`. */
  datatype Spp = User | Supervisor

  /** The `sstatus` CSR: the two fields the kernel sets, plus every other bit
      exactly as read from the hardware. */
  datatype Sstatus = Sstatus(spp: Spp, spie: bool, otherBits: nat)

  datatype TrapContext = TrapContext(
    x: seq<nat>,          // general-purpose registers x0..x31
    sstatus: Sstatus,
    sepc: nat,            // user program counter to resume at
    kernelSatp: nat,      // kernel page-table token
    kernelSp: nat,        // kernel stack of the owning thread
    trapHandler: nat,     // address of the kernel trap handler
    fx: seq<nat>          // floating-point registers f0..f31
  )

  const REG_COUNT: nat := 32
  const SP: nat := 2      // x2 is the stack pointer
  const A0: nat := 10     // x10 carries the first argument / return value
  const A1: nat := 11

  /** `size_of::<TrapContext>()` on a 64-bit target: 32 + 32 machine words for
      the register files, one for `sstatus` and four for the scalar fields. */
  const TRAP_CONTEXT_SIZE: nat := (REG_COUNT + 1 + 4 + REG_COUNT) * 8

  predicate WellFormed(c: TrapContext) {
    |c.x| == REG_COUNT && |c.fx| == REG_COUNT
  }

  /** A register file with every register 0. */
  function ZeroRegs(): seq<nat> {
    seq(REG_COUNT, _ => 0)
  }

  /** `set_sp`: writes x2 and nothing else. */
  function SetSp(c: TrapContext, sp: nat): (r: TrapContext)
    requires WellFormed(c)
    ensures WellFormed(r)
    ensures r.x[SP] == sp
    ensures forall i :: 0 <= i < REG_COUNT && i != SP ==> r.x[i] == c.x[i]
    ensures r.(x := c.x) == c
  {
    c.(x := c.x[SP := sp])
  }

  /** Shared shape of both constructors: all registers zero except the stack
      pointer, with the given program counter and kernel fields. */
  function InitContext(st: Sstatus, entry: nat, userSp: nat, satp: nat, kernelSp: nat, handler: nat): TrapContext {
    SetSp(TrapContext(ZeroRegs(), st, entry, satp, kernelSp, handler, ZeroRegs()), userSp)
  }

  /** Register layout promised by both constructors. */
  predicate InitialLayout(c: TrapContext, entry: nat, userSp: nat, satp: nat, kernelSp: nat, handler: nat) {
    && WellFormed(c)
    && c.x[SP] == userSp
    && (forall i :: 0 <= i < REG_COUNT && i != SP ==> c.x[i] == 0)
    && (forall i :: 0 <= i < REG_COUNT ==> c.fx[i] == 0)
    && c.sepc == entry && c.kernelSatp == satp && c.kernelSp == kernelSp && c.trapHandler == handler
  }

  /** `app_init_context`: the trap image of a user program about to start at
      `entry`; `current` is the value read from the `sstatus` CSR. */
  function AppInitContext(current: Sstatus, entry: nat, userSp: nat, satp: nat, kernelSp: nat, handler: nat): (c: TrapContext)
    ensures InitialLayout(c, entry, userSp, satp, kernelSp, handler)
    ensures c.sstatus.spp == User
    ensures c.sstatus.spie == current.spie && c.sstatus.otherBits == current.otherBits
  {
    InitContext(current.(spp := User), entry, userSp, satp, kernelSp, handler)
  }

  /** `kpthread_init_context`: as above, but the thread returns to supervisor
      mode with interrupts enabled after `sret` (SPIE set). */
  function KpthreadInitContext(current: Sstatus, entry: nat, userSp: nat, satp: nat, kernelSp: nat, handler: nat): (c: TrapContext)
    ensures InitialLayout(c, entry, userSp, satp, kernelSp, handler)
    ensures c.sstatus.spp == Supervisor && c.sstatus.spie
    ensures c.sstatus.otherBits == current.otherBits
  {
    InitContext(current.(spp := Supervisor, spie := true), entry, userSp, satp, kernelSp, handler)
  }

  /** The two constructors differ only in `sstatus`. */
  lemma InitContextsDifferOnlyInStatus(current: Sstatus, entry: nat, userSp: nat, satp: nat, kernelSp: nat, handler: nat)
    ensures AppInitContext(current, entry, userSp, satp, kernelSp, handler).(sstatus := current)
         == KpthreadInitContext(current, entry, userSp, satp, kernelSp, handler).(sstatus := current)
  {
  }
}

=== FILE: wait_queue.dfy ===
/** `WaitQueue`: a FIFO of blocked tasks plus a one-byte spin-lock flag, and
    the lock guard through which it is used.

    The spin loop and the atomics are sequential here: the flag is a plain
    value, and the guard is the queue itself reached through the guard. */
module WaitQueues {
  import opened Base
  import opened Tasks

  const FREE: nat := 0
  const LOCK: nat := 1

  datatype WaitQueue = WaitQueue(queue: seq<TaskRef>, lock: nat)

  /** `WaitQueue::new`. */
  function New(): (w: WaitQueue)
    ensures w.queue == [] && w.lock == FREE
    ensures Len(w) == 0
  {
    WaitQueue([], FREE)
  }

  /** `take`: pop the front task; the task's status is left alone. */
  function Take(w: WaitQueue): (r: (Option<TaskRef>, WaitQueue))
    ensures r.0.None? <==> w.queue == []
    ensures r.0.None? ==> r.1 == w
    ensures r.0.Some? ==> r.0.value == w.queue[0] && [r.0.value] + r.1.queue == w.queue
    ensures r.1.lock == w.lock
  {
    if w.queue == [] then (None, w) else (Some(w.queue[0]), w.(queue := w.queue[1..]))
  }

  /** `add`: mark the task Blocked and append it at the back. */
  function Add(w: WaitQueue, tcbs: Tcbs, t: TaskRef): (r: (WaitQueue, Tcbs))
    requires t in tcbs
    ensures r.0.queue == w.queue + [t] && r.0.lock == w.lock
    ensures r.1 == SetStatus(tcbs, t, Blocked)
  {
    (w.(queue := w.queue + [t]), SetStatus(tcbs, t, Blocked))
  }

  /** `len`: the number of waiters; zero exactly when `take` finds nobody. */
  function Len(w: WaitQueue): (n: nat)
    ensures n == |w.queue|
    ensures n == 0 <==> Take(w).0.None?
  {
    |w.queue|
  }

  lemma LenAddTake(w: WaitQueue, tcbs: Tcbs, t: TaskRef)
    requires t in tcbs
    ensures Len(Add(w, tcbs, t).0) == Len(w) + 1
    ensures Len(Take(w).1) == if Len(w) == 0 then 0 else Len(w) - 1
  {
  }

  /** One iteration of the spin in `lock`: atomically swap LOCK in and report
      whether the old value was FREE. */
  function TryAcquire(w: WaitQueue): (r: (bool, WaitQueue))
    ensures r.0 <==> w.lock == FREE
    ensures r.1 == w.(lock := LOCK)
  {
    (w.lock == FREE, w.(lock := LOCK))
  }

  /** `lock`: returns once a swap found the flag FREE. On a single core a held
      flag is never released while spinning, so the loop only returns when the
      flag is FREE on entry. */
  function Lock(w: WaitQueue): (g: WaitQueue)
    requires w.lock == FREE
    ensures g.lock == LOCK && g.queue == w.queue
  {
    var (acquired, w') := TryAcquire(w);
    assert acquired;
    w'
  }

  /** Dropping the guard (`unlock`): store FREE, queue untouched. */
  function Unlock(w: WaitQueue): (r: WaitQueue)
    ensures r.lock == FREE && r.queue == w.queue
  {
    w.(lock := FREE)
  }

  /** `WaitQueueLockGuard::take`: the queue operation, flag untouched. */
  function GuardTake(g: WaitQueue): (r: (Option<TaskRef>, WaitQueue))
    ensures r == Take(g) && r.1.lock == g.lock
  {
    Take(g)
  }

  /** `WaitQueueLockGuard::add`: the queue operation, flag untouched. */
  function GuardAdd(g: WaitQueue, tcbs: Tcbs, t: TaskRef): (r: (WaitQueue, Tcbs))
    requires t in tcbs
    ensures r == Add(g, tcbs, t) && r.0.lock == g.lock
  {
    Add(g, tcbs, t)
  }

  /** A lock/operate/drop round trip leaves the flag FREE again. */
  lemma GuardedAddReleases(w: WaitQueue, tcbs: Tcbs, t: TaskRef)
    requires w.lock == FREE && t in tcbs
    ensures Unlock(GuardAdd(Lock(w), tcbs, t).0) == Add(w, tcbs, t).0
  {
  }

  /** `add` each task of `ts` in turn. */
  function AddAll(w: WaitQueue, tcbs: Tcbs, ts: seq<TaskRef>): (r: (WaitQueue, Tcbs))
    requires forall i :: 0 <= i < |ts| ==> ts[i] in tcbs
    ensures r.1.Keys == tcbs.Keys
    decreases |ts|
  {
    if ts == [] then (w, tcbs)
    else
      var (w1, t1) := Add(w, tcbs, ts[0]);
      AddAll(w1, t1, ts[1..])
  }

  /** `take` up to `n` times, collecting the tasks taken. */
  function TakeN(w: WaitQueue, n: nat): (r: (seq<TaskRef>, WaitQueue))
    decreases n
  {
    if n == 0 then ([], w)
    else
      match Take(w)
      case (None, w1) => ([], w1)
      case (Some(t), w1) =>
        var (rest, w2) := TakeN(w1, n - 1);
        ([t] + rest, w2)
  }

  lemma {:induction false} AddAllAppends(w: WaitQueue, tcbs: Tcbs, ts: seq<TaskRef>)
    requires forall i :: 0 <= i < |ts| ==> ts[i] in tcbs
    ensures AddAll(w, tcbs, ts).0.queue == w.queue + ts
    ensures AddAll(w, tcbs, ts).0.lock == w.lock
    ensures forall i :: 0 <= i < |ts| ==> AddAll(w, tcbs, ts).1[ts[i]].status == Blocked
    decreases |ts|
  {
    if ts != [] {
      var (w1, t1) := Add(w, tcbs, ts[0]);
      AddAllAppends(w1, t1, ts[1..]);
      assert w1.queue + ts[1..] == w.queue + ts;
      AddAllKeepsBlocked(w1, t1, ts[1..], ts[0]);
      forall i | 1 <= i < |ts|
        ensures AddAll(w, tcbs, ts).1[ts[i]].status == Blocked
      {
        assert ts[i] == ts[1..][i - 1];
      }
    }
  }

  lemma {:induction false} AddAllKeepsBlocked(w: WaitQueue, tcbs: Tcbs, ts: seq<TaskRef>, u: TaskRef)
    requires forall i :: 0 <= i < |ts| ==> ts[i] in tcbs
    requires u in tcbs && tcbs[u].status == Blocked
    ensures AddAll(w, tcbs, ts).1[u].status == Blocked
    decreases |ts|
  {
    if ts != [] {
      var (w1, t1) := Add(w, tcbs, ts[0]);
      AddAllKeepsBlocked(w1, t1, ts[1..], u);
    }
  }

  /** `take`ing `n` tasks yields the `n` oldest, in queue order. */
  lemma {:induction false} TakeNTakesPrefix(w: WaitQueue, n: nat)
    ensures var (taken, w') := TakeN(w, n);
      && (n <= |w.queue| ==> taken == w.queue[..n] && w'.queue == w.queue[n..])
      && (n > |w.queue| ==> taken == w.queue && w'.queue == [])
      && w'.lock == w.lock
    decreases n
  {
    if n > 0 && w.queue != [] {
      var (_, w1) := Take(w);
      TakeNTakesPrefix(w1, n - 1);
      assert w.queue == [w.queue[0]] + w1.queue;
    }
  }

  /** FIFO: whatever is added to an empty queue is taken back in insertion order. */
  lemma FifoOrder(tcbs: Tcbs, ts: seq<TaskRef>)
    requires forall i :: 0 <= i < |ts| ==> ts[i] in tcbs
    ensures TakeN(AddAll(New(), tcbs, ts).0, |ts|).0 == ts
  {
    AddAllAppends(New(), tcbs, ts);
    TakeNTakesPrefix(AddAll(New(), tcbs, ts).0, |ts|);
  }
}
